=== FILE: README.md ===
# Layout engine of optimize-pdf-ereaders, modelled in Dafny

optimize-pdf-ereaders turns a scanned PDF into images sized for an e-reader
screen. OCR gives it a list of words per page. It then:

- groups the words into text lines and text blocks;
- cleans up the blocks until no two overlap;
- splits each block into paragraphs, finds the white spaces between them and
  detects a page spread holding two pages;
- hands the paragraphs, in reading order, to a paginator. The paginator cuts
  paragraphs that are too tall between two lines of text, scales every
  paragraph by one ratio, and packs them into fixed-size output pages.

This project models that layout core:

- the rectangles and their geometry (`Geometry`);
- the zones, words and word containers (`TextZones`, `Sides`, `Words`,
  `WordsContainers`, `OcrModel`);
- the grouping predicates and the aggregator (`GroupPredicates`, `Aggregation`);
- the paragraph detection and cut adjustment (`Paragraphs`);
- the white-space bands (`WhiteSpaces`);
- the page layout steps (`PageLayout`, `OcrModel.Page`);
- the paginator (`Pagination`);
- the request validation (`RequestConfigs`).

Pure code is written as functions with lemmas. Objects whose fields change
(pages, word containers, the aggregator, the paginator, the request
configuration) are classes whose methods state their new state.

Integers are unbounded. The few float constants of the source are exact
fractions: a width grown by 20% is `w / 5` added on each side, and 80%
inclusion is `5 * overlap >= 4 * area`. Ratios in the paginator are `real`s.

## Model

| member | source | states |
|---|---|---|
| Geometry.Intersection | src/main/java/dev/encelade/utils/GeometryUtils.java:38-50 | nothing exactly when the rectangles do not overlap with positive area; otherwise a non-empty box inside both whose cells are exactly the cells the two share |
| Geometry.OverlapArea | src/main/java/dev/encelade/utils/GeometryUtils.java:38-50 | never negative, and positive exactly when the rectangles intersect |
| Geometry.IntersectionCommutes | src/main/java/dev/encelade/utils/GeometryUtils.java:38-50 | the intersection, and whether there is one, do not depend on the order of the arguments |
| Geometry.BoundingBox | src/main/java/dev/encelade/utils/GeometryUtils.java:117-127 | contains every rectangle of a non-empty list, and each of its four edges is the edge of some input |
| Geometry.MergeRectangles | src/main/java/dev/encelade/utils/GeometryUtils.java:111-129 | fails with IllegalArgument exactly on the empty list, returns the only element of a one-element list, and otherwise the bounding box that holds every input and takes each edge from some input |
| Geometry.SingletonIsOwnBoundingBox | src/main/java/dev/encelade/utils/GeometryUtils.java:111-127 | the one-element shortcut returns what the general bounding box would |
| Geometry.SpannedIsBoundingBox | src/main/java/dev/encelade/utils/GeometryUtils.java:117-127 | a rectangle whose four edges come from input rectangles it contains is the bounding box of exactly those inputs |
| Geometry.MergeSpanned | src/main/java/dev/encelade/utils/GeometryUtils.java:131-133 | merging two rectangles each spanned by inputs gives a rectangle spanned by inputs |
| Geometry.Merge2 | src/main/java/dev/encelade/utils/GeometryUtils.java:131-133 | the merged box of two rectangles holds both |
| Geometry.MergeOfTwo | src/main/java/dev/encelade/utils/GeometryUtils.java:131-133 | merging the blocks of two zones is the bounding box of their two rectangles, and never fails |
| Geometry.DistanceBetween | src/main/java/dev/encelade/utils/GeometryUtils.java:72-109 | 0 when the rectangles are apart on neither axis; the positive axis gap (such as `x1 - x2b`) when apart on exactly one axis; a corner-to-corner distance exactly when apart on both |
| Geometry.IntersectingAtDistanceZero | src/main/java/dev/encelade/utils/GeometryUtils.java:72-109 | rectangles that overlap are at distance 0 |
| TextZones.WidthExpanded | src/main/java/be/enceladus/scan2ereader/core/ocr/model/TextZone.java:76-81 | same rows; each side moved out by a fifth of the width rounded toward zero, so the zone is inside it |
| TextZones.HeightExpanded | src/main/java/be/enceladus/scan2ereader/core/ocr/model/TextZone.java:69-74 | same columns; top and bottom moved out by a fifth of the height rounded toward zero, so the zone is inside it |
| TextZones.MostlyIncludedMeaning | src/main/java/be/enceladus/scan2ereader/core/ocr/model/TextZone.java:141-156 | 80% inclusion holds exactly when the zone overlaps the reference with positive area and 5 times the overlap is at least 4 times the zone's area |
| TextZones.CompletelyIncludedIffContained | src/main/java/be/enceladus/scan2ereader/core/ocr/model/TextZone.java:127-156 | 100% inclusion is the same as a non-empty zone lying inside the reference |
| TextZones.ValidIff | src/main/java/be/enceladus/scan2ereader/core/ocr/model/TextZone.java:107-125 | a zone is valid exactly when it lies in the page, is wider than 10 pixels and than 1% of the page width, and is taller than 3 pixels |
| TextZones.ControlRectangle | src/main/java/be/enceladus/scan2ereader/core/ocr/model/TextZone.java:183-196 | the strip from the zone to the page edge on the given side, on the zone's rows or columns; it never overlaps the zone, and it stays in the page when the zone does |
| TextZones.MergeWith | src/main/java/be/enceladus/scan2ereader/core/ocr/model/TextZone.java:170-172 | the zone keeps its kind and grows to hold both rectangles |
| TextZones.FirstHit | src/main/java/be/enceladus/scan2ereader/core/ocr/model/TextZone.java:211-216 | the position of the first kept zone that the band intersects: no earlier zone is hit, and the end of the list means none is |
| TextZones.MergeStepFits | src/main/java/be/enceladus/scan2ereader/core/ocr/model/TextZone.java:211-216 | merging an input zone into a kept zone leaves every kept zone's origin, order and containment intact |
| TextZones.AppendStepFits | src/main/java/be/enceladus/scan2ereader/core/ocr/model/TextZone.java:218-221 | appending an input zone that hit nothing makes it the origin of the new last kept zone |
| TextZones.MergedHorizontallyOrigins | src/main/java/be/enceladus/scan2ereader/core/ocr/model/TextZone.java:202-226 | the result is never longer than the input; each result zone starts from an input zone of the same kind, with origins in increasing input order |
| TextZones.MergedHorizontallySpanned | src/main/java/be/enceladus/scan2ereader/core/ocr/model/TextZone.java:202-226 | every result zone is the bounding box of the input zones it contains |
| TextZones.MergedHorizontallyCovers | src/main/java/be/enceladus/scan2ereader/core/ocr/model/TextZone.java:202-226 | every input zone lies inside some zone of the result |
| TextZones.MergeHorizontally | src/main/java/be/enceladus/scan2ereader/core/ocr/model/TextZone.java:202-226 | the in-place loop over the kept zones returns the merge defined zone by zone, whose shape and coverage the two lemmas above give |
| TextZones.ValidCutMeaning | src/main/java/be/enceladus/scan2ereader/core/ocr/model/TextZone.java:198-240 | a cut may be added exactly when it lies strictly inside the zone, is at least 5% of the height (rounded toward zero) away from every kept cut, and, once a cut is kept, as far from the bottom |
| TextZones.AcceptedCutsAreSpaced | src/main/java/be/enceladus/scan2ereader/core/ocr/model/TextZone.java:231-240 | cuts kept one by one lie strictly inside the zone and are pairwise at least the minimum spacing apart |
| TextZones.SliceBoundsFacts | src/main/java/be/enceladus/scan2ereader/core/ocr/model/TextZone.java:263-266 | the bounds are 0 followed by the cuts in increasing order, all inside the zone, one more than the cuts |
| TextZones.BuildSlices | src/main/java/be/enceladus/scan2ereader/core/ocr/model/TextZone.java:278-296 | one slice per bound, the i-th running from bound i to the next bound or to the height |
| TextZones.GoodCutsTile | src/main/java/be/enceladus/scan2ereader/core/ocr/model/TextZone.java:245-317 | for good cuts the slices are one more than the cuts, tile the zone from top to bottom on its columns, keep the requested kind, and start exactly at the cuts |
| TextZones.SlicesStartAtCuts | src/main/java/be/enceladus/scan2ereader/core/ocr/model/TextZone.java:278-317 | every slice after the first starts at a cut, and every cut starts a slice |
| TextZones.SlicesOf | src/main/java/be/enceladus/scan2ereader/core/ocr/model/TextZone.java:245-299 | IllegalArgument exactly when the cut list is empty, holds a duplicate or a cut outside (0, height); otherwise cuts+1 slices of the requested kind that tile the zone and start at the cuts |
| TextZones.TilingHeightsSum | src/main/java/be/enceladus/scan2ereader/core/ocr/model/TextZone.java:301-317 | slices that tile a zone have heights adding up to its height |
| TextZones.StackedHeights | src/main/java/be/enceladus/scan2ereader/core/ocr/model/TextZone.java:301-317 | zones stacked without gaps have heights adding up to the distance from the first top to the last bottom |
| TextZones.SliceOnY | src/main/java/be/enceladus/scan2ereader/core/ocr/model/TextZone.java:245-299 | the method with its three checks and its loop over the bounds returns exactly the slices, or the failure, given above |
| TextZones.AcceptedCutsSlice | src/main/java/be/enceladus/scan2ereader/core/ocr/model/TextZone.java:231-299 | cuts accepted one by one in a zone at least 20 pixels tall always pass the checks of `sliceOnY` |
| TextZones.ShortZoneAcceptsDuplicateCut | src/main/java/be/enceladus/scan2ereader/core/ocr/model/TextZone.java:231-253 | in a 19-pixel zone the spacing rounds to 0, so the cut 5 is accepted twice and `sliceOnY` then throws on the duplicate |
| Sides.Ordinal | src/main/java/be/enceladus/scan2ereader/core/ocr/model/Side.java:16 | the position of a side in the declared order TOP, RIGHT, BOTTOM, LEFT |
| Sides.NextPreviousCycle | src/main/java/be/enceladus/scan2ereader/core/ocr/model/Side.java:120-140 | `next` walks TOP, RIGHT, BOTTOM, LEFT and wraps back to TOP; `previous` undoes it; four steps return to the start |
| Sides.DirectionalSteps | src/main/java/be/enceladus/scan2ereader/core/ocr/model/Side.java:120-133 | counter-clockwise `next` is `previous` and the reverse; stepping forward then back in the same direction returns to the start |
| Sides.ListAllSides | src/main/java/be/enceladus/scan2ereader/core/ocr/model/Side.java:108-118 | four sides starting with TOP, each the next in the walking direction, all four present |
| Sides.ColorsIdentifySides | src/main/java/be/enceladus/scan2ereader/core/ocr/model/Side.java:146-160 | different sides have different colours, so a word's mark tells the side it was found on |
| Sides.GetPoint | src/main/java/be/enceladus/scan2ereader/core/ocr/model/Side.java:77-91 | succeeds exactly for a horizontal then a vertical side, and then gives the corner on that pair of edges; otherwise IllegalArgument |
| Sides.AnglesPairs | src/main/java/be/enceladus/scan2ereader/core/ocr/model/Side.java:20-27 | four pairs, each a horizontal side then a vertical one |
| Sides.AnglesPairsAreCorners | src/main/java/be/enceladus/scan2ereader/core/ocr/model/Side.java:20-27 | on a non-empty rectangle every angle pair gives a corner, and the four corners are distinct |
| Sides.CornersChain | src/main/java/be/enceladus/scan2ereader/core/ocr/model/Side.java:29-47 | a side's end corner is the begin corner of the next side in the walking direction; the opposite point differs from the begin point unless the rectangle is flat |
| Sides.Direction | src/main/java/be/enceladus/scan2ereader/core/ocr/model/Side.java:93-106 | +1 or -1, and +1 exactly when walking clockwise along TOP or RIGHT or counter-clockwise along BOTTOM or LEFT |
| Sides.RangeClosed | src/main/java/be/enceladus/scan2ereader/core/ocr/model/Side.java:61 | the integers from `from` to `to` inclusive, in increasing order, none when `from > to` |
| Sides.Reverse | src/main/java/be/enceladus/scan2ereader/core/ocr/model/Side.java:70-72 | the same elements in the opposite order |
| Sides.PointsSweepTheSide | src/main/java/be/enceladus/scan2ereader/core/ocr/model/Side.java:49-75 | on a rectangle of non-negative size the points start at the begin corner, end at the end corner, and move one pixel at a time along the side in its direction |
| Sides.CollisionRectangle | src/main/java/be/enceladus/scan2ereader/core/ocr/model/Side.java:162-180 | a 2-pixel strip on the left or right edge, the upper half for TOP (height halved toward zero), the rectangle itself for BOTTOM; inside the rectangle when it is at least 2 wide |
| Sides.MarginRectangle | src/main/java/be/enceladus/scan2ereader/core/ocr/model/Side.java:186-203 | a strip of 2% of the width or height, rounded toward zero, on the side's own edge of the area, inside the area |
| Sides.MarginRectangles | src/main/java/be/enceladus/scan2ereader/core/ocr/model/Side.java:182-184 | the margin strips of the four sides in clockwise order |
| Words.Word.constructor | src/main/java/be/enceladus/scan2ereader/core/ocr/model/Word.java:21-23 | a word with the given box, text and confidence, and no mark |
| Words.Word.Mark | src/main/java/be/enceladus/scan2ereader/core/ocr/model/TextZone.java:95-97 | the new mark replaces the previous one |
| Words.WordValidIff | src/main/java/be/enceladus/scan2ereader/core/ocr/model/Word.java:26-32 | a word is valid exactly when its text matches `^[a-zA-Z0-9]*$` or its confidence is above 50%, and its zone is valid |
| Words.ConfidentWordSkipsTextCheck | src/main/java/be/enceladus/scan2ereader/core/ocr/model/Word.java:27-29 | above 50% confidence only the zone rules decide |
| Words.EmptyTextSkipsTextCheck | src/main/java/be/enceladus/scan2ereader/core/ocr/model/Word.java:27-29 | the empty text matches the pattern, so only the zone rules decide |
| Words.PunctuationNeedsConfidence | src/main/java/be/enceladus/scan2ereader/core/ocr/model/Word.java:27-29 | a text with a character outside `[a-zA-Z0-9]` and a confidence of at most 50% is invalid |
| WordsContainers.IncludedWords | src/main/java/dev/encelade/ocr/model/WordsContainerTextZone.java:21-26 | exactly the page words at least 80% inside the zone, never more than the page holds |
| WordsContainers.IncludedWordsAppend | src/main/java/dev/encelade/ocr/model/WordsContainerTextZone.java:21-26 | the filter keeps page order: the included words of a concatenation are the concatenation of the included words |
| WordsContainers.WordsOnTheSideBorder | src/main/java/dev/encelade/ocr/model/WordsContainerTextZone.java:29-57 | exactly the included words whose control rectangle on that side no other included word overlaps |
| WordsContainers.BordersOfNonEmptyZone | src/main/java/dev/encelade/ocr/model/WordsContainerTextZone.java:29-57 | a zone holding words has at least one word on each of its four borders |
| WordsContainers.ExtremeWord | src/main/java/dev/encelade/ocr/model/WordsContainerTextZone.java:50-57 | a non-empty word list has a word that is outermost towards the side |
| WordsContainers.CountLines | src/main/java/dev/encelade/ocr/model/WordsContainerTextZone.java:59-61 | at least as many as the left-border and as the right-border words, at most the included words, and at least 1 when the zone holds a word |
| WordsContainers.WordsOnTheSideOf | src/main/java/dev/encelade/ocr/model/WordsContainerTextZone.java:38-45 | exactly the included words overlapping the other zone's control rectangle on that side; on the right they reach past that zone's right edge |
| WordsContainers.TextOf | src/main/java/dev/encelade/ocr/model/WordsContainerTextZone.java:74-81 | each word's text followed by one space, so a non-empty result ends in a space |
| WordsContainers.TextOfAppend | src/main/java/dev/encelade/ocr/model/WordsContainerTextZone.java:74-81 | the text of a concatenation is the concatenation of the texts |
| WordsContainers.ReferenceHeight | src/main/java/dev/encelade/ocr/model/WordsContainerTextZone.java:92-99 | the height of the tallest included word, or the zone's own height when it holds none |
| WordsContainers.UpRectangle | src/main/java/dev/encelade/ocr/model/WordsContainerTextZone.java:83-85 | on the zone's columns, ending at the zone's top, with the reference height scaled by the percentage and rounded toward zero |
| WordsContainers.DownRectangle | src/main/java/dev/encelade/ocr/model/WordsContainerTextZone.java:87-89 | on the zone's columns, starting at the zone's bottom, with the same scaled height |
| GroupPredicates.SameLineLastOnly | src/main/java/dev/encelade/processing/aggregation/SameLinePredicate.java:17-24 | only the last word of a non-empty group is consulted |
| GroupPredicates.SameLineSymmetric | src/main/java/dev/encelade/processing/aggregation/SameLinePredicate.java:23 | a word is on the same line as a one-word group exactly when the reverse holds |
| GroupPredicates.SameLineMeaning | src/main/java/dev/encelade/processing/aggregation/SameLinePredicate.java:17-24 | two words are on the same line when both widened boxes have area, their rows overlap, and the horizontal gap either way is below the sum of a fifth of each width |
| GroupPredicates.Lowest | src/main/java/dev/encelade/processing/aggregation/SameTextBlockPredicate.java:23 | the first member of a non-empty group that reaches lowest on the page: none reaches lower, and every earlier one stops higher |
| GroupPredicates.SameTextBlockMeaning | src/main/java/dev/encelade/processing/aggregation/SameTextBlockPredicate.java:18-31 | a line joins a non-empty group exactly when it starts strictly below the group's lowest line, shares columns with it, and the gap is shorter than the two 60% strips together |
| GroupPredicates.TouchingLineStartsNewBlock | src/main/java/dev/encelade/processing/aggregation/SameTextBlockPredicate.java:23-30 | a line whose top is at or above the bottom of the group's lowest line never joins the group |
| Aggregation.Range | src/main/java/be/enceladus/scan2ereader/core/processing/aggregation/Aggregator.java:25 | the positions 0 to n-1 in order |
| Aggregation.Pick | src/main/java/be/enceladus/scan2ereader/core/processing/aggregation/Aggregator.java:25-31 | the items at the given positions, in that order |
| Aggregation.Materialize | src/main/java/be/enceladus/scan2ereader/core/processing/aggregation/Aggregator.java:25-31 | each group of positions replaced by the items at those positions |
| Aggregation.FirstFit | src/main/java/be/enceladus/scan2ereader/core/processing/aggregation/Aggregator.java:36-42 | the first group that accepts the item, or the end of the list (Java's null) when none does |
| Aggregation.IndexGroups | src/main/java/be/enceladus/scan2ereader/core/processing/aggregation/Aggregator.java:22-34 | every position held after the first n items is below n |
| Aggregation.PlaceCounts | src/main/java/be/enceladus/scan2ereader/core/processing/aggregation/Aggregator.java:26-31 | placing item i in a group or a new group keeps each earlier position exactly once and adds i once |
| Aggregation.PlaceOrders | src/main/java/be/enceladus/scan2ereader/core/processing/aggregation/Aggregator.java:26-31 | placing an item keeps the groups non-empty, each in input order, and ordered by their first item |
| Aggregation.IndexGroupsPartition | src/main/java/be/enceladus/scan2ereader/core/processing/aggregation/Aggregator.java:22-34 | after n items every position below n is in exactly one group, once; groups are non-empty, in input order, and ordered by first item |
| Aggregation.GroupSizesSum | src/main/java/be/enceladus/scan2ereader/core/processing/aggregation/Aggregator.java:22-34 | the group sizes add up to the number of items |
| Aggregation.GroupsNonEmpty | src/main/java/be/enceladus/scan2ereader/core/processing/aggregation/Aggregator.java:22-34 | every group holds an item, and there are never more groups than items |
| Aggregation.GroupOfItem | src/main/java/be/enceladus/scan2ereader/core/processing/aggregation/Aggregator.java:22-34 | every input item is in some group |
| Aggregation.JoinsFirstFittingGroup | src/main/java/be/enceladus/scan2ereader/core/processing/aggregation/Aggregator.java:25-31 | item n joins the first existing group that accepts it, or opens a new last group when none does |
| Aggregation.AlwaysTrueOneGroup | src/main/java/be/enceladus/scan2ereader/core/processing/aggregation/Aggregator.java:22-42 | a predicate that accepts everything gives one group holding the whole input in order |
| Aggregation.AlwaysTrueIndexGroups | src/main/java/be/enceladus/scan2ereader/core/processing/aggregation/Aggregator.java:22-42 | the same on positions: one group 0..n-1 |
| Aggregation.AlwaysFalseSingletons | src/main/java/be/enceladus/scan2ereader/core/processing/aggregation/Aggregator.java:22-42 | a predicate that accepts nothing gives one singleton group per item, in order |
| Aggregation.AlwaysFalseIndexGroups | src/main/java/be/enceladus/scan2ereader/core/processing/aggregation/Aggregator.java:22-42 | the same on positions: groups [0], [1], ... |
| Aggregation.MaterializePlace | src/main/java/be/enceladus/scan2ereader/core/processing/aggregation/Aggregator.java:26-31 | placing a position and then reading the items is the same as placing the item |
| Aggregation.Aggregator.constructor | src/main/java/be/enceladus/scan2ereader/core/processing/aggregation/Aggregator.java:17-20 | keeps the predicate and the items to group |
| Aggregation.Aggregator.BuildGroups | src/main/java/be/enceladus/scan2ereader/core/processing/aggregation/Aggregator.java:22-34 | the loop that appends each item to its first fitting group, or to a new one, returns the grouping whose partition, order and first-fit facts the lemmas above give |
| PageLayout.XOffset | src/main/java/dev/encelade/ocr/model/Page.java:160-165 | the smallest left edge of the zones, attained by one of them, and 0 when there are none |
| PageLayout.MarginSides | src/main/java/dev/encelade/ocr/model/Page.java:228-240 | TOP and BOTTOM always; RIGHT is dropped exactly for the left half (sub-index 1) of a split page and LEFT exactly for the right half (2); no side twice |
| PageLayout.Margins | src/main/java/dev/encelade/ocr/model/Page.java:228-243 | one margin rectangle per kept side, in the order of the sides, on the page rectangle |
| PageLayout.MarginsInsidePage | src/main/java/dev/encelade/ocr/model/Page.java:228-243 | every margin lies in the page, 2% of the page thick (rounded toward zero), and a half page has no margin on the side of the split |
| PageLayout.TotalArea | src/main/java/dev/encelade/ocr/model/Page.java:245-251 | never negative when no zone has a negative area |
| PageLayout.TotalAreaAppend | src/main/java/dev/encelade/ocr/model/Page.java:245-251 | the total area of two lists together is the sum of their totals |
| PageLayout.RowOverlap | src/main/java/dev/encelade/ocr/model/Page.java:258-265 | the overlap of one zone with the others is never negative |
| PageLayout.PairOverlap | src/main/java/dev/encelade/ocr/model/Page.java:257-266 | the overlaps summed over all pairs are never negative |
| PageLayout.OverlappingArea | src/main/java/dev/encelade/ocr/model/Page.java:253-270 | the nested loops return half of the summed pairwise overlaps, never negative |
| PageLayout.RowOverlapZeroIff | src/main/java/dev/encelade/ocr/model/Page.java:258-265 | a zone adds no overlap exactly when no different zone intersects it |
| PageLayout.PairOverlapZeroIff | src/main/java/dev/encelade/ocr/model/Page.java:257-266 | the pairwise sum is zero exactly when no zone of the first list intersects a different zone of the second |
| PageLayout.OverlapZeroIffDisjoint | src/main/java/dev/encelade/ocr/model/Page.java:253-270 | the overlapping area of a list is zero exactly when no two different zones of it intersect |
| PageLayout.Probes | src/main/java/dev/encelade/ocr/model/Page.java:288-296 | 20 probe columns, the first at 40% of the width rounded toward zero, then evenly spaced by the step |
| PageLayout.ProbesInMiddleFifth | src/main/java/dev/encelade/ocr/model/Page.java:288-296 | every probe lies between 40% and 60% of the page width |
| PageLayout.CrossedWords | src/main/java/dev/encelade/ocr/model/Page.java:316-320 | a probe never crosses more words than the page holds |
| PageLayout.ProbeCounts | src/main/java/dev/encelade/ocr/model/Page.java:293-301 | one count of crossed words per probe, in probe order |
| PageLayout.SelectDividingLine | src/main/java/dev/encelade/ocr/model/Page.java:286-313 | the chosen line is a probe with the fewest crossings and a ratio below 1%, or none exactly when no probe is that sparse |
| PageLayout.ChoicesAgree | src/main/java/dev/encelade/ocr/model/Page.java:293-309 | whichever probe among the ties is taken, whether a dividing line is found is the same |
| PageLayout.ClearProbeSplits | src/main/java/dev/encelade/ocr/model/Page.java:286-313 | on a page with words, a probe crossing no word means a dividing line is found, and it crosses no word either |
| PageLayout.FewWordsNeedAClearProbe | src/main/java/dev/encelade/ocr/model/Page.java:299-308 | on a page of at most 100 words the dividing line crosses no word at all |
| PageLayout.LayoutRectangles | src/main/java/dev/encelade/ocr/model/Page.java:322-334 | two full-height columns split at x, not overlapping, whose areas add up to the page's |
| PageLayout.LayoutRectanglesTile | src/main/java/dev/encelade/ocr/model/Page.java:322-334 | for a line inside the page each pixel of the page lies in exactly one of the two columns |
| PageLayout.SplitForLayout | src/main/java/dev/encelade/ocr/model/Page.java:336-353 | IllegalState without a dividing line; otherwise two pages on the two columns with `splitIn` 2, the page index kept, sub-index 1 for the left one and 2 for the right one |
| PageLayout.SplitHalvesDropInnerMargins | src/main/java/dev/encelade/ocr/model/Page.java:228-240 | the left half of a split page has no RIGHT margin and the right half no LEFT margin |
| PageLayout.ElementsForPagination | src/main/java/dev/encelade/ocr/model/Page.java:427-438 | the paragraphs and white spaces together, nothing lost or added, sorted by top edge |
| PageLayout.ElementsKeepOrderOnTies | src/main/java/dev/encelade/ocr/model/Page.java:427-438 | among zones with the same top edge the paragraphs come first, then the white spaces, each in list order |
| PageLayout.LinesOf | src/main/java/dev/encelade/ocr/model/Page.java:362-372 | at most one line per word, each of kind TextLine |
| PageLayout.WordInItsLine | src/main/java/dev/encelade/ocr/model/Page.java:362-372 | every word lies inside the line built from its group |
| PageLayout.GroupBoxes | src/main/java/dev/encelade/ocr/model/Page.java:374-383 | at most one box per line |
| PageLayout.LineInItsGroupBox | src/main/java/dev/encelade/ocr/model/Page.java:374-383 | every line lies inside the box of its group |
| PageLayout.BlockCandidates | src/main/java/dev/encelade/ocr/model/Page.java:374-383 | at most one block per line, each valid on the page |
| PageLayout.LineInItsBlock | src/main/java/dev/encelade/ocr/model/Page.java:374-383 | a line lies inside one of the block candidates, unless the box of its group was dropped as invalid |
| PageLayout.Enumerate | src/main/java/dev/encelade/ocr/model/Page.java:390-396 | the set's blocks once each, in some order |
| PageLayout.MergeInside | src/main/java/dev/encelade/ocr/model/Page.java:415-418 | merging two blocks inside a box stays inside the box |
| PageLayout.RoundKeepsInvariants | src/main/java/dev/encelade/ocr/model/Page.java:406-407 | after removing the merged blocks and adding their merges, every input block is still covered and everything stays in the bounding box |
| PageLayout.RemovalsAppend | src/main/java/dev/encelade/ocr/model/Page.java:396-405 | the removals of two scans stay covered by their merges together |
| PageLayout.PairsWith | src/main/java/dev/encelade/ocr/model/Page.java:397-404 | every block scheduled for removal lies inside a merge, and every merge is spanned by input blocks; the scan merges nothing exactly when no different block intersects |
| PageLayout.MergeRound | src/main/java/dev/encelade/ocr/model/Page.java:393-407 | a round that merges nothing found the set pairwise disjoint, and a disjoint set merges nothing; every removal lies inside a merge, every merge is the bounding box of the input blocks it contains |
| PageLayout.DisjointElements | src/main/java/dev/encelade/ocr/model/Page.java:397-404 | a list of blocks is pairwise disjoint exactly when its set of distinct blocks is |
| PageLayout.CleanUp | src/main/java/dev/encelade/ocr/model/Page.java:389-413 | once converged the blocks are pairwise disjoint; every input block lies inside a result block, and every result block is the bounding box of the input blocks it contains; pairwise disjoint input comes back converged with the same blocks; the result is sorted by top edge, without duplicates |
| PageLayout.InitialSet | src/main/java/dev/encelade/ocr/model/Page.java:390 | the set holds exactly the blocks, inside their bounding box |
| PageLayout.MergeUntilStable | src/main/java/dev/encelade/ocr/model/Page.java:392-408 | the rounds keep every input covered, everything inside the box and every block spanned by input blocks; a disjoint set converges unchanged; converged means disjoint |
| PageLayout.SortedBlocks | src/main/java/dev/encelade/ocr/model/Page.java:410-412 | the set's blocks once each, sorted by top edge, keeping coverage, the box and disjointness |
| PageLayout.FinalFacts | src/main/java/dev/encelade/ocr/model/Page.java:410-412 | listing the set keeps coverage, the box and disjointness |
| PageLayout.SortKeepsDistinct | src/main/java/dev/encelade/ocr/model/Page.java:411 | sorting a list without duplicates keeps it without duplicates, with the same elements |
| OcrModel.BordersOfAppend | src/main/java/dev/encelade/ocr/model/WordsContainerTextZone.java:63-72 | computing one more side extends the list of border lists by that side's border words |
| OcrModel.MarkWords | src/main/java/dev/encelade/ocr/model/WordsContainerTextZone.java:33 | every word of the list carries the side's colour afterwards |
| OcrModel.MarkAfter | src/main/java/dev/encelade/ocr/model/WordsContainerTextZone.java:29-35 | a word on none of the computed borders keeps its mark; otherwise it carries the colour of one of those sides |
| OcrModel.MarkAfterStep | src/main/java/dev/encelade/ocr/model/WordsContainerTextZone.java:29-35 | computing one more border list marks its words with that side's colour and leaves the other marks alone |
| OcrModel.LeftBorderMarkWins | src/main/java/dev/encelade/ocr/model/WordsContainerTextZone.java:63-72 | after the four lists are computed in declaration order, a word on the LEFT border carries the LEFT colour, whatever other border it is on |
| OcrModel.WordsContainerTextZone.constructor | src/main/java/dev/encelade/ocr/model/WordsContainerTextZone.java:17-19 | a zone over the page's words with an empty memo |
| OcrModel.WordsContainerTextZone.GetWordsOnTheSideBorder | src/main/java/dev/encelade/ocr/model/WordsContainerTextZone.java:29-35 | returns the border words of the side; those words, and only those, now carry the side's colour |
| OcrModel.WordsContainerTextZone.GetWordsOnSideBorders | src/main/java/dev/encelade/ocr/model/WordsContainerTextZone.java:63-72 | the map of each side to its border words; the first call fills the memo and marks the words as the four lists would, later calls return the memo and change no mark |
| OcrModel.WordsContainerTextZone.ComputeSideBorders | src/main/java/dev/encelade/ocr/model/WordsContainerTextZone.java:66-69 | the four border lists, computed in `Side.values()` order, with each word marked with the colour of the last side whose border it lies on |
| OcrModel.WordsContainerTextZone.MarkSide | src/main/java/dev/encelade/ocr/model/WordsContainerTextZone.java:66-69 | computing one more side's list returns that side's border words and marks them, and leaves every other mark as it was |
| OcrModel.WordsContainerTextZone.CountLines | src/main/java/dev/encelade/ocr/model/WordsContainerTextZone.java:59-61 | the larger of the LEFT and RIGHT border counts; the words of both lists are marked, RIGHT last |
| OcrModel.WordsContainerTextZone.DetectParagraphs | src/main/java/dev/encelade/ocr/model/TextBlock.java:27-67 | the paragraphs the cut generation gives for the block's LEFT border words: one paragraph with the block's rectangle without cuts, else the block sliced at the cuts; the memo is filled |
| OcrModel.TilesInside | src/main/java/be/enceladus/scan2ereader/core/ocr/model/TextZone.java:301-317 | slices that tile a rectangle lie inside it |
| OcrModel.SliceBelowTop | src/main/java/be/enceladus/scan2ereader/core/ocr/model/TextZone.java:301-317 | a slice never starts above the rectangle |
| OcrModel.SliceAboveBottom | src/main/java/be/enceladus/scan2ereader/core/ocr/model/TextZone.java:301-317 | a slice never ends below the rectangle |
| OcrModel.BlocksParagraphsInside | src/main/java/dev/encelade/ocr/model/Page.java:488-492 | when every block is at least 20 pixels tall, no block fails and every paragraph lies inside one of the blocks |
| OcrModel.AsTextBlocks | src/main/java/dev/encelade/ocr/model/Page.java:379-381 | one TextBlock zone per rectangle, on that rectangle |
| OcrModel.CandidatesStayInside | src/main/java/dev/encelade/ocr/model/Page.java:510-512 | merging the blocks horizontally keeps every candidate inside some block |
| OcrModel.BuildLines | src/main/java/dev/encelade/ocr/model/Page.java:364-370 | the Aggregator run returns exactly the lines built from the same-line groups |
| OcrModel.BuildBlockCandidates | src/main/java/dev/encelade/ocr/model/Page.java:376-383 | the Aggregator run returns exactly the valid boxes of the same-block groups |
| OcrModel.CleanedBlocksOf | src/main/java/dev/encelade/ocr/model/Page.java:385 | the result of `cleanUp` turned into text blocks is sorted by top edge, without duplicates, covers every candidate, lies inside the candidates' bounding box, has each block the bounding box of the candidates it contains, and is pairwise disjoint once converged |
| OcrModel.CollectParagraphs | src/main/java/dev/encelade/ocr/model/Page.java:488-492 | the blocks' paragraphs, block after block, or the first block's failure |
| OcrModel.BlockParagraphs | src/main/java/dev/encelade/ocr/model/Page.java:490 | a fresh TextBlock over the page's words yields the paragraphs of its rectangle, cut at its left-border words, or their failure |
| OcrModel.BlocksParagraphsStep | src/main/java/dev/encelade/ocr/model/Page.java:488-490 | one more block of the `flatMap`: its failure becomes the failure of the whole list, and its paragraphs are appended after those of the blocks before it |
| OcrModel.Page.constructor | src/main/java/dev/encelade/ocr/model/Page.java:43-79 | a page with the given index, size and words and no detected zones yet |
| OcrModel.Page.DetectLinesFromWords | src/main/java/dev/encelade/ocr/model/Page.java:362-372 | with words, the lines become one TextLine per same-line group; without, nothing changes |
| OcrModel.Page.DetectTextBlockFromLines | src/main/java/dev/encelade/ocr/model/Page.java:374-387 | with lines, the text blocks become the cleaned-up valid group boxes: sorted, distinct, covering every candidate, each the bounding box of the candidates it contains, disjoint once converged; pairwise disjoint candidates come back unchanged as a set, converged; without lines nothing changes |
| OcrModel.BuildTextBlocks | src/main/java/dev/encelade/ocr/model/Page.java:376-385 | the TextBlock zones made from the lines' valid group boxes after `cleanUp`: sorted by top edge, distinct, covering every candidate, inside the candidates' bounding box, each the bounding box of the candidates it contains, disjoint once converged; pairwise disjoint candidates come back unchanged as a set, converged |
| OcrModel.Page.DetectTextBlocks | src/main/java/dev/encelade/ocr/model/Page.java:355-360 | the lines are the merged lines from words; with lines, the text blocks are the horizontal merge of a cleaned-up list that keeps every promise of `detectTextBlockFromLines`, and every block candidate ends inside one of them; without lines the old text blocks are merged |
| OcrModel.Page.MergeLinesHorizontally | src/main/java/dev/encelade/ocr/model/Page.java:506-508 | the lines become their horizontal merge, nothing else changes |
| OcrModel.Page.MergeTextBlocksHorizontally | src/main/java/dev/encelade/ocr/model/Page.java:510-512 | the text blocks become their horizontal merge, nothing else changes |
| OcrModel.Page.MergeParagraphsHorizontally | src/main/java/dev/encelade/ocr/model/Page.java:502-504 | the paragraphs become their horizontal merge, nothing else changes |
| OcrModel.Page.DetectWhiteSpaces | src/main/java/dev/encelade/ocr/model/Page.java:440-478 | with text blocks, the white spaces become the full-width bands of rows that cross no paragraph; without, nothing changes |
| OcrModel.Page.DetectParagraphs | src/main/java/dev/encelade/ocr/model/Page.java:486-500 | with text blocks, either the first block's failure with nothing changed, or the blocks' paragraphs sorted by top edge, the white spaces between them, and the paragraphs merged horizontally |
| OcrModel.Page.DetectTwoPagesLayout | src/main/java/dev/encelade/ocr/model/Page.java:286-313 | with words, the dividing line is a sparse probe with the fewest crossings, or none; the result says whether there is one |
| OcrModel.MergedBlocksKeepCandidates | src/main/java/dev/encelade/ocr/model/Page.java:510-512 | after the horizontal merge every candidate still lies inside a TextBlock |
| OcrModel.MergedHorizontallyKinds | src/main/java/be/enceladus/scan2ereader/core/ocr/model/TextZone.java:202-226 | merging TextBlock zones horizontally gives TextBlock zones |
| OcrModel.BlocksParagraphsFailurePersists | src/main/java/dev/encelade/ocr/model/Page.java:488-492 | once a prefix of the blocks fails, the whole list fails with the same error |
| Paragraphs.PiecesFromCuts | src/main/java/dev/encelade/ocr/model/TextBlock.java:62-66 | no cuts leave one paragraph with the zone's rectangle; otherwise the slices at the cuts, as paragraphs; cuts kept one by one in a zone at least 20 pixels tall never make the slicing throw |
| Paragraphs.AcceptedCutsSplit | src/main/java/be/enceladus/scan2ereader/core/ocr/model/Paragraph.java:40-44 | slicing at a non-empty list of cuts kept one by one in a zone at least 20 pixels tall succeeds |
| Paragraphs.CandidateCut | src/main/java/dev/encelade/ocr/model/TextBlock.java:42-53 | relative to the block, the smallest top of the words on the word's right-hand strip, or the word's own top when there are none |
| Paragraphs.TextBlockCuts | src/main/java/dev/encelade/ocr/model/TextBlock.java:37-60 | the cuts kept after n left-border words were accepted one by one, are no more than n, and each comes from an outlier word below the block's top |
| Paragraphs.AcceptedAppend | src/main/java/dev/encelade/ocr/model/TextBlock.java:55-57 | appending a cut that `isValidCutToAdd` accepts keeps the list accepted one by one |
| Paragraphs.DetectParagraphCuts | src/main/java/dev/encelade/ocr/model/TextBlock.java:37-60 | the loop keeps exactly the cuts the fold over all left-border words keeps |
| Paragraphs.NextCuts | src/main/java/dev/encelade/ocr/model/TextBlock.java:38-59 | one turn of the loop adds the word's candidate row exactly when the word is an outlier below the block's top edge and the row passes `isValidCutToAdd`; otherwise the cuts stay as they were |
| Paragraphs.TextBlockCutsStep | src/main/java/dev/encelade/ocr/model/TextBlock.java:38-59 | one more left-border word adds its candidate cut exactly when it is an outlier below the top and the cut is valid to add |
| Paragraphs.TextBlockParagraphsTile | src/main/java/dev/encelade/ocr/model/TextBlock.java:27-67 | a block at least 20 pixels tall never throws: one paragraph with its rectangle without cuts, else paragraphs that tile it, one more than the cuts |
| Paragraphs.NoOutlierNoCut | src/main/java/dev/encelade/ocr/model/TextBlock.java:38-63 | without an outlier among the left-border words the block stays one paragraph |
| Paragraphs.Collisions | src/main/java/be/enceladus/scan2ereader/core/ocr/model/Paragraph.java:69 | a scan line never meets more words than there are |
| Paragraphs.CollisionsOfOne | src/main/java/be/enceladus/scan2ereader/core/ocr/model/Paragraph.java:69 | one word counts 1 exactly when the scan line meets it |
| Paragraphs.FirstMinRow | src/main/java/be/enceladus/scan2ereader/core/ocr/model/Paragraph.java:65-70 | a row of the window crossing no more words than any other, and strictly fewer than every earlier one |
| Paragraphs.ScanRows | src/main/java/be/enceladus/scan2ereader/core/ocr/model/Paragraph.java:65-70 | IllegalArgument for a negative limit and NoSuchElement for an empty stream; otherwise the earliest row with the fewest collisions |
| Paragraphs.ScanPicks | src/main/java/be/enceladus/scan2ereader/core/ocr/model/Paragraph.java:65-70 | the scan returns a row exactly when it has the fewest collisions and every earlier row has more |
| Paragraphs.AdjustCutYAsWritten | src/main/java/be/enceladus/scan2ereader/core/ocr/model/Paragraph.java:50-76 | IllegalArgument for a non-positive ideal row; otherwise it fails exactly when `to` is not positive, and else returns the earliest of the `to` rows from `from` whose line from x = 0 to the paragraph's width crosses the fewest words, a row that can lie below the paragraph |
| Paragraphs.AdjustCutY | src/main/java/be/enceladus/scan2ereader/core/ocr/model/Paragraph.java:50-76 | IllegalArgument for a non-positive ideal row; otherwise a row between `from` and `to`, inside the paragraph, with the fewest collisions, the earliest on ties |
| Paragraphs.AdjustCutYSucceeds | src/main/java/be/enceladus/scan2ereader/core/ocr/model/Paragraph.java:50-70 | a positive ideal row inside the paragraph always gets a row |
| Paragraphs.ScanLineMissesShiftedWords | src/main/java/be/enceladus/scan2ereader/core/ocr/model/Paragraph.java:68 | for a paragraph at x = 500, a scan line from x = 0 to the width misses a word at x = 600, so the code cuts through it at row 47 |
| Paragraphs.ScanLineAcrossColumnsAvoidsWord | src/main/java/be/enceladus/scan2ereader/core/ocr/model/Paragraph.java:68 | scanning across the paragraph's own columns, the cut avoids that word, at row 50 |
| Paragraphs.ScanWindowPassesBottom | src/main/java/be/enceladus/scan2ereader/core/ocr/model/Paragraph.java:60-66 | `limit(to)` scans `to` rows, so for a 100-pixel paragraph and ideal row 90 the code returns row 106, below the paragraph |
| Paragraphs.ScanWindowStaysInside | src/main/java/be/enceladus/scan2ereader/core/ocr/model/Paragraph.java:60-66 | scanning from `from` to `to` returns row 87, inside the paragraph |
| Paragraphs.BreakDownCuts | src/main/java/be/enceladus/scan2ereader/core/ocr/model/Paragraph.java:28-36 | the cuts kept after the targets were accepted one by one, and fewer than the targets |
| Paragraphs.BreakDownOf | src/main/java/be/enceladus/scan2ereader/core/ocr/model/Paragraph.java:21-45 | with the corrected cut adjustment of the first two findings: IllegalArgument for fewer than 2 pieces; otherwise between 1 and `pieces` paragraphs: the paragraph itself, or paragraphs that tile it |
| Paragraphs.BreakDown | src/main/java/be/enceladus/scan2ereader/core/ocr/model/Paragraph.java:21-45 | the loop over the targets, with the corrected cut adjustment, returns what the definition above gives |
| Paragraphs.BreakDownOfCuts | src/main/java/be/enceladus/scan2ereader/core/ocr/model/Paragraph.java:40-44 | after the loop the paragraph is split at the cuts it kept |
| Paragraphs.BreakDownFails | src/main/java/be/enceladus/scan2ereader/core/ocr/model/Paragraph.java:31-36 | an adjustment that throws makes the whole break-down throw the same error |
| Paragraphs.BreakDownOfFailure | src/main/java/be/enceladus/scan2ereader/core/ocr/model/Paragraph.java:31-36 | a failing loop is the break-down's failure |
| Paragraphs.BreakDownCutsFailFrom | src/main/java/be/enceladus/scan2ereader/core/ocr/model/Paragraph.java:31-36 | a failure at target i stays the error for all later targets |
| Paragraphs.BreakDownCutsStep | src/main/java/be/enceladus/scan2ereader/core/ocr/model/Paragraph.java:32-35 | one more target adds its adjusted row exactly when `isValidCutToAdd` accepts it |
| Paragraphs.BreakDownSucceeds | src/main/java/be/enceladus/scan2ereader/core/ocr/model/Paragraph.java:21-45 | when every target adjusts and the paragraph is at least 20 pixels tall, the break-down succeeds |
| Paragraphs.BreakDownCutsSucceed | src/main/java/be/enceladus/scan2ereader/core/ocr/model/Paragraph.java:31-36 | when every target adjusts, the loop does not fail |
| WhiteSpaces.RowHitIff | src/main/java/dev/encelade/ocr/model/Page.java:448-449 | a row counts as crossed exactly when its full-width scan line meets some paragraph's rectangle, edges included |
| WhiteSpaces.ScanTransitions | src/main/java/dev/encelade/ocr/model/Page.java:443-463 | the row loop with its `isIntersecting` flag records exactly the rows where the state changes, closed by the height when the bottom is free |
| WhiteSpaces.TransitionsIncrease | src/main/java/dev/encelade/ocr/model/Page.java:447-460 | the recorded rows increase and lie above the rows scanned so far |
| WhiteSpaces.TransitionsAlternate | src/main/java/dev/encelade/ocr/model/Page.java:446-460 | free runs start at even positions and crossed runs at odd ones, the top counting as crossed |
| WhiteSpaces.TransitionsExact | src/main/java/dev/encelade/ocr/model/Page.java:447-460 | a row is recorded exactly when its state differs from the row above |
| WhiteSpaces.SameStateUntilNextTransition | src/main/java/dev/encelade/ocr/model/Page.java:447-460 | every row between two recorded rows has the state of the first |
| WhiteSpaces.TransitionAtOrAbove | src/main/java/dev/encelade/ocr/model/Page.java:447-460 | a free row has a recorded row at or above it with none in between |
| WhiteSpaces.TransitionsFacts | src/main/java/dev/encelade/ocr/model/Page.java:446-460 | the recorded rows of the whole page increase, alternate and are exact |
| WhiteSpaces.CoordinatesArePairs | src/main/java/dev/encelade/ocr/model/Page.java:461-464 | the coordinates come in pairs, strictly increase, and lie between 0 and the page height |
| WhiteSpaces.BandIsMaximalFreeRun | src/main/java/dev/encelade/ocr/model/Page.java:443-473 | each pair bounds a maximal run of free rows: the rows inside cross no paragraph, the row above is crossed unless the run starts at the top, and the row ending it is crossed unless it is the page height |
| WhiteSpaces.FreeRowsAreCovered | src/main/java/dev/encelade/ocr/model/Page.java:443-473 | every free row of the page lies in one of the bands |
| WhiteSpaces.BandOfFreeRow | src/main/java/dev/encelade/ocr/model/Page.java:443-473 | the band that holds a given free row |
| WhiteSpaces.Bands | src/main/java/dev/encelade/ocr/model/Page.java:467-476 | one full-width WhiteSpace zone per pair, from its first row to its second |
| WhiteSpaces.BandsAreOrdered | src/main/java/dev/encelade/ocr/model/Page.java:440-478 | the bands are non-empty, inside the page's rows, ordered top to bottom and separated by crossed rows |
| Seqs.SortBy | src/main/java/dev/encelade/ocr/model/Page.java:435 | the stable sort by a key: sorted, and the same elements |
| Seqs.SortByStable | src/main/java/dev/encelade/ocr/model/Page.java:435 | elements with equal keys keep their relative order |
| Pagination.IntCompare | src/main/java/dev/encelade/pagination/Paginator.java:72-75 | -1, 0 or 1, negative exactly when the first is smaller and 0 exactly when they are equal |
| Pagination.CompareFrom | src/main/java/dev/encelade/pagination/Paginator.java:74-81 | between equal-length indexes from position i on: 0 exactly when the suffixes are equal |
| Pagination.ComparePages | src/main/java/dev/encelade/pagination/Paginator.java:70-83 | -1, 0 or 1; 0 exactly for equal indexes; a shorter index comes first |
| Pagination.CompareFromFirstDifference | src/main/java/dev/encelade/pagination/Paginator.java:74-81 | a non-zero comparison is decided by the first position where the indexes differ |
| Pagination.ComparePagesLexicographic | src/main/java/dev/encelade/pagination/Paginator.java:70-83 | indexes of the same length are ordered lexicographically |
| Pagination.CompareFromAntisymmetric | src/main/java/dev/encelade/pagination/Paginator.java:74-81 | swapping the indexes negates the comparison |
| Pagination.ComparePagesAntisymmetric | src/main/java/dev/encelade/pagination/Paginator.java:70-83 | swapping the pages negates the comparison |
| Pagination.CompareFromTransitive | src/main/java/dev/encelade/pagination/Paginator.java:74-81 | the comparison of equal-length suffixes is transitive |
| Pagination.ComparePagesTransitive | src/main/java/dev/encelade/pagination/Paginator.java:70-83 | the page comparator is transitive, so it is a total order on indexes |
| Pagination.InsertPage | src/main/java/dev/encelade/pagination/Paginator.java:88 | inserting a page adds exactly that page to the list |
| Pagination.InsertPageSorted | src/main/java/dev/encelade/pagination/Paginator.java:88 | inserting a page into a sorted list keeps it sorted |
| Pagination.SortPages | src/main/java/dev/encelade/pagination/Paginator.java:88 | the pages sorted by the comparator, nothing lost or added |
| Pagination.SortPagesStable | src/main/java/dev/encelade/pagination/Paginator.java:88 | like `List.sort`, the sort is stable: pages with the same index keep their relative order |
| Pagination.Attach | src/main/java/dev/encelade/pagination/Paginator.java:311 | each zone of the page paired with that page, in order |
| Pagination.PageElements | src/main/java/dev/encelade/pagination/Paginator.java:311 | each element of a page is one of its paragraphs or white spaces, on that page |
| Pagination.ExtractElements | src/main/java/dev/encelade/pagination/Paginator.java:308-313 | every element comes from one of the pages' paragraphs or white spaces |
| Pagination.ExtractElementsComplete | src/main/java/dev/encelade/pagination/Paginator.java:308-313 | every paragraph and white space of every page is among the elements |
| Pagination.PiecesOf | src/main/java/dev/encelade/pagination/Paginator.java:284-295 | an untriggered element stays as it is; a triggered one becomes 1 to 6 paragraphs inside it on the same page, broken down with the corrected cut adjustment |
| Pagination.BrokenDown | src/main/java/dev/encelade/pagination/Paginator.java:282-296 | with the corrected cut adjustment: never fewer elements than before, and at most six times as many |
| Pagination.BrokenDownInside | src/main/java/dev/encelade/pagination/Paginator.java:282-296 | every piece lies inside one of the original elements on the same page |
| Pagination.BrokenDownUntriggered | src/main/java/dev/encelade/pagination/Paginator.java:285-294 | without a tall, six-line paragraph nothing changes |
| Pagination.BrokenDownKeepsWhiteSpaces | src/main/java/dev/encelade/pagination/Paginator.java:282-296 | the white spaces are the same, in the same order |
| Pagination.PiecesKeepWhiteSpace | src/main/java/dev/encelade/pagination/Paginator.java:284-295 | the pieces of one element hold exactly its white space, if it is one |
| Pagination.ParagraphZones | src/main/java/dev/encelade/pagination/Paginator.java:302 | never more paragraphs than elements |
| Pagination.ElementsToRender | src/main/java/dev/encelade/pagination/Paginator.java:281-313 | when no exception is thrown the elements to render are not empty and hold a paragraph |
| Pagination.MinExt | src/main/java/dev/encelade/pagination/Paginator.java:254-261 | the smaller of two ratios, with no ratio standing for the infinity of a division by zero |
| Pagination.MinRatioIsMinimum | src/main/java/dev/encelade/pagination/Paginator.java:243-264 | the smallest ratio over the paragraphs is at most each paragraph's ratio and is one of them; none when every ratio is infinite |
| Pagination.RatioAsWritten | src/main/java/dev/encelade/pagination/Paginator.java:266-278 | the code's ratio: the smallest paragraph ratio capped at 2^31, except that a smallest ratio of exactly 1 gives 0 |
| Pagination.Ratio | src/main/java/dev/encelade/pagination/Paginator.java:236-279 | the smallest paragraph ratio, capped at 2^31, and 2^31 when there is no finite one |
| Pagination.RatioIsZeroForAnExactFit | src/main/java/dev/encelade/pagination/Paginator.java:266-278 | a single paragraph exactly as wide as the space to fit in gives the code's ratio 0 |
| Pagination.RatioFitsEveryParagraph | src/main/java/dev/encelade/pagination/Paginator.java:236-279 | scaled by the corrected ratio, every paragraph fits the width and the height to fit in |
| Pagination.ScaledFits | src/main/java/dev/encelade/pagination/Paginator.java:248-249 | a size scaled by at most the fitting quotient stays within the space |
| Pagination.RunningMinima | src/main/java/dev/encelade/pagination/Paginator.java:237-264 | the loop ends with the smallest ratio capped at 1 and capped at 2^31 |
| Pagination.ComputeRatioAsWritten | src/main/java/dev/encelade/pagination/Paginator.java:236-279 | the method as written returns the as-written ratio |
| Pagination.ComputeRatio | src/main/java/dev/encelade/pagination/Paginator.java:236-279 | the corrected method returns the corrected ratio |
| Pagination.ZonesOf | src/main/java/dev/encelade/pagination/Paginator.java:243 | the zones of the elements, in order |
| Pagination.StepFlushesIffExceeds | src/main/java/dev/encelade/pagination/Paginator.java:139-151 | a step flushes exactly when the paragraph would pass the bottom margin, earlier images untouched; a white space moves the cursor by its height capped at a tenth of the render height; the released pages grow exactly when the page changes |
| Pagination.ZonesOfImage | src/main/java/dev/encelade/pagination/Paginator.java:187 | the zones drawn on an image, top to bottom |
| Pagination.StepDrawsParagraph | src/main/java/dev/encelade/pagination/Paginator.java:139-151 | one step draws the element if it is a paragraph, and nothing otherwise |
| Pagination.PackDrawsEachParagraphOnce | src/main/java/dev/encelade/pagination/Paginator.java:139-153 | every paragraph is drawn exactly once, in the order of the elements, and nothing else is drawn |
| Pagination.StepKeepsFitting | src/main/java/dev/encelade/pagination/Paginator.java:140-145 | after a step every paragraph ends above the bottom margin unless it is alone at the top of its image |
| Pagination.PackKeepsFitting | src/main/java/dev/encelade/pagination/Paginator.java:139-153 | the whole loop keeps that property |
| Pagination.PackImageCount | src/main/java/dev/encelade/pagination/Paginator.java:139-153 | never more flushed images than paragraphs |
| Pagination.PackReleasesLeftPages | src/main/java/dev/encelade/pagination/Paginator.java:150-165 | a page is released only when the loop leaves it, never twice in a row, and the loop ends on the last element's page |
| Pagination.PackFromEmpty | src/main/java/dev/encelade/pagination/Paginator.java:136-153 | from an empty canvas the images hold exactly the paragraphs, in order, each fitting its image |
| Pagination.Paginator.constructor | src/main/java/dev/encelade/pagination/Paginator.java:85-97 | the pages sorted by the comparator, the given render size, an empty output and no progress |
| Pagination.Paginator.WidthToFitIn | src/main/java/dev/encelade/pagination/Paginator.java:240 | positive for a positive render width |
| Pagination.Paginator.HeightToFitIn | src/main/java/dev/encelade/pagination/Paginator.java:241 | positive for a positive render height |
| Pagination.Paginator.GetProgress | src/main/java/dev/encelade/pagination/Paginator.java:103-111 | between 0 and 1; 0 before a run, 1 once every element is processed |
| Pagination.Paginator.ReInitBuffer | src/main/java/dev/encelade/pagination/Paginator.java:218-223 | an empty canvas and the cursor at the top margin, nothing else changed |
| Pagination.Paginator.FlushBuffer | src/main/java/dev/encelade/pagination/Paginator.java:225-234 | the canvas appended to the output, then a fresh canvas |
| Pagination.Paginator.AddParagraphToBuffer | src/main/java/dev/encelade/pagination/Paginator.java:172-194 | the paragraph placed at the cursor, which moves down by its scaled height cast to int |
| Pagination.Paginator.UpdateLastPage | src/main/java/dev/encelade/pagination/Paginator.java:158-165 | a different page becomes the last one and the previous one is released; the same page changes nothing |
| Pagination.Paginator.ProcessElement | src/main/java/dev/encelade/pagination/Paginator.java:140-150 | one iteration of the loop changes the state as one step of the packing above |
| Pagination.Paginator.ExtractElementsToRender | src/main/java/dev/encelade/pagination/Paginator.java:308-313 | the elements become every page's elements, page after page |
| Pagination.Paginator.BreakDownElementsToRender | src/main/java/dev/encelade/pagination/Paginator.java:281-306 | on success the elements become their pieces, broken down with the corrected cut adjustment; a failing break-down, or no paragraph left, reports the error and keeps the elements |
| Pagination.Paginator.PackElements | src/main/java/dev/encelade/pagination/Paginator.java:136-153 | the output is every image of the packing of the elements, the counter reaches the number of elements |
| Pagination.Paginator.PrepareElements | src/main/java/dev/encelade/pagination/Paginator.java:131-132 | the elements to render (corrected break-down), or the exception that stops the run with the extracted elements kept |
| Pagination.Paginator.Run | src/main/java/dev/encelade/pagination/Paginator.java:130-154 | an error leaves the output as it was; otherwise, with the corrected break-down and the corrected ratio of the third finding, the output holds every paragraph once, in order, each fitting its image, and the progress reaches 1 |
| RequestConfigs.ValidationErrorAsWritten | src/main/java/dev/encelade/processing/RequestConfig.java:47-69 | never the quality message: a request passes exactly when its page range is valid and it has data, whatever its quality |
| RequestConfigs.ValidationError | src/main/java/dev/encelade/processing/RequestConfig.java:47-69 | no error exactly when the page range is valid, the quality is in [0.5, 1] and there is data; otherwise the first failing check's message |
| RequestConfigs.QualityTwoSlipsThrough | src/main/java/dev/encelade/processing/RequestConfig.java:58-61 | a quality of 2 passes the written check and fails the corrected one |
| RequestConfigs.AsWrittenAgreesOnValidQuality | src/main/java/dev/encelade/processing/RequestConfig.java:58-61 | the two checks agree whenever the quality is in [0.5, 1] |
| RequestConfigs.RequestConfig.constructor | src/main/java/dev/encelade/processing/RequestConfig.java:33-37 | the builder's defaults: first page 1, angle correction on, quality 1, no error; such a request is valid exactly when it has data and its last page, if any, is at least 1 |
| RequestConfigs.RequestConfig.IsFile | src/main/java/dev/encelade/processing/RequestConfig.java:39-41 | true exactly when a PDF file is given |
| RequestConfigs.RequestConfig.IsByteArray | src/main/java/dev/encelade/processing/RequestConfig.java:43-45 | true exactly when PDF bytes are given |
| RequestConfigs.RequestConfig.Error | src/main/java/dev/encelade/processing/RequestConfig.java:47-69 | no error exactly when the current fields are valid, with the quality range check corrected as in the fourth finding |
| RequestConfigs.RequestConfig.Validate | src/main/java/dev/encelade/processing/RequestConfig.java:47-69 | true exactly when the request is valid, quality range corrected as in the fourth finding; on failure the description is the first failing check's message, on success it is unchanged; no other field changes |

## Left out

- The OCR engine, PDF reading and writing, and image files are not part of this model. Words arrive as a parameter, and output pages are recorded as the list of paragraphs drawn on each, with their ratio and y offset.
- Drawing pixels is not modelled: the copying, scaling and compression of images, the debug rectangles and colours, and grey-scale conversion. `deleteImageData` is recorded as the index of the released page.
- `getLeftMargin` and the x position of a paragraph on the output page are not modelled: they only place pixels and do not change which paragraph goes on which page.
- The render size that `RequestConfig` derives from the quality and the screen size is a constructor parameter of the paginator, which requires it to be positive.
- The paginator's worker thread, `getProgress` as read from another thread, and the parallel stream of the two-page probe are not modelled. The probe is modelled sequentially, and any minimum it finds is accepted.
- Floating point is not modelled: scale ratios are exact `real`s and the rounding of `(int) (h * ratio)` is a truncation of the real product.
- The standard-deviation test that flags an outlier line in paragraph detection is a predicate parameter, and so is the ideal cut row of a paragraph that is too tall. Their float statistics are not modelled.
- Java `int` overflow is not modelled: coordinates and areas are unbounded integers.
- PageLayout.CleanUp: the merge-until-stable loop of `cleanUp` is bounded by a `fuel` count, because its termination is not proved. Its contract states the no-overlap result only when `converged` reports that a round merged nothing.
- Hash iteration order is any order: the order of the `HashSet` in `cleanUp`, and the entry order of the `HashMap` that `toMap` builds in `detectTwoPagesLayout`, which decides among several minimal probes (`PageLayout.ChoicesAgree`). The contracts hold for every order the model may take.
- The paginator's constructor sorts the caller's list in place. The model sorts its own copy, so the aliasing with the caller's list is not modelled.
- TextZones.MergedHorizontally: `mergeHorizontally` grows the zones already in its result in place through `mergeWith` (TextZone.java:170-172 and 211-216), so the caller's input zones are changed too. The model returns new zone values and leaves the input as it was, so that aliasing is not modelled.
- Pagination.PiecesOf: the colour marks that `countLines` leaves on words while breaking a paragraph down are not modelled, because they only affect debug drawing.
- The `images` field of `RequestConfig`, its setters, and a `NaN` quality are not modelled.
- Per-page confidence statistics, the angle correction of a page (`AngleCorrection`) and picture detection (`PictureDetector`) are not part of this model.
- Lists that Java leaves `null` until a detection step runs are empty sequences here.

Where the code has a defect listed under "## Findings", the model keeps a member for the code as written and builds everything downstream on the corrected definition. The members below therefore differ from the code as written on the inputs the findings name:

- Paragraphs.BreakDownOf: adjusts each cut with the corrected `AdjustCutY` (scan window inside the paragraph, scan line across its columns), not `AdjustCutYAsWritten`. On the findings' inputs (a word on rows 80-105 of a 100-row paragraph; a paragraph at x 500-800) the code cuts at row 106 or through a word, where the model cuts inside the paragraph and beside the word.
- Paragraphs.BreakDown: the loop form of `Paragraphs.BreakDownOf`, with the same corrected adjustment.
- Pagination.PiecesOf: breaks a triggered paragraph down with `Paragraphs.BreakDownOf`, so with the corrected adjustment.
- Pagination.BrokenDown: maps `Pagination.PiecesOf`, so with the corrected adjustment.
- Pagination.Paginator.BreakDownElementsToRender: uses `Pagination.BrokenDown`, so with the corrected adjustment.
- Pagination.Paginator.PrepareElements: uses `Pagination.Paginator.BreakDownElementsToRender`, so with the corrected adjustment.
- Pagination.Paginator.Run: uses the corrected break-down and the corrected `ComputeRatio`. For a paragraph whose smallest fitting ratio is exactly 1 the code keeps the ratio 0, where the model uses 1.
- RequestConfigs.RequestConfig.Error: uses the corrected `ValidationError`. A quality of 2.0 has no error in the code and the quality error in the model.
- RequestConfigs.RequestConfig.Validate: returns what `RequestConfigs.RequestConfig.Error` gives, so a quality of 2.0 passes in the code and fails in the model.

The lemmas about these members (`Paragraphs.BreakDownSucceeds`, `Pagination.BrokenDownInside` and the like) are about the corrected definitions too.

Two behaviours of the code are modelled as written, not corrected. The white-space scan treats a paragraph's bottom row as hit, so the band under a paragraph that ends on row 200 starts at row 201. And in a zone under 20 pixels tall the minimum spacing between cuts truncates to 0, so `isValidCutToAdd` can keep the same cut twice and `sliceOnY` then throws (`TextZones.ShortZoneAcceptsDuplicateCut`). The model propagates that IllegalArgument through the paragraph detection of a short text block.

## Findings

| source | as written | input that shows it | evidently intended | confidence | as-written member | corrected member |
|---|---|---|---|---|---|---|
| src/main/java/be/enceladus/scan2ereader/core/ocr/model/Paragraph.java:60-66 | the scan for a free row around the ideal cut stops after `limit(to)` rows, counted from `from`, so it can look up to `from + to` rows, past the paragraph's bottom | a paragraph 100 rows tall with its ideal cut at row 90 and a word on rows 80-105: the scan returns row 106, below the paragraph | scan only the rows of the paragraph, `from` to `to` | not executed | Paragraphs.AdjustCutYAsWritten, Paragraphs.ScanWindowPassesBottom | Paragraphs.AdjustCutY, Paragraphs.ScanWindowStaysInside |
| src/main/java/be/enceladus/scan2ereader/core/ocr/model/Paragraph.java:68 | the scan line is drawn from x = 0 to x = width of the paragraph, not across the paragraph's own columns | a paragraph at x 500-800, ideal cut at row 50, and a word at x 600-650 on rows 40-49: a line from 0 to 300 misses the word, and the cut lands on row 47, through it | draw the line from the paragraph's x1 to its x2 | not executed | Paragraphs.ScanLineMissesShiftedWords | Paragraphs.ScanLineAcrossColumnsAvoidsWord |
| src/main/java/dev/encelade/pagination/Paginator.java:266-273 | the ratio starts at 0 and is replaced only when the smallest fitting ratio is below 1 or above 1 | a paragraph 762 wide and 100 tall with 762 by 1016 to fit in: the smallest ratio is exactly 1, and the ratio stays 0 | the smallest ratio, 1 in that case | not executed | Pagination.ComputeRatioAsWritten, Pagination.RatioAsWritten, Pagination.RatioIsZeroForAnExactFit | Pagination.ComputeRatio, Pagination.Ratio, Pagination.RatioFitsEveryParagraph |
| src/main/java/dev/encelade/processing/RequestConfig.java:58-61 | `quality <= 0.5f && quality > 1f` can never hold, so no quality is rejected | a request with quality 2.0 passes validation | reject a quality outside [0.5, 1], as the message says. The two sides of the code disagree about 0.5: the message "[0.5f-1f]" names a closed range, while the first conjunct `quality <= 0.5f` counts 0.5 as out of range. The model follows the message and accepts 0.5, because the message is what a caller is told and the conjunct sits in the faulty test itself | not executed | RequestConfigs.ValidationErrorAsWritten, RequestConfigs.QualityTwoSlipsThrough | RequestConfigs.ValidationError, RequestConfigs.RequestConfig.Validate |

=== FILE: aggregation.dfy ===
/**
 * Aggregator: greedy first-fit grouping. Items are taken in input order;
 * each joins the first existing group (in creation order) that the
 * predicate accepts it into, or else starts a new group at the end.
 *
 * The groups are specified by the input positions they hold
 * (`IndexGroups`), so that order and "exactly once" can be stated even
 * when the input holds equal items; `Groups` turns positions into items.
 */
module Aggregation {
  import opened Seqs

  function Range(n: nat): (r: seq<nat>)
    ensures |r| == n && forall i :: 0 <= i < n ==> r[i] == i
  {
    seq(n, i => i)
  }

  /** Every position held by the groups is below `n`. */
  predicate IndicesBelow(igs: seq<seq<nat>>, n: nat) {
    forall g, k :: 0 <= g < |igs| && 0 <= k < |igs[g]| ==> igs[g][k] < n
  }

  /** The items at the given positions. */
  function Pick<T>(items: seq<T>, positions: seq<nat>): (r: seq<T>)
    requires forall k :: 0 <= k < |positions| ==> positions[k] < |items|
    ensures |r| == |positions| && forall k :: 0 <= k < |positions| ==> r[k] == items[positions[k]]
  {
    seq(|positions|, k requires 0 <= k < |positions| => items[positions[k]])
  }

  /** The groups of items that groups of positions stand for. */
  function Materialize<T>(items: seq<T>, igs: seq<seq<nat>>): (gs: seq<seq<T>>)
    requires IndicesBelow(igs, |items|)
    ensures |gs| == |igs| && forall g :: 0 <= g < |igs| ==> gs[g] == Pick(items, igs[g])
  {
    seq(|igs|, g requires 0 <= g < |igs| => Pick(items, igs[g]))
  }

  /** `findGroupBelongsTo`: the first group accepting `x`; `|groups|` stands for Java's null. */
  function FirstFit<T>(x: T, groups: seq<seq<T>>, belongs: (T, seq<T>) -> bool): (k: nat)
    ensures k <= |groups|
    ensures k < |groups| ==> belongs(x, groups[k])
    ensures forall j :: 0 <= j < k ==> !belongs(x, groups[j])
    decreases |groups|
  {
    if groups == [] then 0
    else if belongs(x, groups[0]) then 0
    else 1 + FirstFit(x, groups[1..], belongs)
  }

  /** The step of `buildGroups` on positions, with `k` the group chosen (`|igs|` for a new one). */
  function Place(igs: seq<seq<nat>>, i: nat, k: nat): seq<seq<nat>>
    requires k <= |igs|
  {
    if k < |igs| then igs[k := igs[k] + [i]] else igs + [[i]]
  }

  /** The groups of positions after the first `n` items. */
  function IndexGroups<T>(items: seq<T>, belongs: (T, seq<T>) -> bool, n: nat): (igs: seq<seq<nat>>)
    requires n <= |items|
    ensures IndicesBelow(igs, n)
    decreases n
  {
    if n == 0 then []
    else
      var igs := IndexGroups(items, belongs, n - 1);
      Place(igs, n - 1, FirstFit(items[n - 1], Materialize(items, igs), belongs))
  }

  /** The result of `buildGroups` on `items`. */
  function Groups<T>(items: seq<T>, belongs: (T, seq<T>) -> bool): seq<seq<T>> {
    Materialize(items, IndexGroups(items, belongs, |items|))
  }

  /**
   * What greedy grouping guarantees: every position below `n` is in exactly
   * one group, once; groups are non-empty, list their positions in input
   * order, are ordered by their first position, and are at most `n`.
   */
  predicate Partition(igs: seq<seq<nat>>, n: nat) {
    && IndicesBelow(igs, n)
    && multiset(Flatten(igs)) == multiset(Range(n))
    && (forall g :: 0 <= g < |igs| ==> |igs[g]| > 0)
    && (forall g :: 0 <= g < |igs| ==> StrictlyIncreasing(igs[g]))
    && (forall g :: 0 <= g < |igs| - 1 ==> igs[g][0] < igs[g + 1][0])
    && |igs| <= n
  }

  lemma {:induction false} PlaceCounts(igs: seq<seq<nat>>, i: nat, k: nat)
    requires k <= |igs| && multiset(Flatten(igs)) == multiset(Range(i))
    ensures multiset(Flatten(Place(igs, i, k))) == multiset(Range(i + 1))
  {
    assert Range(i + 1) == Range(i) + [i];
    if k < |igs| {
      FlattenUpdateAppend(igs, k, i);
    } else {
      var next := igs + [[i]];
      assert next[..|next| - 1] == igs;
    }
  }

  lemma {:induction false} PlaceOrders(igs: seq<seq<nat>>, i: nat, k: nat)
    requires k <= |igs| && Partition(igs, i)
    ensures var next := Place(igs, i, k);
      && IndicesBelow(next, i + 1)
      && (forall g :: 0 <= g < |next| ==> |next[g]| > 0)
      && (forall g :: 0 <= g < |next| ==> StrictlyIncreasing(next[g]))
      && (forall g :: 0 <= g < |next| - 1 ==> next[g][0] < next[g + 1][0])
      && |next| <= i + 1
  {
    if k < |igs| {
      PlaceIntoGroupOrders(igs, i, k);
    } else {
      PlaceNewGroupOrders(igs, i);
    }
  }

  /** The predicate the groups keep after each placement, short of the counts. */
  predicate OrderedGroups(igs: seq<seq<nat>>, n: nat) {
    && IndicesBelow(igs, n)
    && (forall g :: 0 <= g < |igs| ==> |igs[g]| > 0)
    && (forall g :: 0 <= g < |igs| ==> StrictlyIncreasing(igs[g]))
    && (forall g :: 0 <= g < |igs| - 1 ==> igs[g][0] < igs[g + 1][0])
    && |igs| <= n
  }

  lemma PlaceIntoGroupOrders(igs: seq<seq<nat>>, i: nat, k: nat)
    requires k < |igs| && OrderedGroups(igs, i)
    ensures OrderedGroups(igs[k := igs[k] + [i]], i + 1)
  {
    var next := igs[k := igs[k] + [i]];
    assert igs[k][|igs[k]| - 1] < i;
    assert StrictlyIncreasing(igs[k] + [i]);
    forall g | 0 <= g < |next| - 1
      ensures next[g][0] < next[g + 1][0]
    {
      assert next[g][0] == igs[g][0] && next[g + 1][0] == igs[g + 1][0];
    }
  }

  lemma PlaceNewGroupOrders(igs: seq<seq<nat>>, i: nat)
    requires OrderedGroups(igs, i)
    ensures OrderedGroups(igs + [[i]], i + 1)
  {
    if |igs| > 0 {
      assert igs[|igs| - 1][0] < i;
    }
  }

  lemma {:induction false} IndexGroupsPartition<T>(items: seq<T>, belongs: (T, seq<T>) -> bool, n: nat)
    requires n <= |items|
    ensures Partition(IndexGroups(items, belongs, n), n)
    decreases n
  {
    if n > 0 {
      var i := n - 1;
      var igs := IndexGroups(items, belongs, i);
      IndexGroupsPartition(items, belongs, i);
      var k := FirstFit(items[i], Materialize(items, igs), belongs);
      PlaceCounts(igs, i, k);
      PlaceOrders(igs, i, k);
    }
  }

  /** The groups of `buildGroups` partition the input: group sizes add up to the number of items. */
  lemma GroupSizesSum<T>(items: seq<T>, belongs: (T, seq<T>) -> bool)
    ensures |Flatten(Groups(items, belongs))| == |items|
  {
    var igs := IndexGroups(items, belongs, |items|);
    IndexGroupsPartition(items, belongs, |items|);
    FlattenLength(igs);
    FlattenLength(Groups(items, belongs));
    SameLengths(Groups(items, belongs), igs);
    assert |multiset(Flatten(igs))| == |multiset(Range(|items|))|;
  }

  lemma {:induction false} SameLengths<T, U>(a: seq<seq<T>>, b: seq<seq<U>>)
    requires |a| == |b| && forall g :: 0 <= g < |a| ==> |a[g]| == |b[g]|
    ensures SumLengths(a) == SumLengths(b)
    decreases |a|
  {
    if a != [] {
      SameLengths(a[..|a| - 1], b[..|b| - 1]);
    }
  }

  /** The length of a flattened list is the sum of the inner lengths. */
  function SumLengths<T>(ss: seq<seq<T>>): nat
    decreases |ss|
  {
    if ss == [] then 0 else SumLengths(ss[..|ss| - 1]) + |ss[|ss| - 1]|
  }

  lemma {:induction false} FlattenLength<T>(ss: seq<seq<T>>)
    ensures |Flatten(ss)| == SumLengths(ss)
    decreases |ss|
  {
    if ss != [] {
      FlattenLength(ss[..|ss| - 1]);
    }
  }

  /** Every group of `buildGroups` holds at least one item, and there are never more groups than items. */
  lemma GroupsNonEmpty<T>(items: seq<T>, belongs: (T, seq<T>) -> bool)
    ensures |Groups(items, belongs)| <= |items|
    ensures forall g :: 0 <= g < |Groups(items, belongs)| ==> Groups(items, belongs)[g] != []
  {
    IndexGroupsPartition(items, belongs, |items|);
  }

  /** Every item of the input is found in some group. */
  lemma GroupOfItem<T>(items: seq<T>, belongs: (T, seq<T>) -> bool, i: nat) returns (g: nat, k: nat)
    requires i < |items|
    ensures g < |Groups(items, belongs)| && k < |Groups(items, belongs)[g]| && Groups(items, belongs)[g][k] == items[i]
  {
    var igs := IndexGroups(items, belongs, |items|);
    IndexGroupsPartition(items, belongs, |items|);
    assert Range(|items|)[i] == i;
    assert i in multiset(Flatten(igs));
    g, k := InFlatten(igs, i);
  }

  /** An item joins the first group, in creation order, that accepts it; otherwise it opens a new last group. */
  lemma JoinsFirstFittingGroup<T>(items: seq<T>, belongs: (T, seq<T>) -> bool, n: nat)
    requires n < |items|
    ensures var igs := IndexGroups(items, belongs, n);
      var gs := Materialize(items, igs);
      var next := IndexGroups(items, belongs, n + 1);
      && ((forall g :: 0 <= g < |gs| ==> !belongs(items[n], gs[g])) ==> next == igs + [[n]])
      && (forall g :: 0 <= g < |gs| && belongs(items[n], gs[g]) && (forall j :: 0 <= j < g ==> !belongs(items[n], gs[j])) ==>
            next == igs[g := igs[g] + [n]])
  {
  }

  /** A predicate that accepts everything gives one group holding the whole input. */
  lemma {:induction false} AlwaysTrueOneGroup<T>(items: seq<T>, belongs: (T, seq<T>) -> bool)
    requires items != []
    requires forall x, g :: belongs(x, g)
    ensures Groups(items, belongs) == [items]
  {
    AlwaysTrueIndexGroups(items, belongs, |items|);
    assert Pick(items, Range(|items|)) == items;
  }

  lemma {:induction false} AlwaysTrueIndexGroups<T>(items: seq<T>, belongs: (T, seq<T>) -> bool, n: nat)
    requires 0 < n <= |items|
    requires forall x, g :: belongs(x, g)
    ensures IndexGroups(items, belongs, n) == [Range(n)]
    decreases n
  {
    if n > 1 {
      AlwaysTrueIndexGroups(items, belongs, n - 1);
      assert Range(n - 1) + [n - 1] == Range(n);
    } else {
      assert Range(1) == [0];
    }
  }

  /** A predicate that accepts nothing gives one singleton group per item. */
  lemma {:induction false} AlwaysFalseSingletons<T>(items: seq<T>, belongs: (T, seq<T>) -> bool)
    requires forall x, g :: !belongs(x, g)
    ensures Groups(items, belongs) == seq(|items|, i requires 0 <= i < |items| => [items[i]])
  {
    AlwaysFalseIndexGroups(items, belongs, |items|);
    forall i | 0 <= i < |items|
      ensures Pick(items, [i]) == [items[i]]
    {
    }
  }

  lemma {:induction false} AlwaysFalseIndexGroups<T>(items: seq<T>, belongs: (T, seq<T>) -> bool, n: nat)
    requires n <= |items|
    requires forall x, g :: !belongs(x, g)
    ensures IndexGroups(items, belongs, n) == seq(n, i => [i])
    decreases n
  {
    if n > 0 {
      AlwaysFalseIndexGroups(items, belongs, n - 1);
      assert seq(n - 1, i => [i]) + [[n - 1]] == seq(n, i => [i]);
    }
  }

  /** Placing a position and then turning positions into items is placing the item. */
  lemma MaterializePlace<T>(items: seq<T>, igs: seq<seq<nat>>, i: nat, k: nat)
    requires i < |items| && k <= |igs| && IndicesBelow(igs, |items|)
    ensures IndicesBelow(Place(igs, i, k), |items|)
    ensures var gs := Materialize(items, igs);
      Materialize(items, Place(igs, i, k)) == if k < |igs| then gs[k := gs[k] + [items[i]]] else gs + [[items[i]]]
  {
    if k < |igs| {
      assert Pick(items, igs[k] + [i]) == Pick(items, igs[k]) + [items[i]];
    } else {
      assert Pick(items, [i]) == [items[i]];
    }
  }

  /** `Aggregator<T>`: the items to group and the predicate deciding whether an item belongs to a group. */
  class Aggregator<T> {
    const belongsToGroup: (T, seq<T>) -> bool
    const toGroup: seq<T>

    constructor (belongsToGroup: (T, seq<T>) -> bool, toGroup: seq<T>)
      ensures this.belongsToGroup == belongsToGroup && this.toGroup == toGroup
    {
      this.belongsToGroup := belongsToGroup;
      this.toGroup := toGroup;
    }

    /** `buildGroups`: one pass over the items, each appended to its first fitting group or to a new one. */
    method BuildGroups() returns (groups: seq<seq<T>>)
      ensures groups == Groups(toGroup, belongsToGroup)
    {
      groups := [];
      ghost var igs: seq<seq<nat>> := [];
      for i := 0 to |toGroup|
        invariant igs == IndexGroups(toGroup, belongsToGroup, i)
        invariant groups == Materialize(toGroup, igs)
      {
        var k := FirstFit(toGroup[i], groups, belongsToGroup);
        if k < |groups| {
          groups := groups[k := groups[k] + [toGroup[i]]];
        } else {
          groups := groups + [[toGroup[i]]];
        }
        MaterializePlace(toGroup, igs, i, k);
        igs := Place(igs, i, k);
      }
    }
  }
}

=== FILE: geometry.dfy ===
/**
 * The rectangle kernel: `java.awt.Rectangle` values and the helpers of
 * GeometryUtils (intersection, bounding-box merge, gap distance).
 */
module Geometry {
  import opened Wrappers
  import opened Numbers
  import opened Seqs

  /** A `java.awt.Rectangle`: top-left corner and size; a size may be zero or negative (an empty rectangle). */
  datatype Rect = Rect(x: int, y: int, width: int, height: int)

  datatype Point = Point(x: int, y: int)

  function X2(r: Rect): int { r.x + r.width }
  function Y2(r: Rect): int { r.y + r.height }
  function Area(r: Rect): int { r.width * r.height }

  /** `Rectangle.isEmpty`: no positive width or no positive height. */
  predicate IsEmpty(r: Rect) { r.width <= 0 || r.height <= 0 }

  /** The unit cell whose top-left corner is (px, py) lies inside `r`. */
  predicate Covers(r: Rect, px: int, py: int) {
    r.x <= px < X2(r) && r.y <= py < Y2(r)
  }

  /** Every edge of `inner` lies within the edges of `outer`. */
  predicate Contains(outer: Rect, inner: Rect) {
    outer.x <= inner.x && X2(inner) <= X2(outer) && outer.y <= inner.y && Y2(inner) <= Y2(outer)
  }

  /**
   * `Rectangle.intersects`: the two rectangles overlap with positive area;
   * false as soon as either of them is empty.
   */
  predicate Intersects(a: Rect, b: Rect) {
    !IsEmpty(a) && !IsEmpty(b) && a.x < X2(b) && b.x < X2(a) && a.y < Y2(b) && b.y < Y2(a)
  }

  /** `Rectangle.grow(h, v)`: every side moves outwards by h (left, right) or v (top, bottom). */
  function Grow(r: Rect, h: int, v: int): (g: Rect)
    ensures X2(g) == X2(r) + h && g.x == r.x - h
    ensures Y2(g) == Y2(r) + v && g.y == r.y - v
  {
    Rect(r.x - h, r.y - v, r.width + 2 * h, r.height + 2 * v)
  }

  /**
   * GeometryUtils.intersection: the overlap box of two rectangles, or
   * nothing (Java's null) when the overlap has no positive width or height.
   */
  function Intersection(a: Rect, b: Rect): (r: Option<Rect>)
    ensures r.None? <==> !Intersects(a, b)
    ensures r.Some? ==> !IsEmpty(r.value) && Contains(a, r.value) && Contains(b, r.value)
    ensures r.Some? ==> forall px, py :: Covers(r.value, px, py) <==> Covers(a, px, py) && Covers(b, px, py)
  {
    var nx := Max(a.x, b.x);
    var ny := Max(a.y, b.y);
    var nw := Min(X2(a), X2(b)) - nx;
    var nh := Min(Y2(a), Y2(b)) - ny;
    if nw <= 0 || nh <= 0 then None else Some(Rect(nx, ny, nw, nh))
  }

  /** The area of the overlap, 0 without one. */
  function OverlapArea(a: Rect, b: Rect): (n: int)
    ensures n >= 0
    ensures n > 0 <==> Intersects(a, b)
  {
    match Intersection(a, b)
    case None => 0
    case Some(i) => Area(i)
  }

  /** Intersection does not depend on the order of its arguments. */
  lemma IntersectionCommutes(a: Rect, b: Rect)
    ensures Intersection(a, b) == Intersection(b, a)
    ensures Intersects(a, b) == Intersects(b, a)
  {
  }

  function Lefts(rs: seq<Rect>): seq<int> { seq(|rs|, i requires 0 <= i < |rs| => rs[i].x) }
  function Tops(rs: seq<Rect>): seq<int> { seq(|rs|, i requires 0 <= i < |rs| => rs[i].y) }
  function Rights(rs: seq<Rect>): seq<int> { seq(|rs|, i requires 0 <= i < |rs| => X2(rs[i])) }
  function Bottoms(rs: seq<Rect>): seq<int> { seq(|rs|, i requires 0 <= i < |rs| => Y2(rs[i])) }

  /** The smallest rectangle holding every edge of the list: min left and top, max right and bottom. */
  function BoundingBox(rs: seq<Rect>): (b: Rect)
    requires |rs| > 0
    ensures forall i :: 0 <= i < |rs| ==> Contains(b, rs[i])
    ensures exists i :: 0 <= i < |rs| && b.x == rs[i].x
    ensures exists i :: 0 <= i < |rs| && b.y == rs[i].y
    ensures exists i :: 0 <= i < |rs| && X2(b) == X2(rs[i])
    ensures exists i :: 0 <= i < |rs| && Y2(b) == Y2(rs[i])
  {
    var x1 := MinOf(Lefts(rs));
    var y1 := MinOf(Tops(rs));
    var x2 := MaxOf(Rights(rs));
    var y2 := MaxOf(Bottoms(rs));
    assert forall i :: 0 <= i < |rs| ==> Lefts(rs)[i] == rs[i].x && Tops(rs)[i] == rs[i].y;
    assert forall i :: 0 <= i < |rs| ==> Rights(rs)[i] == X2(rs[i]) && Bottoms(rs)[i] == Y2(rs[i]);
    Rect(x1, y1, x2 - x1, y2 - y1)
  }

  /**
   * GeometryUtils.mergeRectangles: fails on an empty list, returns the only
   * element of a one-element list, and the bounding box otherwise.
   */
  function MergeRectangles(rs: seq<Rect>): (r: Result<Rect>)
    ensures r.Failure? <==> |rs| == 0
    ensures r.Failure? ==> r.error == IllegalArgument
    ensures |rs| == 1 ==> r == Success(rs[0])
    ensures r.Success? ==> forall i :: 0 <= i < |rs| ==> Contains(r.value, rs[i])
    ensures r.Success? ==> exists i :: 0 <= i < |rs| && r.value.x == rs[i].x
    ensures r.Success? ==> exists i :: 0 <= i < |rs| && r.value.y == rs[i].y
    ensures r.Success? ==> exists i :: 0 <= i < |rs| && X2(r.value) == X2(rs[i])
    ensures r.Success? ==> exists i :: 0 <= i < |rs| && Y2(r.value) == Y2(rs[i])
  {
    if |rs| == 0 then Failure(IllegalArgument)
    else if |rs| == 1 then Success(rs[0])
    else Success(BoundingBox(rs))
  }

  /** The shortcut for one rectangle agrees with the general bounding box. */
  lemma SingletonIsOwnBoundingBox(r: Rect)
    ensures BoundingBox([r]) == r
  {
    var b := BoundingBox([r]);
    assert b.x == r.x && b.y == r.y && X2(b) == X2(r) && Y2(b) == Y2(r);
  }

  /** The bounding box of two rectangles. */
  function Merge2(a: Rect, b: Rect): (m: Rect)
    ensures Contains(m, a) && Contains(m, b)
  {
    var x1 := Min(a.x, b.x);
    var y1 := Min(a.y, b.y);
    Rect(x1, y1, Max(X2(a), X2(b)) - x1, Max(Y2(a), Y2(b)) - y1)
  }

  /** TextZone.mergeWith merges a list of two rectangles: the result is their bounding box. */
  lemma MergeOfTwo(a: Rect, b: Rect)
    ensures MergeRectangles([a, b]) == Success(Merge2(a, b))
  {
    var rs := [a, b];
    var m := MergeRectangles(rs).value;
    assert Contains(m, rs[0]) && Contains(m, rs[1]);
    var i1 :| 0 <= i1 < 2 && m.x == rs[i1].x;
    var i2 :| 0 <= i2 < 2 && m.y == rs[i2].y;
    var i3 :| 0 <= i3 < 2 && X2(m) == X2(rs[i3]);
    var i4 :| 0 <= i4 < 2 && Y2(m) == Y2(rs[i4]);
    SameEdgesSameRect(m, Merge2(a, b));
  }

  lemma SameEdgesSameRect(m: Rect, n: Rect)
    requires m.x == n.x && m.y == n.y && X2(m) == X2(n) && Y2(m) == Y2(n)
    ensures m == n
  {
  }

  /**
   * `c` is the bounding box of the rectangles of `rs` that lie inside it:
   * each of its four edges is an edge of one of them.
   */
  /** Some rectangle of `rs` inside `c` shares `c`'s left edge; likewise for the other three edges. */
  predicate LeftFrom(c: Rect, rs: seq<Rect>) {
    exists i :: 0 <= i < |rs| && Contains(c, rs[i]) && rs[i].x == c.x
  }
  predicate TopFrom(c: Rect, rs: seq<Rect>) {
    exists i :: 0 <= i < |rs| && Contains(c, rs[i]) && rs[i].y == c.y
  }
  predicate RightFrom(c: Rect, rs: seq<Rect>) {
    exists i :: 0 <= i < |rs| && Contains(c, rs[i]) && X2(rs[i]) == X2(c)
  }
  predicate BottomFrom(c: Rect, rs: seq<Rect>) {
    exists i :: 0 <= i < |rs| && Contains(c, rs[i]) && Y2(rs[i]) == Y2(c)
  }

  /** Each edge of `c` is the edge of a rectangle of `rs` that `c` contains. */
  predicate SpannedBy(c: Rect, rs: seq<Rect>) {
    LeftFrom(c, rs) && TopFrom(c, rs) && RightFrom(c, rs) && BottomFrom(c, rs)
  }

  /** Every rectangle of `cs` is spanned by `rs`. */
  predicate RectsSpanned(cs: seq<Rect>, rs: seq<Rect>) {
    forall j :: 0 <= j < |cs| ==> SpannedBy(cs[j], rs)
  }

  function InsideOf(c: Rect): Rect -> bool {
    (r: Rect) => Contains(c, r)
  }

  /** A rectangle spanned by `rs` is the bounding box of the rectangles of `rs` inside it. */
  lemma SpannedIsBoundingBox(c: Rect, rs: seq<Rect>)
    requires SpannedBy(c, rs)
    ensures var inside := Filter(rs, InsideOf(c));
      |inside| > 0 && BoundingBox(inside) == c
  {
    var inside := Filter(rs, InsideOf(c));
    FilterMembership(rs, InsideOf(c));
    var i1 :| 0 <= i1 < |rs| && Contains(c, rs[i1]) && rs[i1].x == c.x;
    assert InsideOf(c)(rs[i1]) && rs[i1] in inside;
    var b := BoundingBox(inside);
    assert forall j :: 0 <= j < |inside| ==> Contains(c, inside[j]) by {
      forall j | 0 <= j < |inside| ensures Contains(c, inside[j]) {
        assert inside[j] in inside;
      }
    }
    LeftOfBox(c, rs, inside);
    TopOfBox(c, rs, inside);
    RightOfBox(c, rs, inside);
    BottomOfBox(c, rs, inside);
    SameEdgesSameRect(b, c);
  }

  lemma LeftOfBox(c: Rect, rs: seq<Rect>, inside: seq<Rect>)
    requires LeftFrom(c, rs) && |inside| > 0
    requires forall r :: r in rs && Contains(c, r) ==> r in inside
    requires forall j :: 0 <= j < |inside| ==> Contains(c, inside[j])
    ensures BoundingBox(inside).x == c.x
  {
    var i :| 0 <= i < |rs| && Contains(c, rs[i]) && rs[i].x == c.x;
    assert rs[i] in inside;
  }

  lemma TopOfBox(c: Rect, rs: seq<Rect>, inside: seq<Rect>)
    requires TopFrom(c, rs) && |inside| > 0
    requires forall r :: r in rs && Contains(c, r) ==> r in inside
    requires forall j :: 0 <= j < |inside| ==> Contains(c, inside[j])
    ensures BoundingBox(inside).y == c.y
  {
    var i :| 0 <= i < |rs| && Contains(c, rs[i]) && rs[i].y == c.y;
    assert rs[i] in inside;
  }

  lemma RightOfBox(c: Rect, rs: seq<Rect>, inside: seq<Rect>)
    requires RightFrom(c, rs) && |inside| > 0
    requires forall r :: r in rs && Contains(c, r) ==> r in inside
    requires forall j :: 0 <= j < |inside| ==> Contains(c, inside[j])
    ensures X2(BoundingBox(inside)) == X2(c)
  {
    var i :| 0 <= i < |rs| && Contains(c, rs[i]) && X2(rs[i]) == X2(c);
    assert rs[i] in inside;
  }

  lemma BottomOfBox(c: Rect, rs: seq<Rect>, inside: seq<Rect>)
    requires BottomFrom(c, rs) && |inside| > 0
    requires forall r :: r in rs && Contains(c, r) ==> r in inside
    requires forall j :: 0 <= j < |inside| ==> Contains(c, inside[j])
    ensures Y2(BoundingBox(inside)) == Y2(c)
  {
    var i :| 0 <= i < |rs| && Contains(c, rs[i]) && Y2(rs[i]) == Y2(c);
    assert rs[i] in inside;
  }

  /** Each rectangle of the list is spanned by the list. */
  lemma MemberSpanned(rs: seq<Rect>, i: nat)
    requires i < |rs|
    ensures SpannedBy(rs[i], rs)
  {
  }

  /** More rectangles keep a rectangle spanned. */
  lemma SpannedGrows(c: Rect, rs: seq<Rect>, more: seq<Rect>)
    requires SpannedBy(c, rs)
    ensures SpannedBy(c, rs + more)
  {
    var i1 :| 0 <= i1 < |rs| && Contains(c, rs[i1]) && rs[i1].x == c.x;
    var i2 :| 0 <= i2 < |rs| && Contains(c, rs[i2]) && rs[i2].y == c.y;
    var i3 :| 0 <= i3 < |rs| && Contains(c, rs[i3]) && X2(rs[i3]) == X2(c);
    var i4 :| 0 <= i4 < |rs| && Contains(c, rs[i4]) && Y2(rs[i4]) == Y2(c);
    var all := rs + more;
    assert all[i1] == rs[i1] && all[i2] == rs[i2] && all[i3] == rs[i3] && all[i4] == rs[i4];
  }

  /** The bounding box of two spanned rectangles is spanned. */
  lemma MergeSpanned(a: Rect, b: Rect, rs: seq<Rect>)
    requires SpannedBy(a, rs) && SpannedBy(b, rs)
    ensures SpannedBy(Merge2(a, b), rs)
  {
    var m := Merge2(a, b);
    if a.x <= b.x { MergeLeft(a, m, rs); } else { MergeLeft(b, m, rs); }
    if a.y <= b.y { MergeTop(a, m, rs); } else { MergeTop(b, m, rs); }
    if X2(a) >= X2(b) { MergeRight(a, m, rs); } else { MergeRight(b, m, rs); }
    if Y2(a) >= Y2(b) { MergeBottom(a, m, rs); } else { MergeBottom(b, m, rs); }
  }

  lemma MergeLeft(a: Rect, m: Rect, rs: seq<Rect>)
    requires LeftFrom(a, rs) && Contains(m, a) && m.x == a.x
    ensures LeftFrom(m, rs)
  {
    var i :| 0 <= i < |rs| && Contains(a, rs[i]) && rs[i].x == a.x;
    assert Contains(m, rs[i]);
  }

  lemma MergeTop(a: Rect, m: Rect, rs: seq<Rect>)
    requires TopFrom(a, rs) && Contains(m, a) && m.y == a.y
    ensures TopFrom(m, rs)
  {
    var i :| 0 <= i < |rs| && Contains(a, rs[i]) && rs[i].y == a.y;
    assert Contains(m, rs[i]);
  }

  lemma MergeRight(a: Rect, m: Rect, rs: seq<Rect>)
    requires RightFrom(a, rs) && Contains(m, a) && X2(m) == X2(a)
    ensures RightFrom(m, rs)
  {
    var i :| 0 <= i < |rs| && Contains(a, rs[i]) && X2(rs[i]) == X2(a);
    assert Contains(m, rs[i]);
  }

  lemma MergeBottom(a: Rect, m: Rect, rs: seq<Rect>)
    requires BottomFrom(a, rs) && Contains(m, a) && Y2(m) == Y2(a)
    ensures BottomFrom(m, rs)
  {
    var i :| 0 <= i < |rs| && Contains(a, rs[i]) && Y2(rs[i]) == Y2(a);
    assert Contains(m, rs[i]);
  }

  /**
   * The result of GeometryUtils.distanceBetween(Rectangle, Rectangle):
   * an axis gap, or a corner-to-corner pair whose Euclidean length
   * (`Math.hypot`) the model does not compute.
   */
  datatype Distance = Gap(d: int) | CornerToCorner(p: Point, q: Point)

  /** Rectangle `a` is entirely to the right of `b` (Java's `left` flag). */
  predicate LeftOf(b: Rect, a: Rect) { X2(b) < a.x }
  /** Rectangle `a` is entirely above `b` (Java's `top` flag). */
  predicate Above(a: Rect, b: Rect) { Y2(a) < b.y }

  function DistanceBetween(a: Rect, b: Rect): (dist: Distance)
    ensures !LeftOf(b, a) && !LeftOf(a, b) && !Above(b, a) && !Above(a, b) ==> dist == Gap(0)
    ensures LeftOf(b, a) && !Above(b, a) && !Above(a, b) ==> dist == Gap(a.x - X2(b)) && dist.d > 0
    ensures LeftOf(a, b) && !LeftOf(b, a) && !Above(b, a) && !Above(a, b) ==> dist == Gap(b.x - X2(a)) && dist.d > 0
    ensures Above(b, a) && !LeftOf(b, a) && !LeftOf(a, b) ==> dist == Gap(a.y - Y2(b)) && dist.d > 0
    ensures Above(a, b) && !Above(b, a) && !LeftOf(b, a) && !LeftOf(a, b) ==> dist == Gap(b.y - Y2(a)) && dist.d > 0
    ensures dist.CornerToCorner? <==> (LeftOf(b, a) || LeftOf(a, b)) && (Above(b, a) || Above(a, b))
  {
    var left := LeftOf(b, a);
    var right := LeftOf(a, b);
    var bottom := Above(b, a);
    var top := Above(a, b);
    if top && left then CornerToCorner(Point(a.x, Y2(a)), Point(X2(b), b.y))
    else if left && bottom then CornerToCorner(Point(a.x, a.y), Point(X2(b), Y2(b)))
    else if bottom && right then CornerToCorner(Point(X2(a), a.y), Point(b.x, Y2(b)))
    else if right && top then CornerToCorner(Point(X2(a), Y2(a)), Point(b.x, b.y))
    else if left then Gap(a.x - X2(b))
    else if right then Gap(b.x - X2(a))
    else if bottom then Gap(a.y - Y2(b))
    else if top then Gap(b.y - Y2(a))
    else Gap(0)
  }

  /** Separated on no axis: the gap is 0, and a positive-area overlap is possible only then. */
  lemma IntersectingAtDistanceZero(a: Rect, b: Rect)
    requires Intersects(a, b)
    ensures DistanceBetween(a, b) == Gap(0)
  {
  }

  /**
   * `Line2D.intersects(Rectangle)` for the horizontal segment from (x1, y)
   * to (x2, y) with x1 <= x2: the segment meets the closed rectangle, which
   * must not be empty.
   */
  predicate HorizontalSegmentHits(x1: int, x2: int, y: int, r: Rect) {
    !IsEmpty(r) && r.y <= y <= Y2(r) && x1 <= X2(r) && r.x <= x2
  }

  /** The same test for the vertical segment from (x, y1) to (x, y2) with y1 <= y2. */
  predicate VerticalSegmentHits(x: int, y1: int, y2: int, r: Rect) {
    !IsEmpty(r) && r.x <= x <= X2(r) && y1 <= Y2(r) && r.y <= y2
  }
}

=== FILE: ocr_model.dfy ===
/**
 * The objects of the OCR model whose fields the layout engine updates in
 * place: the zones that hold words (WordsContainerTextZone and its
 * subclass TextBlock), which remember their border words and mark them,
 * and the Page, whose `detect*` methods fill the lines, text blocks,
 * paragraphs, white spaces and dividing line one after the other.
 */
module OcrModel {
  import opened Wrappers
  import opened Seqs
  import opened Geometry
  import opened Sides
  import opened TextZones
  import opened Words
  import opened WordsContainers
  import opened Aggregation
  import opened Paragraphs
  import opened WhiteSpaces
  import opened PageLayout

  // ---------------------------------------------------------------------
  // Border words and their marks

  /** `Side.values()`: the declaration order of the enum. */
  function SideValues(): seq<Side> { [Top, Right, Bottom, Left] }

  /** The border lists of the given sides. */
  function BordersOf(zone: Rect, words: seq<Word>, pageWidth: int, pageHeight: int, sides: seq<Side>): map<Side, seq<Word>> {
    map s | s in sides :: WordsOnTheSideBorder(zone, s, words, pageWidth, pageHeight)
  }

  /** The map `getWordsOnSideBorders` fills: each side to its border words. */
  function SideBorders(zone: Rect, words: seq<Word>, pageWidth: int, pageHeight: int): map<Side, seq<Word>> {
    BordersOf(zone, words, pageWidth, pageHeight, SideValues())
  }

  lemma BordersOfAppend(zone: Rect, words: seq<Word>, pageWidth: int, pageHeight: int, sides: seq<Side>, s: Side)
    ensures BordersOf(zone, words, pageWidth, pageHeight, sides + [s])
         == BordersOf(zone, words, pageWidth, pageHeight, sides)[s := WordsOnTheSideBorder(zone, s, words, pageWidth, pageHeight)]
  {
    var m1 := BordersOf(zone, words, pageWidth, pageHeight, sides + [s]);
    var m2 := BordersOf(zone, words, pageWidth, pageHeight, sides)[s := WordsOnTheSideBorder(zone, s, words, pageWidth, pageHeight)];
    assert forall t :: t in sides + [s] <==> t in sides || t == s;
    assert m1.Keys == m2.Keys;
  }

  /** Marks every word of the list with the colour (`peek(word -> word.mark(color))`). */
  method MarkWords(ws: seq<Word>, color: Color)
    modifies ws
    ensures forall w :: w in ws ==> w.markColor == Some(color)
  {
    for i := 0 to |ws|
      invariant forall j :: 0 <= j < i ==> ws[j].markColor == Some(color)
    {
      ws[i].Mark(color);
    }
  }

  /**
   * The mark a word carries after the border lists of `sides` were computed
   * in that order, starting from `before`: the colour of the last of those
   * sides it is a border word of, or `before` when it is on none.
   */
  function MarkAfter(w: Word, zone: Rect, words: seq<Word>, pageWidth: int, pageHeight: int,
                     sides: seq<Side>, before: Option<Color>): (m: Option<Color>)
    ensures (forall k :: 0 <= k < |sides| ==> w !in WordsOnTheSideBorder(zone, sides[k], words, pageWidth, pageHeight)) ==> m == before
    ensures m != before ==> exists k :: (0 <= k < |sides| && m == Some(ColorOf(sides[k]))
      && w in WordsOnTheSideBorder(zone, sides[k], words, pageWidth, pageHeight))
    decreases |sides|
  {
    if sides == [] then before
    else
      var last := sides[|sides| - 1];
      if w in WordsOnTheSideBorder(zone, last, words, pageWidth, pageHeight) then Some(ColorOf(last))
      else
        var m := MarkAfter(w, zone, words, pageWidth, pageHeight, sides[..|sides| - 1], before);
        assert forall k :: 0 <= k < |sides| - 1 ==> sides[..|sides| - 1][k] == sides[k];
        m
  }

  /** Computing one more border list marks its words and leaves the other marks as they were. */
  lemma MarkAfterStep(w: Word, zone: Rect, words: seq<Word>, pageWidth: int, pageHeight: int,
                      sides: seq<Side>, s: Side, before: Option<Color>)
    ensures MarkAfter(w, zone, words, pageWidth, pageHeight, sides + [s], before)
         == if w in WordsOnTheSideBorder(zone, s, words, pageWidth, pageHeight) then Some(ColorOf(s))
            else MarkAfter(w, zone, words, pageWidth, pageHeight, sides, before)
  {
    assert (sides + [s])[..|sides|] == sides;
  }

  /** A word on the LEFT border ends marked with the LEFT colour, whatever other border it is on. */
  lemma LeftBorderMarkWins(w: Word, zone: Rect, words: seq<Word>, pageWidth: int, pageHeight: int, before: Option<Color>)
    ensures w in WordsOnTheSideBorder(zone, Left, words, pageWidth, pageHeight) ==>
      MarkAfter(w, zone, words, pageWidth, pageHeight, SideValues(), before) == Some(Red)
  {
  }

  /**
   * A zone that holds words (`WordsContainerTextZone`; a TextBlock is one
   * with the TextBlock kind). The page words are shared with the page: the
   * border detection marks them.
   */
  class WordsContainerTextZone {
    const zone: Zone
    const words: seq<Word>
    const pageWidth: int
    const pageHeight: int
    /** `wordsOnSidesBorders`: None until `getWordsOnSideBorders` is first called. */
    var wordsOnSidesBorders: Option<map<Side, seq<Word>>>

    /** The memo, once filled, holds the border lists of the zone. */
    ghost predicate Valid()
      reads this
    {
      wordsOnSidesBorders.Some? ==> wordsOnSidesBorders.value == SideBorders(zone.rect, words, pageWidth, pageHeight)
    }

    constructor (zone: Zone, words: seq<Word>, pageWidth: int, pageHeight: int)
      ensures this.zone == zone && this.words == words
      ensures this.pageWidth == pageWidth && this.pageHeight == pageHeight
      ensures wordsOnSidesBorders == None && Valid()
    {
      this.zone := zone;
      this.words := words;
      this.pageWidth := pageWidth;
      this.pageHeight := pageHeight;
      wordsOnSidesBorders := None;
    }

    /**
     * `getWordsOnTheSideBorder(side)`: the border words of that side, each
     * marked with the side's colour; no other word's mark changes.
     */
    method GetWordsOnTheSideBorder(side: Side) returns (r: seq<Word>)
      modifies words
      ensures r == WordsOnTheSideBorder(zone.rect, side, words, pageWidth, pageHeight)
      ensures forall w :: w in words ==>
        w.markColor == (if w in r then Some(ColorOf(side)) else old(w.markColor))
    {
      r := WordsOnTheSideBorder(zone.rect, side, words, pageWidth, pageHeight);
      MarkWords(r, ColorOf(side));
    }

    /**
     * `getWordsOnSideBorders`: the first call computes the four border
     * lists in `Side.values()` order (marking their words) and remembers
     * them; later calls return the remembered map and mark nothing.
     */
    method GetWordsOnSideBorders() returns (m: map<Side, seq<Word>>)
      requires Valid()
      modifies this, words
      ensures Valid() && wordsOnSidesBorders == Some(m)
      ensures m == SideBorders(zone.rect, words, pageWidth, pageHeight)
      ensures old(wordsOnSidesBorders).Some? ==> forall w :: w in words ==> w.markColor == old(w.markColor)
      ensures old(wordsOnSidesBorders).None? ==> forall w :: w in words ==>
        w.markColor == MarkAfter(w, zone.rect, words, pageWidth, pageHeight, SideValues(), old(w.markColor))
    {
      if wordsOnSidesBorders.Some? {
        return wordsOnSidesBorders.value;
      }
      ghost var before := map w | w in words :: w.markColor;
      m := ComputeSideBorders(before);
      wordsOnSidesBorders := Some(m);
    }

    /** Every word carries the mark it has after the border lists of `done`, starting from `before`. */
    ghost predicate MarkedAfter(before: map<Word, Option<Color>>, done: seq<Side>)
      reads words
    {
      forall w :: w in words ==> w in before && w.markColor == MarkAfter(w, zone.rect, words, pageWidth, pageHeight, done, before[w])
    }

    /** The four border lists in `Side.values()` order, marking the words of each. */
    method ComputeSideBorders(ghost before: map<Word, Option<Color>>) returns (m: map<Side, seq<Word>>)
      requires forall w :: w in words ==> w in before && w.markColor == before[w]
      modifies words
      ensures m == SideBorders(zone.rect, words, pageWidth, pageHeight)
      ensures forall w :: w in words ==>
        w.markColor == MarkAfter(w, zone.rect, words, pageWidth, pageHeight, SideValues(), before[w])
    {
      var sides := SideValues();
      m := map[];
      assert MarkedAfter(before, sides[..0]);
      for i := 0 to |sides|
        invariant m == BordersOf(zone.rect, words, pageWidth, pageHeight, sides[..i])
        invariant MarkedAfter(before, sides[..i])
      {
        var border := MarkSide(before, sides[..i], sides[i]);
        assert sides[..i + 1] == sides[..i] + [sides[i]];
        BordersOfAppend(zone.rect, words, pageWidth, pageHeight, sides[..i], sides[i]);
        m := m[sides[i] := border];
      }
      assert sides[..4] == sides;
    }

    /** One more border list of `getWordsOnSideBorders`, after the lists of `done`. */
    method MarkSide(ghost before: map<Word, Option<Color>>, ghost done: seq<Side>, side: Side) returns (border: seq<Word>)
      requires MarkedAfter(before, done)
      modifies words
      ensures border == WordsOnTheSideBorder(zone.rect, side, words, pageWidth, pageHeight)
      ensures MarkedAfter(before, done + [side])
    {
      border := GetWordsOnTheSideBorder(side);
      forall w | w in words
        ensures w.markColor == MarkAfter(w, zone.rect, words, pageWidth, pageHeight, done + [side], before[w])
      {
        MarkAfterStep(w, zone.rect, words, pageWidth, pageHeight, done, side, before[w]);
      }
    }

    /**
     * `countLines`: the larger of the numbers of LEFT and RIGHT border words
     * (computing both lists marks their words, RIGHT last).
     */
    method CountLines() returns (n: nat)
      modifies words
      ensures n == WordsContainers.CountLines(zone.rect, words, pageWidth, pageHeight)
      ensures forall w :: w in words ==>
        w.markColor == MarkAfter(w, zone.rect, words, pageWidth, pageHeight, [Left, Right], old(w.markColor))
    {
      ghost var before := map w | w in words :: w.markColor;
      assert MarkedAfter(before, []);
      var left := MarkSide(before, [], Left);
      assert [] + [Left] == [Left];
      var right := MarkSide(before, [Left], Right);
      assert [Left] + [Right] == [Left, Right];
      n := if |left| >= |right| then |left| else |right|;
    }

    /**
     * `TextBlock.detectParagraphs`: the cuts from the LEFT border words,
     * then one paragraph with the block's rectangle, or the block sliced at
     * the cuts.
     */
    method DetectParagraphs(isOutlier: (seq<int>, int) -> bool) returns (r: Result<seq<Zone>>)
      requires Valid()
      modifies this, words
      ensures Valid() && wordsOnSidesBorders.Some?
      ensures r == TextBlockParagraphs(zone.rect, WordsOnTheSideBorder(zone.rect, Left, words, pageWidth, pageHeight),
                                       words, pageWidth, pageHeight, isOutlier)
    {
      var borders := GetWordsOnSideBorders();
      var left := borders[Left];
      var cuts := DetectParagraphCuts(zone.rect, left, words, pageWidth, pageHeight, isOutlier);
      if cuts == [] {
        r := Success([Zone(Paragraph, zone.rect)]);
      } else {
        r := SliceOnY(Zone(TextBlock, zone.rect), cuts, Paragraph);
      }
    }
  }

  // ---------------------------------------------------------------------
  // Paragraphs of a page

  /** The paragraphs of the text blocks, block after block (`flatMap`); the first failing block's error. */
  function BlocksParagraphs(blocks: seq<Zone>, words: seq<Word>, pageWidth: int, pageHeight: int,
                            isOutlier: (seq<int>, int) -> bool): Result<seq<Zone>>
    decreases |blocks|
  {
    if blocks == [] then Success([])
    else
      var b := blocks[|blocks| - 1].rect;
      var prev := BlocksParagraphs(blocks[..|blocks| - 1], words, pageWidth, pageHeight, isOutlier);
      if prev.Failure? then prev
      else
        var ps := TextBlockParagraphs(b, WordsOnTheSideBorder(b, Left, words, pageWidth, pageHeight),
                                      words, pageWidth, pageHeight, isOutlier);
        if ps.Failure? then Failure(ps.error) else Success(prev.value + ps.value)
  }

  /** `r` lies inside some zone of the list. */
  predicate InsideSomeZone(r: Rect, zs: seq<Zone>) {
    exists j :: 0 <= j < |zs| && Contains(zs[j].rect, r)
  }

  /** Slices that tile a rectangle lie inside it. */
  lemma TilesInside(r: Rect, slices: seq<Zone>)
    requires Tiles(r, slices)
    ensures forall i :: 0 <= i < |slices| ==> Contains(r, slices[i].rect)
  {
    forall i | 0 <= i < |slices|
      ensures Contains(r, slices[i].rect)
    {
      SliceBelowTop(r, slices, i);
      SliceAboveBottom(r, slices, i);
    }
  }

  lemma {:induction false} SliceBelowTop(r: Rect, slices: seq<Zone>, i: nat)
    requires Tiles(r, slices) && i < |slices|
    ensures r.y <= slices[i].rect.y
    decreases i
  {
    if i > 0 {
      SliceBelowTop(r, slices, i - 1);
    }
  }

  lemma {:induction false} SliceAboveBottom(r: Rect, slices: seq<Zone>, i: nat)
    requires Tiles(r, slices) && i < |slices|
    ensures Y2(slices[i].rect) <= Y2(r)
    decreases |slices| - i
  {
    if i < |slices| - 1 {
      SliceAboveBottom(r, slices, i + 1);
    }
  }

  /**
   * When every text block is at least 20 pixels tall, no block fails, and
   * every paragraph lies inside one of the blocks.
   */
  lemma {:induction false} BlocksParagraphsInside(blocks: seq<Zone>, words: seq<Word>, pageWidth: int, pageHeight: int,
                                                  isOutlier: (seq<int>, int) -> bool)
    requires forall i :: 0 <= i < |blocks| ==> blocks[i].rect.height >= 20
    ensures var r := BlocksParagraphs(blocks, words, pageWidth, pageHeight, isOutlier);
      && r.Success?
      && (forall k :: 0 <= k < |r.value| ==> r.value[k].kind == Paragraph && InsideSomeZone(r.value[k].rect, blocks))
    decreases |blocks|
  {
    if blocks != [] {
      var n := |blocks| - 1;
      var b := blocks[n].rect;
      BlocksParagraphsInside(blocks[..n], words, pageWidth, pageHeight, isOutlier);
      var prev := BlocksParagraphs(blocks[..n], words, pageWidth, pageHeight, isOutlier);
      var left := WordsOnTheSideBorder(b, Left, words, pageWidth, pageHeight);
      TextBlockParagraphsTile(b, left, words, pageWidth, pageHeight, isOutlier);
      var ps := TextBlockParagraphs(b, left, words, pageWidth, pageHeight, isOutlier);
      if |ps.value| > 1 {
        TilesInside(b, ps.value);
      }
      ParagraphsInsideAppend(blocks, prev.value, ps.value);
    }
  }

  /** Paragraphs inside the first blocks, followed by paragraphs inside the last block, lie inside the blocks. */
  lemma ParagraphsInsideAppend(blocks: seq<Zone>, prev: seq<Zone>, ps: seq<Zone>)
    requires blocks != []
    requires forall k :: 0 <= k < |prev| ==> prev[k].kind == Paragraph && InsideSomeZone(prev[k].rect, blocks[..|blocks| - 1])
    requires forall k :: 0 <= k < |ps| ==> ps[k].kind == Paragraph && Contains(blocks[|blocks| - 1].rect, ps[k].rect)
    ensures forall k :: 0 <= k < |prev + ps| ==> (prev + ps)[k].kind == Paragraph && InsideSomeZone((prev + ps)[k].rect, blocks)
  {
    var n := |blocks| - 1;
    var all := prev + ps;
    forall k | 0 <= k < |all|
      ensures all[k].kind == Paragraph && InsideSomeZone(all[k].rect, blocks)
    {
      if k < |prev| {
        var j :| 0 <= j < n && Contains(blocks[..n][j].rect, prev[k].rect);
        assert Contains(blocks[j].rect, all[k].rect);
      } else {
        assert Contains(blocks[n].rect, all[k].rect);
      }
    }
  }

  // ---------------------------------------------------------------------
  // Page

  /**
   * What `cleanUp` promises about the text blocks built from the block
   * candidates: TextBlock zones sorted by top edge, without duplicates,
   * each candidate inside one of them, all inside the candidates' bounding
   * box, each the bounding box of the candidates it contains, and pairwise
   * disjoint when the rounds converged.
   */
  predicate CleanedBlocks(candidates: seq<Rect>, blocks: seq<Zone>, converged: bool) {
    && (forall i :: 0 <= i < |blocks| ==> blocks[i].kind == TextBlock)
    && SortedBy(blocks, ZoneY1)
    && CleanedRects(candidates, RectsOfZones(blocks), converged)
    && (candidates == [] ==> blocks == [])
    && ZonesSpanned(blocks, candidates)
  }

  /** The promises of `cleanUp` about the rectangles of the text blocks. */
  predicate CleanedRects(candidates: seq<Rect>, rs: seq<Rect>, converged: bool) {
    && Distinct(rs)
    && (converged ==> PairwiseDisjoint(rs))
    && EachCovered(candidates, rs)
    && (candidates != [] ==> AllWithin(BoundingBox(candidates), rs))
  }

  /** Candidates that are already pairwise disjoint come back as they were, in one round. */
  predicate DisjointKept(candidates: seq<Rect>, blocks: seq<Zone>, converged: bool, fuel: nat) {
    PairwiseDisjoint(candidates) && fuel > 0 ==> converged && Elements(RectsOfZones(blocks)) == Elements(candidates)
  }

  /** Every block candidate lies inside some zone of the list. */
  predicate CandidatesInside(candidates: seq<Rect>, zs: seq<Zone>) {
    forall i :: 0 <= i < |candidates| ==> InsideSomeZone(candidates[i], zs)
  }

  /** The text blocks of `cleanUp`'s result, as TextBlock zones. */
  function AsTextBlocks(rs: seq<Rect>): (zs: seq<Zone>)
    ensures |zs| == |rs| && RectsOfZones(zs) == rs
    ensures forall i :: 0 <= i < |zs| ==> zs[i].kind == TextBlock
  {
    seq(|rs|, i requires 0 <= i < |rs| => Zone(TextBlock, rs[i]))
  }

  /** Merging the text blocks horizontally keeps every candidate inside some block. */
  lemma CandidatesStayInside(candidates: seq<Rect>, blocks: seq<Zone>, pageWidth: int)
    requires EachCovered(candidates, RectsOfZones(blocks))
    ensures CandidatesInside(candidates, MergedHorizontally(blocks, pageWidth))
  {
    var ms := MergedHorizontally(blocks, pageWidth);
    MergedHorizontallyCovers(blocks, pageWidth);
    forall i | 0 <= i < |candidates|
      ensures InsideSomeZone(candidates[i], ms)
    {
      assert CoveredBy(candidates[i], RectsOfZones(blocks));
      var r :| r in RectsOfZones(blocks) && Contains(r, candidates[i]);
      var k :| 0 <= k < |blocks| && RectsOfZones(blocks)[k] == r;
      var j :| 0 <= j < |ms| && Contains(ms[j].rect, blocks[k].rect);
      assert Contains(ms[j].rect, candidates[i]);
    }
  }

  /** The Aggregator run of `detectLinesFromWords`, each group turned into a TextLine with the group's box. */
  method BuildLines(words: seq<Word>) returns (lines: seq<Zone>)
    ensures lines == LinesOf(words)
  {
    var aggregator := new Aggregator(SameLineTest(), words);
    var groups := aggregator.BuildGroups();
    GroupsNonEmpty(words, SameLineTest());
    lines := seq(|groups|, g requires 0 <= g < |groups| => Zone(TextLine, MergeRectangles(RectsOfWords(groups[g])).value));
  }

  /** The Aggregator run of `detectTextBlockFromLines`, keeping the valid group boxes. */
  method BuildBlockCandidates(words: seq<Word>, lines: seq<Zone>, pageWidth: int, pageHeight: int) returns (candidates: seq<Rect>)
    ensures candidates == BlockCandidates(words, lines, pageWidth, pageHeight)
  {
    var aggregator := new Aggregator(SameBlockTest(words), lines);
    var groups := aggregator.BuildGroups();
    GroupsNonEmpty(lines, SameBlockTest(words));
    var boxes := seq(|groups|, g requires 0 <= g < |groups| => MergeRectangles(RectsOfZones(groups[g])).value);
    assert boxes == GroupBoxes(words, lines);
    candidates := Filter(boxes, ValidIn(pageWidth, pageHeight));
  }

  /** The text blocks made from `cleanUp`'s result keep its promises. */
  lemma CleanedBlocksOf(candidates: seq<Rect>, cleaned: seq<Rect>, converged: bool)
    requires converged ==> PairwiseDisjoint(cleaned)
    requires EachCovered(candidates, cleaned)
    requires candidates != [] ==> AllWithin(BoundingBox(candidates), cleaned)
    requires candidates == [] ==> cleaned == []
    requires SortedBy(cleaned, RectY1) && Distinct(cleaned)
    requires RectsSpanned(cleaned, candidates)
    ensures CleanedBlocks(candidates, AsTextBlocks(cleaned), converged)
  {
    var zs := AsTextBlocks(cleaned);
    assert CleanedRects(candidates, cleaned, converged);
    assert RectsOfZones(zs) == cleaned;
    forall i, j | 0 <= i < j < |zs| ensures ZoneY1(zs[i]) <= ZoneY1(zs[j]) {
      assert ZoneY1(zs[i]) == RectY1(cleaned[i]) && ZoneY1(zs[j]) == RectY1(cleaned[j]);
    }
    AsTextBlocksSpanned(candidates, cleaned);
  }

  lemma AsTextBlocksSpanned(candidates: seq<Rect>, cleaned: seq<Rect>)
    requires RectsSpanned(cleaned, candidates)
    ensures ZonesSpanned(AsTextBlocks(cleaned), candidates)
  {
    var zs := AsTextBlocks(cleaned);
    forall j | 0 <= j < |zs| ensures SpannedBy(zs[j].rect, candidates) {
      assert zs[j].rect == cleaned[j];
    }
  }

  /** The block candidates of the lines, cleaned up and made TextBlock zones. */
  method BuildTextBlocks(words: seq<Word>, lines: seq<Zone>, pageWidth: int, pageHeight: int, fuel: nat)
    returns (blocks: seq<Zone>, converged: bool)
    ensures CleanedBlocks(BlockCandidates(words, lines, pageWidth, pageHeight), blocks, converged)
    ensures DisjointKept(BlockCandidates(words, lines, pageWidth, pageHeight), blocks, converged, fuel)
  {
    var candidates := BuildBlockCandidates(words, lines, pageWidth, pageHeight);
    var cleaned;
    cleaned, converged := CleanUp(candidates, fuel);
    CleanedBlocksOf(candidates, cleaned, converged);
    blocks := AsTextBlocks(cleaned);
  }

  /** One more block of the `flatMap`: its failure ends the list, its paragraphs extend it. */
  lemma BlocksParagraphsStep(blocks: seq<Zone>, words: seq<Word>, pageWidth: int, pageHeight: int,
                             isOutlier: (seq<int>, int) -> bool, i: nat, all: seq<Zone>, ps: Result<seq<Zone>>)
    requires i < |blocks|
    requires BlocksParagraphs(blocks[..i], words, pageWidth, pageHeight, isOutlier) == Success(all)
    requires ps == TextBlockParagraphs(blocks[i].rect, WordsOnTheSideBorder(blocks[i].rect, Left, words, pageWidth, pageHeight),
                                       words, pageWidth, pageHeight, isOutlier)
    ensures ps.Failure? ==> BlocksParagraphs(blocks, words, pageWidth, pageHeight, isOutlier) == Failure(ps.error)
    ensures ps.Success? ==> BlocksParagraphs(blocks[..i + 1], words, pageWidth, pageHeight, isOutlier) == Success(all + ps.value)
  {
    assert blocks[..i + 1][..i] == blocks[..i];
    if ps.Failure? {
      BlocksParagraphsFailurePersists(blocks, words, pageWidth, pageHeight, isOutlier, i + 1);
    }
  }

  /** The paragraphs of one text block, from a fresh TextBlock object over the page's words. */
  method BlockParagraphs(block: Zone, words: seq<Word>, pageWidth: int, pageHeight: int,
                         isOutlier: (seq<int>, int) -> bool) returns (r: Result<seq<Zone>>)
    modifies words
    ensures r == TextBlockParagraphs(block.rect, WordsOnTheSideBorder(block.rect, Left, words, pageWidth, pageHeight),
                                     words, pageWidth, pageHeight, isOutlier)
  {
    var textBlock := new WordsContainerTextZone(block, words, pageWidth, pageHeight);
    r := textBlock.DetectParagraphs(isOutlier);
  }

  /**
   * The `flatMap` of `Page.detectParagraphs`: each text block becomes a
   * fresh TextBlock object whose paragraphs are appended in block order;
   * the first failure stops the stream.
   */
  method CollectParagraphs(blocks: seq<Zone>, words: seq<Word>, pageWidth: int, pageHeight: int,
                           isOutlier: (seq<int>, int) -> bool) returns (r: Result<seq<Zone>>)
    modifies words
    ensures r == BlocksParagraphs(blocks, words, pageWidth, pageHeight, isOutlier)
  {
    var all: seq<Zone> := [];
    for i := 0 to |blocks|
      invariant BlocksParagraphs(blocks[..i], words, pageWidth, pageHeight, isOutlier) == Success(all)
    {
      var ps := BlockParagraphs(blocks[i], words, pageWidth, pageHeight, isOutlier);
      BlocksParagraphsStep(blocks, words, pageWidth, pageHeight, isOutlier, i, all, ps);
      if ps.Failure? {
        return Failure(ps.error);
      }
      all := all + ps.value;
    }
    assert blocks[..|blocks|] == blocks;
    r := Success(all);
  }

  /**
   * A page of the document: its words (the OCR output) and the zones the
   * layout engine detects on it. A `null` list of the source is an empty
   * sequence here.
   */
  class Page {
    const idx: seq<int>
    const width: nat
    const height: nat
    const words: seq<Word>
    var lines: seq<Zone>
    var textBlocks: seq<Zone>
    var paragraphs: seq<Zone>
    var whiteSpaces: seq<Zone>
    /** The x of the vertical dividing line of a two-page layout. */
    var dividingLine: Option<int>

    constructor (idx: seq<int>, width: nat, height: nat, words: seq<Word>)
      ensures this.idx == idx && this.width == width && this.height == height && this.words == words
      ensures lines == [] && textBlocks == [] && paragraphs == [] && whiteSpaces == [] && dividingLine == None
    {
      this.idx := idx;
      this.width := width;
      this.height := height;
      this.words := words;
      lines, textBlocks, paragraphs, whiteSpaces := [], [], [], [];
      dividingLine := None;
    }

    /** `hasLayoutData`. */
    predicate HasLayoutData()
      reads this
    {
      dividingLine.Some?
    }

    /** `equals`: two pages are equal when their indexes are. */
    predicate Equals(other: Page)
      reads this, other
    {
      idx == other.idx
    }

    /** `detectLinesFromWords`: with words, one TextLine per same-line group of words, with the group's box. */
    method DetectLinesFromWords()
      modifies this
      ensures lines == (if words != [] then LinesOf(words) else old(lines))
      ensures textBlocks == old(textBlocks) && paragraphs == old(paragraphs)
      ensures whiteSpaces == old(whiteSpaces) && dividingLine == old(dividingLine)
    {
      if words != [] {
        lines := BuildLines(words);
      }
    }

    /**
     * `detectTextBlockFromLines`: with lines, the valid boxes of the
     * same-block groups of lines, cleaned up. `fuel` bounds the clean-up
     * rounds; `converged` says the last round merged nothing.
     */
    method DetectTextBlockFromLines(fuel: nat) returns (converged: bool)
      modifies this
      ensures lines == old(lines) && paragraphs == old(paragraphs)
      ensures whiteSpaces == old(whiteSpaces) && dividingLine == old(dividingLine)
      ensures lines == [] ==> textBlocks == old(textBlocks)
      ensures lines != [] ==> CleanedBlocks(BlockCandidates(words, lines, width, height), textBlocks, converged)
      ensures lines != [] ==> DisjointKept(BlockCandidates(words, lines, width, height), textBlocks, converged, fuel)
    {
      converged := true;
      var ls := lines;
      if ls != [] {
        var blocks, c := BuildTextBlocks(words, ls, width, height, fuel);
        SetTextBlocks(blocks);
        converged := c;
      }
    }

    /** Replaces the text blocks and nothing else. */
    method SetTextBlocks(blocks: seq<Zone>)
      modifies this
      ensures textBlocks == blocks
      ensures lines == old(lines) && paragraphs == old(paragraphs)
      ensures whiteSpaces == old(whiteSpaces) && dividingLine == old(dividingLine)
    {
      textBlocks := blocks;
    }

    /**
     * `detectTextBlocks`: lines from words, lines merged horizontally, text
     * blocks from lines, text blocks merged horizontally. `cleaned` is the
     * list of text blocks before the horizontal merge. Every block candidate
     * ends inside one of the text blocks.
     */
    method DetectTextBlocks(fuel: nat) returns (converged: bool, ghost cleaned: seq<Zone>)
      modifies this
      ensures lines == MergedHorizontally(if words != [] then LinesOf(words) else old(lines), width)
      ensures lines == [] ==> textBlocks == MergedHorizontally(old(textBlocks), width)
      ensures lines != [] ==> CleanedBlocks(BlockCandidates(words, lines, width, height), cleaned, converged)
      ensures lines != [] ==> DisjointKept(BlockCandidates(words, lines, width, height), cleaned, converged, fuel)
      ensures lines != [] ==> textBlocks == MergedHorizontally(cleaned, width)
      ensures lines != [] ==> CandidatesInside(BlockCandidates(words, lines, width, height), textBlocks)
      ensures lines != [] ==> forall i :: 0 <= i < |textBlocks| ==> textBlocks[i].kind == TextBlock
      ensures paragraphs == old(paragraphs) && whiteSpaces == old(whiteSpaces) && dividingLine == old(dividingLine)
    {
      DetectLinesFromWords();
      MergeLinesHorizontally();
      converged := DetectTextBlockFromLines(fuel);
      cleaned := textBlocks;
      MergeTextBlocksHorizontally();
      if lines != [] {
        MergedBlocksKeepCandidates(BlockCandidates(words, lines, width, height), cleaned, converged, width);
      }
    }

    /** `mergeLinesHorizontally`. */
    method MergeLinesHorizontally()
      modifies this
      ensures lines == MergedHorizontally(old(lines), width)
      ensures textBlocks == old(textBlocks) && paragraphs == old(paragraphs)
      ensures whiteSpaces == old(whiteSpaces) && dividingLine == old(dividingLine)
    {
      lines := MergeHorizontally(lines, width);
    }

    /** `mergeTextBlocksHorizontally`. */
    method MergeTextBlocksHorizontally()
      modifies this
      ensures textBlocks == MergedHorizontally(old(textBlocks), width)
      ensures lines == old(lines) && paragraphs == old(paragraphs)
      ensures whiteSpaces == old(whiteSpaces) && dividingLine == old(dividingLine)
    {
      textBlocks := MergeHorizontally(textBlocks, width);
    }

    /** `mergeParagraphsHorizontally`. */
    method MergeParagraphsHorizontally()
      modifies this
      ensures paragraphs == MergedHorizontally(old(paragraphs), width)
      ensures lines == old(lines) && textBlocks == old(textBlocks)
      ensures whiteSpaces == old(whiteSpaces) && dividingLine == old(dividingLine)
    {
      paragraphs := MergeHorizontally(paragraphs, width);
    }

    /**
     * `detectWhiteSpaces`: with text blocks, one full-width band per maximal
     * run of rows that cross no paragraph.
     */
    method DetectWhiteSpaces()
      modifies this
      ensures whiteSpaces == (if textBlocks != [] then Bands(Coordinates(paragraphs, width, height), width) else old(whiteSpaces))
      ensures lines == old(lines) && textBlocks == old(textBlocks) && paragraphs == old(paragraphs)
      ensures dividingLine == old(dividingLine)
    {
      if textBlocks != [] {
        var coordinates := WhiteSpaces.ScanTransitions(paragraphs, width, height);
        whiteSpaces := Bands(coordinates, width);
      }
    }

    /**
     * `detectParagraphs`: with text blocks, the paragraphs of every block
     * sorted by top edge; the white spaces between them; then the
     * paragraphs merged horizontally. A block whose cuts `sliceOnY`
     * rejects stops the detection with that error and nothing is assigned.
     */
    method DetectParagraphs(isOutlier: (seq<int>, int) -> bool) returns (error: Option<Error>)
      modifies this, words
      ensures lines == old(lines) && textBlocks == old(textBlocks) && dividingLine == old(dividingLine)
      ensures textBlocks == [] ==> error == None && paragraphs == old(paragraphs) && whiteSpaces == old(whiteSpaces)
      ensures textBlocks != [] ==> var r := BlocksParagraphs(textBlocks, words, width, height, isOutlier);
        && (r.Failure? ==> error == Some(r.error) && paragraphs == old(paragraphs) && whiteSpaces == old(whiteSpaces))
        && (r.Success? ==> (
             var sorted := SortBy(r.value, ZoneY1);
             && error == None
             && paragraphs == MergedHorizontally(sorted, width)
             && whiteSpaces == (if sorted != [] then Bands(Coordinates(sorted, width, height), width) else old(whiteSpaces))))
    {
      if textBlocks == [] {
        return None;
      }
      var r := CollectParagraphs(textBlocks, words, width, height, isOutlier);
      if r.Failure? {
        return Some(r.error);
      }
      var all := r.value;
      paragraphs := SortBy(all, ZoneY1);
      if paragraphs != [] {
        DetectWhiteSpaces();
      }
      MergeParagraphsHorizontally();
      error := None;
    }

    /**
     * `detectTwoPagesLayout`: with words, the dividing line becomes the
     * chosen probe, or none when no probe is sparse enough; the result says
     * whether a dividing line is set.
     */
    method DetectTwoPagesLayout() returns (found: bool)
      modifies this
      ensures words != [] ==> DividingLineChoice(words, width, height, dividingLine)
      ensures words == [] ==> dividingLine == old(dividingLine)
      ensures found == dividingLine.Some?
      ensures lines == old(lines) && textBlocks == old(textBlocks)
      ensures paragraphs == old(paragraphs) && whiteSpaces == old(whiteSpaces)
    {
      if words != [] {
        dividingLine := SelectDividingLine(words, width, height);
      }
      found := dividingLine.Some?;
    }
  }

  /** After `mergeTextBlocksHorizontally` every candidate still lies inside some text block. */
  lemma MergedBlocksKeepCandidates(candidates: seq<Rect>, blocks: seq<Zone>, converged: bool, pageWidth: int)
    requires CleanedBlocks(candidates, blocks, converged)
    ensures CandidatesInside(candidates, MergedHorizontally(blocks, pageWidth))
    ensures forall i :: 0 <= i < |MergedHorizontally(blocks, pageWidth)| ==> MergedHorizontally(blocks, pageWidth)[i].kind == TextBlock
  {
    CandidatesStayInside(candidates, blocks, pageWidth);
    MergedHorizontallyKinds(blocks, pageWidth);
  }

  /** Merging horizontally keeps the kind of the zones. */
  lemma {:induction false} MergedHorizontallyKinds(input: seq<Zone>, pageWidth: int)
    requires forall i :: 0 <= i < |input| ==> input[i].kind == TextBlock
    ensures forall i :: 0 <= i < |MergedHorizontally(input, pageWidth)| ==> MergedHorizontally(input, pageWidth)[i].kind == TextBlock
    decreases |input|
  {
    if input != [] {
      MergedHorizontallyKinds(input[..|input| - 1], pageWidth);
    }
  }

  /** Once a prefix of the blocks fails, the whole list fails with the same error. */
  lemma {:induction false} BlocksParagraphsFailurePersists(blocks: seq<Zone>, words: seq<Word>, pageWidth: int, pageHeight: int,
                                                           isOutlier: (seq<int>, int) -> bool, n: nat)
    requires n <= |blocks|
    requires BlocksParagraphs(blocks[..n], words, pageWidth, pageHeight, isOutlier).Failure?
    ensures BlocksParagraphs(blocks, words, pageWidth, pageHeight, isOutlier)
         == BlocksParagraphs(blocks[..n], words, pageWidth, pageHeight, isOutlier)
    decreases |blocks| - n
  {
    if n < |blocks| {
      assert blocks[..n + 1][..n] == blocks[..n];
      BlocksParagraphsFailurePersists(blocks, words, pageWidth, pageHeight, isOutlier, n + 1);
    } else {
      assert blocks[..n] == blocks;
    }
  }
}

=== FILE: page_layout.dfy ===
/**
 * The page-level computations of Page that work on lists of zones: the
 * x offset of a list, the page margins, total and overlapping areas, the
 * two-page probe, the left/right split, the order of elements handed to
 * pagination, and the grouping of words into lines and of lines into
 * cleaned-up text blocks.
 *
 * Java's null lists are modelled as empty sequences: every caller treats
 * null and empty alike (`isNotEmpty`, the null checks of `getTotalArea`
 * and `getOverlappingArea`).
 */
module PageLayout {
  import opened Wrappers
  import opened Numbers
  import opened Seqs
  import opened Geometry
  import opened Sides
  import opened TextZones
  import opened Words
  import opened Aggregation
  import opened GroupPredicates

  function LeftsOfZones(zones: seq<Zone>): seq<int> {
    seq(|zones|, i requires 0 <= i < |zones| => zones[i].rect.x)
  }

  /** `computeXOffSet`: the smallest left edge of the zones, 0 for none. */
  function XOffset(zones: seq<Zone>): (x: int)
    ensures zones == [] ==> x == 0
    ensures forall i :: 0 <= i < |zones| ==> x <= zones[i].rect.x
    ensures zones != [] ==> exists i :: 0 <= i < |zones| && zones[i].rect.x == x
  {
    if zones == [] then 0
    else
      var x := MinOf(LeftsOfZones(zones));
      assert forall i :: 0 <= i < |zones| ==> LeftsOfZones(zones)[i] == zones[i].rect.x;
      x
  }

  // ---------------------------------------------------------------------
  // Margins

  /** The side `getMargins` drops: RIGHT for the left half (sub-index 1) of a split page, LEFT for the right half (2). */
  function DroppedSide(idx: seq<int>): Option<Side> {
    if |idx| == 2 && idx[1] == 1 then Some(Right)
    else if |idx| == 2 && idx[1] == 2 then Some(Left)
    else None
  }

  /** The sides `getMargins` keeps: `listAllSides()` (clockwise from TOP) after `remove` of the dropped side. */
  function MarginSides(idx: seq<int>): (sides: seq<Side>)
    ensures Top in sides && Bottom in sides
    ensures Right in sides <==> DroppedSide(idx) != Some(Right)
    ensures Left in sides <==> DroppedSide(idx) != Some(Left)
    ensures |sides| == if DroppedSide(idx).Some? then 3 else 4
    ensures Distinct(sides)
  {
    if |idx| == 2 && idx[1] == 1 then [Top, Bottom, Left]
    else if |idx| == 2 && idx[1] == 2 then [Top, Right, Bottom]
    else
      assert ListAllSides(true) == [Top, Right, Bottom, Left];
      ListAllSides(true)
  }

  /** `getMargins`: the margin rectangle of each kept side, on the page rectangle. */
  function Margins(idx: seq<int>, pageWidth: int, pageHeight: int): (ms: seq<Rect>)
    ensures |ms| == |MarginSides(idx)|
    ensures forall k :: 0 <= k < |ms| ==> ms[k] == MarginRectangle(MarginSides(idx)[k], PageRect(pageWidth, pageHeight))
  {
    var sides := MarginSides(idx);
    seq(|sides|, k requires 0 <= k < |sides| => MarginRectangle(sides[k], PageRect(pageWidth, pageHeight)))
  }

  /**
   * Every margin lies inside the page, along the edge of its side, with a
   * thickness of 2% of the page (rounded toward zero); the half of a
   * split page keeps no margin on the side of the split.
   */
  lemma MarginsInsidePage(idx: seq<int>, pageWidth: nat, pageHeight: nat)
    ensures var ms := Margins(idx, pageWidth, pageHeight);
      && (forall k :: 0 <= k < |ms| ==> Contains(PageRect(pageWidth, pageHeight), ms[k]))
      && (forall k :: 0 <= k < |ms| && !IsHorizontal(MarginSides(idx)[k]) ==> ms[k].width == TruncDiv(pageWidth, 50))
      && (forall k :: 0 <= k < |ms| && IsHorizontal(MarginSides(idx)[k]) ==> ms[k].height == TruncDiv(pageHeight, 50))
      && (|idx| == 2 && idx[1] == 1 ==> Right !in MarginSides(idx))
      && (|idx| == 2 && idx[1] == 2 ==> Left !in MarginSides(idx))
  {
    var ms := Margins(idx, pageWidth, pageHeight);
    forall k | 0 <= k < |ms|
      ensures Contains(PageRect(pageWidth, pageHeight), ms[k])
    {
      assert PageRect(pageWidth, pageHeight) == Rect(0, 0, pageWidth, pageHeight);
    }
  }

  // ---------------------------------------------------------------------
  // Areas

  /** `getTotalArea`: the sum of the zones' areas. */
  function TotalArea(zones: seq<Zone>): (a: int)
    ensures (forall i :: 0 <= i < |zones| ==> Area(zones[i].rect) >= 0) ==> a >= 0
    decreases |zones|
  {
    if zones == [] then 0 else TotalArea(zones[..|zones| - 1]) + Area(zones[|zones| - 1].rect)
  }

  /** The total area of a concatenation is the sum of the totals. */
  lemma {:induction false} TotalAreaAppend(a: seq<Zone>, b: seq<Zone>)
    ensures TotalArea(a + b) == TotalArea(a) + TotalArea(b)
    decreases |b|
  {
    if b == [] {
      assert a + b == a;
    } else {
      var b' := b[..|b| - 1];
      assert (a + b)[..|a + b| - 1] == a + b';
      TotalAreaAppend(a, b');
    }
  }

  /**
   * The overlap of `r` with the rectangles of `rs` that differ from it
   * (`!Objects.equals`: the zones of one list share their class, so zone
   * equality is rectangle equality).
   */
  function RowOverlap(r: Rect, rs: seq<Rect>): (n: int)
    ensures n >= 0
    decreases |rs|
  {
    if rs == [] then 0
    else RowOverlap(r, rs[..|rs| - 1]) + (if r != rs[|rs| - 1] then OverlapArea(r, rs[|rs| - 1]) else 0)
  }

  /** The overlaps of every rectangle of `firsts` with the rectangles of `rs`. */
  function PairOverlap(firsts: seq<Rect>, rs: seq<Rect>): (n: int)
    ensures n >= 0
    decreases |firsts|
  {
    if firsts == [] then 0 else PairOverlap(firsts[..|firsts| - 1], rs) + RowOverlap(firsts[|firsts| - 1], rs)
  }

  /** `getOverlappingArea`: the two nested loops, each overlap counted with weight 0.5. */
  method OverlappingArea(rs: seq<Rect>) returns (area: real)
    ensures area == PairOverlap(rs, rs) as real / 2.0
    ensures area >= 0.0
  {
    area := 0.0;
    for i := 0 to |rs|
      invariant area == PairOverlap(rs[..i], rs) as real * 0.5
    {
      assert rs[..i + 1][..i] == rs[..i];
      for j := 0 to |rs|
        invariant area == (PairOverlap(rs[..i], rs) + RowOverlap(rs[i], rs[..j])) as real * 0.5
      {
        assert rs[..j + 1][..j] == rs[..j];
        if rs[i] != rs[j] {
          var inter := Intersection(rs[i], rs[j]);
          if inter.Some? {
            area := area + (inter.value.width * inter.value.height) as real * 0.5;
          }
        }
      }
      assert rs[..|rs|] == rs;
    }
    assert rs[..|rs|] == rs;
  }

  /** No overlap with the rectangles of `rs` exactly when none of those that differ from `r` intersects it. */
  lemma {:induction false} RowOverlapZeroIff(r: Rect, rs: seq<Rect>)
    ensures RowOverlap(r, rs) == 0 <==> forall j :: 0 <= j < |rs| && rs[j] != r ==> !Intersects(r, rs[j])
    decreases |rs|
  {
    if rs != [] {
      var rs' := rs[..|rs| - 1];
      RowOverlapZeroIff(r, rs');
      assert forall j :: 0 <= j < |rs'| ==> rs'[j] == rs[j];
    }
  }

  lemma {:induction false} PairOverlapZeroIff(firsts: seq<Rect>, rs: seq<Rect>)
    ensures PairOverlap(firsts, rs) == 0 <==>
      forall i, j :: 0 <= i < |firsts| && 0 <= j < |rs| && firsts[i] != rs[j] ==> !Intersects(firsts[i], rs[j])
    decreases |firsts|
  {
    if firsts != [] {
      var firsts' := firsts[..|firsts| - 1];
      PairOverlapZeroIff(firsts', rs);
      RowOverlapZeroIff(firsts[|firsts| - 1], rs);
      assert forall i :: 0 <= i < |firsts'| ==> firsts'[i] == firsts[i];
    }
  }

  /** The overlapping area of a list is zero exactly when no two different zones of it intersect. */
  lemma OverlapZeroIffDisjoint(rs: seq<Rect>)
    ensures PairOverlap(rs, rs) == 0 <==> forall i, j :: 0 <= i < |rs| && 0 <= j < |rs| && rs[i] != rs[j] ==> !Intersects(rs[i], rs[j])
  {
    PairOverlapZeroIff(rs, rs);
  }

  // ---------------------------------------------------------------------
  // Two-page layout

  /** `(int) (width * 0.4)`: the first probe column. */
  function ProbeFrom(pageWidth: int): int { TruncDiv(2 * pageWidth, 5) }

  /** `(int) (width * 0.6)`: the end of the probed band. */
  function ProbeTo(pageWidth: int): int { TruncDiv(3 * pageWidth, 5) }

  /** `nbrOfTestLines`. */
  const NumberOfProbes: nat := 20

  /** `stepSize`: the band width divided by the number of probes, toward zero. */
  function ProbeStep(pageWidth: int): int { TruncDiv(ProbeTo(pageWidth) - ProbeFrom(pageWidth), NumberOfProbes) }

  /** `IntStream.iterate(from, x -> x + stepSize).limit(20)`: the probe columns. */
  function Probes(pageWidth: int): (xs: seq<int>)
    ensures |xs| == NumberOfProbes && xs[0] == ProbeFrom(pageWidth)
    ensures forall k :: 0 <= k < NumberOfProbes - 1 ==> xs[k + 1] == xs[k] + ProbeStep(pageWidth)
  {
    var from, step := ProbeFrom(pageWidth), ProbeStep(pageWidth);
    var xs := seq(NumberOfProbes, k => from + k * step);
    assert forall k :: 0 <= k < NumberOfProbes - 1 ==> xs[k + 1] == xs[k] + step by {
      forall k | 0 <= k < NumberOfProbes - 1 {
        NextMultiple(k, step);
      }
    }
    xs
  }

  lemma NextMultiple(k: int, step: int)
    ensures (k + 1) * step == k * step + step
  {
  }

  /** On a page of non-negative width, every probe lies within the middle fifth of the page, from 40% to 60% of its width. */
  lemma ProbesInMiddleFifth(pageWidth: nat)
    ensures forall k :: 0 <= k < NumberOfProbes ==>
      ProbeFrom(pageWidth) <= Probes(pageWidth)[k] <= ProbeTo(pageWidth) && 5 * Probes(pageWidth)[k] <= 3 * pageWidth
  {
    var step := ProbeStep(pageWidth);
    assert 0 <= step && 20 * step <= ProbeTo(pageWidth) - ProbeFrom(pageWidth);
    forall k | 0 <= k < NumberOfProbes
      ensures ProbeFrom(pageWidth) <= Probes(pageWidth)[k] <= ProbeTo(pageWidth)
    {
      assert 0 <= k * step <= 19 * step by {
        MultiplyBelow(k, 19, step);
      }
    }
  }

  lemma MultiplyBelow(a: nat, b: nat, c: nat)
    requires a <= b
    ensures 0 <= a * c <= b * c
  {
  }

  /** `word.intersects(line)` for the vertical probe from (x, 0) to (x, height). */
  function CrossedAt(x: int, pageHeight: int): Word -> bool {
    (w: Word) => VerticalSegmentHits(x, 0, pageHeight, w.rect)
  }

  /** `countIntersectingWords`: how many words the probe at column `x` crosses. */
  function CrossedWords(words: seq<Word>, x: int, pageHeight: int): (n: nat)
    ensures n <= |words|
  {
    |Filter(words, CrossedAt(x, pageHeight))|
  }

  function ProbeCounts(words: seq<Word>, pageWidth: int, pageHeight: int): (cs: seq<nat>)
    ensures |cs| == NumberOfProbes
    ensures forall k :: 0 <= k < NumberOfProbes ==> cs[k] == CrossedWords(words, Probes(pageWidth)[k], pageHeight)
  {
    seq(NumberOfProbes, k requires 0 <= k < NumberOfProbes => CrossedWords(words, Probes(pageWidth)[k], pageHeight))
  }

  /**
   * `ratio <= 0.01f` for the ratio `count / words`: the float 0.01f is just
   * below 1/100, so a ratio of exactly 1% is rejected and the test is
   * `100 * count < words`.
   */
  predicate SparseEnough(count: int, wordCount: int) {
    100 * count < wordCount
  }

  /**
   * The dividing lines `detectTwoPagesLayout` may choose once the page holds
   * words: the ratios are kept in a hash map, so among the probes crossing
   * the fewest words any one can come out first. A line is set exactly
   * when the fewest crossings are below 1% of the words.
   */
  predicate DividingLineChoice(words: seq<Word>, pageWidth: int, pageHeight: int, d: Option<int>) {
    var counts := ProbeCounts(words, pageWidth, pageHeight);
    match d
    case None => forall k :: 0 <= k < NumberOfProbes ==> !SparseEnough(counts[k], |words|)
    case Some(x) =>
      exists k :: 0 <= k < NumberOfProbes && Probes(pageWidth)[k] == x
        && SparseEnough(counts[k], |words|)
        && forall j :: 0 <= j < NumberOfProbes ==> counts[k] <= counts[j]
  }

  /** The probe selection of `detectTwoPagesLayout`: the first probe with the fewest crossings, if sparse enough. */
  method SelectDividingLine(words: seq<Word>, pageWidth: int, pageHeight: int) returns (d: Option<int>)
    ensures DividingLineChoice(words, pageWidth, pageHeight, d)
  {
    var xs := Probes(pageWidth);
    var counts := ProbeCounts(words, pageWidth, pageHeight);
    var best := 0;
    for k := 1 to NumberOfProbes
      invariant 0 <= best < k
      invariant forall j :: 0 <= j < k ==> counts[best] <= counts[j]
    {
      var c := CrossedWords(words, xs[k], pageHeight);
      if c < counts[best] {
        best := k;
      }
    }
    if SparseEnough(counts[best], |words|) {
      d := Some(xs[best]);
    } else {
      d := None;
      forall k | 0 <= k < NumberOfProbes
        ensures !SparseEnough(counts[k], |words|)
      {
        assert counts[best] <= counts[k];
      }
    }
  }

  /** Which probe is chosen may vary, but whether a dividing line is found does not. */
  lemma ChoicesAgree(words: seq<Word>, pageWidth: int, pageHeight: int, d1: Option<int>, d2: Option<int>)
    requires DividingLineChoice(words, pageWidth, pageHeight, d1)
    requires DividingLineChoice(words, pageWidth, pageHeight, d2)
    ensures d1.Some? <==> d2.Some?
  {
  }

  /** A probe that crosses no word of a page holding words always yields a dividing line that crosses none either. */
  lemma ClearProbeSplits(words: seq<Word>, pageWidth: int, pageHeight: int, k: nat, d: Option<int>)
    requires words != [] && k < NumberOfProbes
    requires CrossedWords(words, Probes(pageWidth)[k], pageHeight) == 0
    requires DividingLineChoice(words, pageWidth, pageHeight, d)
    ensures d.Some? && CrossedWords(words, d.value, pageHeight) == 0
  {
    var counts := ProbeCounts(words, pageWidth, pageHeight);
    assert counts[k] == 0;
    var j :| 0 <= j < NumberOfProbes && Probes(pageWidth)[j] == d.value && forall i :: 0 <= i < NumberOfProbes ==> counts[j] <= counts[i];
    assert counts[j] <= counts[k];
  }

  /** On a page with fewer than 100 words, a dividing line must cross no word at all. */
  lemma FewWordsNeedAClearProbe(words: seq<Word>, pageWidth: int, pageHeight: int, d: Option<int>)
    requires |words| <= 100
    requires DividingLineChoice(words, pageWidth, pageHeight, d)
    requires d.Some?
    ensures CrossedWords(words, d.value, pageHeight) == 0
  {
  }

  // ---------------------------------------------------------------------
  // Split for layout

  /** `getLayoutRectangles`: the columns left and right of `x`, full height. */
  function LayoutRectangles(x: int, pageWidth: int, pageHeight: int): (rs: seq<Rect>)
    ensures |rs| == 2
    ensures Area(rs[0]) + Area(rs[1]) == pageWidth * pageHeight
    ensures !Intersects(rs[0], rs[1])
    ensures rs[0].x == 0 && X2(rs[0]) == x && rs[1].x == x && X2(rs[1]) == pageWidth
    ensures forall k :: 0 <= k < 2 ==> rs[k].y == 0 && rs[k].height == pageHeight
  {
    var left := Rect(0, 0, x, pageHeight);
    var right := Rect(x, 0, pageWidth - x, pageHeight);
    assert Area(left) + Area(right) == pageWidth * pageHeight by {
      assert x * pageHeight + (pageWidth - x) * pageHeight == pageWidth * pageHeight;
    }
    [left, right]
  }

  /** For a line inside the page, the two columns cover every pixel of the page, each pixel exactly once. */
  lemma LayoutRectanglesTile(x: int, pageWidth: int, pageHeight: int, px: int, py: int)
    requires 0 <= x <= pageWidth
    ensures var rs := LayoutRectangles(x, pageWidth, pageHeight);
      && (Covers(PageRect(pageWidth, pageHeight), px, py) <==> Covers(rs[0], px, py) || Covers(rs[1], px, py))
      && !(Covers(rs[0], px, py) && Covers(rs[1], px, py))
  {
  }

  /** One page `splitForLayout` hands to the OCR: the image area, the page index with its sub-index, and `splitIn`. */
  datatype SplitPage = SplitPage(area: Rect, idx: seq<int>, splitIn: int)

  /**
   * `splitForLayout`: fails with IllegalStateException without a dividing
   * line (and with IndexOutOfBoundsException for an empty index); else one
   * page per layout rectangle, sub-index 1 for the one starting at x = 0
   * and 2 otherwise.
   */
  function SplitForLayout(idx: seq<int>, dividingLine: Option<int>, pageWidth: int, pageHeight: int): (r: Result<seq<SplitPage>>)
    ensures dividingLine.None? ==> r == Failure(IllegalState)
    ensures dividingLine.Some? && idx == [] ==> r == Failure(IndexOutOfBounds)
    ensures dividingLine.Some? && idx != [] ==> r.Success?
    ensures r.Success? ==> (
      && |r.value| == 2
      && (forall k :: 0 <= k < 2 ==> r.value[k].area == LayoutRectangles(dividingLine.value, pageWidth, pageHeight)[k])
      && (forall k :: 0 <= k < 2 ==> r.value[k].splitIn == 2 && |r.value[k].idx| == 2 && r.value[k].idx[0] == idx[0])
      && r.value[0].idx[1] == 1
      && (r.value[1].idx[1] == 2 <==> dividingLine.value != 0))
  {
    if dividingLine.None? then Failure(IllegalState)
    else if idx == [] then Failure(IndexOutOfBounds)
    else
      var rs := LayoutRectangles(dividingLine.value, pageWidth, pageHeight);
      Success(seq(2, k requires 0 <= k < 2 => SplitPage(rs[k], [idx[0], if rs[k].x == 0 then 1 else 2], 2)))
  }

  /** Each half of a split page loses the margin on the side of the split: RIGHT for the left half, LEFT for the right half. */
  lemma SplitHalvesDropInnerMargins(idx: seq<int>, dividingLine: Option<int>, pageWidth: int, pageHeight: int)
    requires SplitForLayout(idx, dividingLine, pageWidth, pageHeight).Success?
    ensures var pages := SplitForLayout(idx, dividingLine, pageWidth, pageHeight).value;
      && Right !in MarginSides(pages[0].idx)
      && (dividingLine.value != 0 ==> Left !in MarginSides(pages[1].idx))
  {
  }

  // ---------------------------------------------------------------------
  // Elements for pagination

  function ZoneY1(z: Zone): int { z.rect.y }

  /** `getElementsForPagination`: the paragraphs then the white spaces, sorted by top edge with a stable sort. */
  function ElementsForPagination(paragraphs: seq<Zone>, whiteSpaces: seq<Zone>): (r: seq<Zone>)
    ensures multiset(r) == multiset(paragraphs) + multiset(whiteSpaces)
    ensures SortedBy(r, ZoneY1)
  {
    SortBy(paragraphs + whiteSpaces, ZoneY1)
  }

  /** Zones with the same top edge keep their order: the paragraphs first, then the white spaces, each in list order. */
  lemma ElementsKeepOrderOnTies(paragraphs: seq<Zone>, whiteSpaces: seq<Zone>, y: int)
    ensures Filter(ElementsForPagination(paragraphs, whiteSpaces), KeyIs(ZoneY1, y))
         == Filter(paragraphs, KeyIs(ZoneY1, y)) + Filter(whiteSpaces, KeyIs(ZoneY1, y))
  {
    SortByStable(paragraphs + whiteSpaces, ZoneY1, y);
    FilterAppend(paragraphs, whiteSpaces, KeyIs(ZoneY1, y));
  }

  // ---------------------------------------------------------------------
  // Lines and text blocks

  function RectsOfWords(ws: seq<Word>): seq<Rect> {
    seq(|ws|, i requires 0 <= i < |ws| => ws[i].rect)
  }

  /** The SameLinePredicate handed to the Aggregator. */
  function SameLineTest(): (Word, seq<Word>) -> bool {
    (w: Word, group: seq<Word>) => SameLine(w, group)
  }

  /** The SameTextBlockPredicate handed to the Aggregator. */
  function SameBlockTest(words: seq<Word>): (Zone, seq<Zone>) -> bool {
    (line: Zone, group: seq<Zone>) => SameTextBlock(words, line, group)
  }

  /** `detectLinesFromWords` on a non-empty word list: one TextLine per same-line group, with the group's merged box. */
  function LinesOf(words: seq<Word>): (lines: seq<Zone>)
    ensures |lines| <= |words|
    ensures forall l :: 0 <= l < |lines| ==> lines[l].kind == TextLine
  {
    var groups := Groups(words, SameLineTest());
    GroupsNonEmpty(words, SameLineTest());
    seq(|groups|, g requires 0 <= g < |groups| => Zone(TextLine, MergeRectangles(RectsOfWords(groups[g])).value))
  }

  /** Every word lies inside the line of its group. */
  lemma WordInItsLine(words: seq<Word>, i: nat) returns (l: nat)
    requires i < |words|
    ensures l < |LinesOf(words)| && Contains(LinesOf(words)[l].rect, words[i].rect)
  {
    var groups := Groups(words, SameLineTest());
    GroupsNonEmpty(words, SameLineTest());
    var k;
    l, k := GroupOfItem(words, SameLineTest(), i);
    assert RectsOfWords(groups[l])[k] == words[i].rect;
  }

  function ValidIn(pageWidth: int, pageHeight: int): Rect -> bool {
    (r: Rect) => IsValid(r, pageWidth, pageHeight)
  }

  /** The merged box of each same-block group of lines, in group order. */
  function GroupBoxes(words: seq<Word>, lines: seq<Zone>): (boxes: seq<Rect>)
    ensures |boxes| <= |lines|
  {
    var groups := Groups(lines, SameBlockTest(words));
    GroupsNonEmpty(lines, SameBlockTest(words));
    seq(|groups|, g requires 0 <= g < |groups| => MergeRectangles(RectsOfZones(groups[g])).value)
  }

  /** Every line lies inside the box of its group. */
  lemma LineInItsGroupBox(words: seq<Word>, lines: seq<Zone>, i: nat) returns (g: nat)
    requires i < |lines|
    ensures g < |GroupBoxes(words, lines)| && Contains(GroupBoxes(words, lines)[g], lines[i].rect)
  {
    var groups := Groups(lines, SameBlockTest(words));
    GroupsNonEmpty(lines, SameBlockTest(words));
    var k;
    g, k := GroupOfItem(lines, SameBlockTest(words), i);
    assert RectsOfZones(groups[g])[k] == lines[i].rect;
  }

  /**
   * The text blocks `detectTextBlockFromLines` builds before `cleanUp`:
   * the group boxes that are valid on the page, in group order.
   */
  function BlockCandidates(words: seq<Word>, lines: seq<Zone>, pageWidth: int, pageHeight: int): (blocks: seq<Rect>)
    ensures |blocks| <= |lines|
    ensures forall b :: 0 <= b < |blocks| ==> IsValid(blocks[b], pageWidth, pageHeight)
  {
    Filter(GroupBoxes(words, lines), ValidIn(pageWidth, pageHeight))
  }

  /** A line whose group box is valid lies inside one of the block candidates. */
  lemma LineInItsBlock(words: seq<Word>, lines: seq<Zone>, pageWidth: int, pageHeight: int, i: nat) returns (b: Option<nat>)
    requires i < |lines|
    ensures b.Some? ==> (b.value < |BlockCandidates(words, lines, pageWidth, pageHeight)|
      && Contains(BlockCandidates(words, lines, pageWidth, pageHeight)[b.value], lines[i].rect))
    ensures b.None? ==> exists r :: Contains(r, lines[i].rect) && !IsValid(r, pageWidth, pageHeight)
  {
    var g := LineInItsGroupBox(words, lines, i);
    var boxes := GroupBoxes(words, lines);
    var box := boxes[g];
    if IsValid(box, pageWidth, pageHeight) {
      var j := FilterIndex(boxes, ValidIn(pageWidth, pageHeight), box);
      b := Some(j);
    } else {
      b := None;
    }
  }

  // ---------------------------------------------------------------------
  // cleanUp

  /** No two different rectangles of the set intersect. */
  predicate Disjoint(all: set<Rect>) {
    forall a, b :: a in all && b in all && a != b ==> !Intersects(a, b)
  }

  /** `x` lies inside some rectangle of the set. */
  predicate InsideSome(x: Rect, all: set<Rect>) {
    exists c :: c in all && Contains(c, x)
  }

  /** `x` lies inside some rectangle of the list. */
  predicate CoveredBy(x: Rect, rs: seq<Rect>) {
    exists r :: r in rs && Contains(r, x)
  }

  /** No two different rectangles of the list intersect. */
  predicate PairwiseDisjoint(rs: seq<Rect>) {
    forall i, j :: 0 <= i < |rs| && 0 <= j < |rs| && rs[i] != rs[j] ==> !Intersects(rs[i], rs[j])
  }

  /** Every block lies inside some rectangle of the list. */
  predicate EachCovered(blocks: seq<Rect>, rs: seq<Rect>) {
    forall i :: 0 <= i < |blocks| ==> CoveredBy(blocks[i], rs)
  }

  /** Every rectangle of the list lies inside the box. */
  predicate AllWithin(box: Rect, rs: seq<Rect>) {
    forall j :: 0 <= j < |rs| ==> Contains(box, rs[j])
  }

  /** Every input block lies inside some rectangle of the set. */
  predicate CoversBlocks(blocks: seq<Rect>, all: set<Rect>) {
    forall i :: 0 <= i < |blocks| ==> InsideSome(blocks[i], all)
  }

  predicate AllInside(box: Rect, all: set<Rect>) {
    forall c :: c in all ==> Contains(box, c)
  }

  /** Every block of the set is the bounding box of the input blocks it contains. */
  predicate AllSpanned(all: set<Rect>, blocks: seq<Rect>) {
    forall c {:trigger SpannedBy(c, blocks)} :: c in all ==> SpannedBy(c, blocks)
  }

  /** A list without intersecting pairs gives a set without intersecting pairs. */
  lemma DisjointElements(blocks: seq<Rect>)
    ensures PairwiseDisjoint(blocks) <==> Disjoint(Elements(blocks))
  {
    if PairwiseDisjoint(blocks) {
      forall a, b | a in Elements(blocks) && b in Elements(blocks) && a != b
        ensures !Intersects(a, b)
      {
        var i :| 0 <= i < |blocks| && blocks[i] == a;
        var j :| 0 <= j < |blocks| && blocks[j] == b;
      }
    }
    if Disjoint(Elements(blocks)) {
      forall i, j | 0 <= i < |blocks| && 0 <= j < |blocks| && blocks[i] != blocks[j]
        ensures !Intersects(blocks[i], blocks[j])
      {
        assert blocks[i] in Elements(blocks) && blocks[j] in Elements(blocks);
      }
    }
  }

  /** Every block scheduled for removal lies inside one of the merged blocks. */
  predicate RemovalsCovered(toRemove: seq<Rect>, merged: seq<Rect>) {
    forall i :: 0 <= i < |toRemove| ==> CoveredBy(toRemove[i], merged)
  }

  /** A `HashSet`'s elements in some order (its iteration order is unspecified). */
  method Enumerate(s: set<Rect>) returns (xs: seq<Rect>)
    ensures Elements(xs) == s && Distinct(xs)
  {
    xs := [];
    var rest := s;
    while rest != {}
      invariant Elements(xs) + rest == s && Elements(xs) !! rest && Distinct(xs)
      decreases |rest|
    {
      var x :| x in rest;
      xs := xs + [x];
      rest := rest - {x};
    }
  }

  /** A merge of two rectangles inside a box is inside the box. */
  lemma MergeInside(box: Rect, a: Rect, b: Rect)
    requires Contains(box, a) && Contains(box, b)
    ensures Contains(box, Merge2(a, b))
  {
  }

  /** One round of `cleanUp` keeps every input covered and everything inside the first bounding box. */
  lemma RoundKeepsInvariants(blocks: seq<Rect>, box: Rect, all: set<Rect>, toRemove: seq<Rect>, merged: seq<Rect>)
    requires CoversBlocks(blocks, all) && AllInside(box, all) && AllSpanned(all, blocks)
    requires RemovalsCovered(toRemove, merged)
    requires forall m :: m in merged ==> Contains(box, m) && SpannedBy(m, blocks)
    ensures var next := (all - Elements(toRemove)) + Elements(merged);
      CoversBlocks(blocks, next) && AllInside(box, next) && AllSpanned(next, blocks)
    ensures toRemove == [] && merged == [] ==> (all - Elements(toRemove)) + Elements(merged) == all
  {
    var next := (all - Elements(toRemove)) + Elements(merged);
    forall i | 0 <= i < |blocks|
      ensures InsideSome(blocks[i], next)
    {
      var c :| c in all && Contains(c, blocks[i]);
      if c in Elements(toRemove) {
        var k :| 0 <= k < |toRemove| && toRemove[k] == c;
        var m :| m in merged && Contains(m, toRemove[k]);
        assert m in next;
      } else {
        assert c in next;
      }
    }
    RoundKeepsSpanned(blocks, all, toRemove, merged);
  }

  lemma RoundKeepsSpanned(blocks: seq<Rect>, all: set<Rect>, toRemove: seq<Rect>, merged: seq<Rect>)
    requires AllSpanned(all, blocks)
    requires forall m :: m in merged ==> SpannedBy(m, blocks)
    ensures AllSpanned((all - Elements(toRemove)) + Elements(merged), blocks)
  {
    forall c | c in (all - Elements(toRemove)) + Elements(merged)
      ensures SpannedBy(c, blocks)
    {
      if c !in all {
        var k :| 0 <= k < |merged| && merged[k] == c;
        assert merged[k] in merged;
      }
    }
  }

  function RectY1(r: Rect): int { r.y }

  /** Concatenating the removals and merges of two scans keeps every removal covered. */
  lemma RemovalsAppend(r1: seq<Rect>, m1: seq<Rect>, r2: seq<Rect>, m2: seq<Rect>)
    requires RemovalsCovered(r1, m1) && RemovalsCovered(r2, m2)
    ensures RemovalsCovered(r1 + r2, m1 + m2)
  {
    forall i | 0 <= i < |r1 + r2|
      ensures CoveredBy((r1 + r2)[i], m1 + m2)
    {
      var x := (r1 + r2)[i];
      var m :| m in (if i < |r1| then m1 else m2) && Contains(m, x);
      assert m in m1 + m2;
    }
  }

  /** The inner loop of a `cleanUp` round: `x` against every block of the set. */
  method PairsWith(x: Rect, items: seq<Rect>, ghost box: Rect, ghost blocks: seq<Rect>)
    returns (toRemove: seq<Rect>, merged: seq<Rect>, found: bool)
    requires Contains(box, x) && forall j :: 0 <= j < |items| ==> Contains(box, items[j])
    requires SpannedBy(x, blocks) && forall j :: 0 <= j < |items| ==> SpannedBy(items[j], blocks)
    ensures RemovalsCovered(toRemove, merged)
    ensures forall m :: m in merged ==> Contains(box, m) && SpannedBy(m, blocks)
    ensures !found ==> toRemove == [] && merged == []
    ensures !found <==> forall j :: 0 <= j < |items| && x != items[j] ==> !Intersects(x, items[j])
  {
    toRemove, merged, found := [], [], false;
    for j := 0 to |items|
      invariant RemovalsCovered(toRemove, merged)
      invariant forall m :: m in merged ==> Contains(box, m) && SpannedBy(m, blocks)
      invariant !found ==> toRemove == [] && merged == []
      invariant !found <==> forall b :: 0 <= b < j && x != items[b] ==> !Intersects(x, items[b])
    {
      if x != items[j] && Intersects(x, items[j]) {
        var m := Merge2(x, items[j]);
        MergeInside(box, x, items[j]);
        MergeSpanned(x, items[j], blocks);
        assert RemovalsCovered([x, items[j]], [m]) by {
          assert m in [m] && Contains(m, x) && Contains(m, items[j]);
          assert CoveredBy(x, [m]) && CoveredBy(items[j], [m]);
        }
        RemovalsAppend(toRemove, merged, [x, items[j]], [m]);
        merged := merged + [m];
        toRemove := toRemove + [x, items[j]];
        found := true;
      }
    }
  }

  /** One round of `cleanUp`: all ordered pairs of the set's blocks, in the set's iteration order. */
  method MergeRound(all: set<Rect>, ghost box: Rect, ghost blocks: seq<Rect>)
    returns (toRemove: seq<Rect>, merged: seq<Rect>, didMerge: bool)
    requires AllInside(box, all) && AllSpanned(all, blocks)
    ensures RemovalsCovered(toRemove, merged)
    ensures forall m :: m in merged ==> Contains(box, m) && SpannedBy(m, blocks)
    ensures !didMerge ==> toRemove == [] && merged == [] && Disjoint(all)
    ensures Disjoint(all) ==> !didMerge
  {
    var items := Enumerate(all);
    SetSizeIffDistinct(items);
    toRemove, merged, didMerge := [], [], false;
    for i := 0 to |items|
      invariant RemovalsCovered(toRemove, merged)
      invariant forall m :: m in merged ==> Contains(box, m) && SpannedBy(m, blocks)
      invariant !didMerge ==> toRemove == [] && merged == []
      invariant !didMerge ==> forall a, b :: 0 <= a < i && 0 <= b < |items| && items[a] != items[b] ==> !Intersects(items[a], items[b])
      invariant didMerge ==> !Disjoint(all)
    {
      var r, m, found := PairsWith(items[i], items, box, blocks);
      if found {
        var j :| 0 <= j < |items| && items[i] != items[j] && Intersects(items[i], items[j]);
        assert items[i] in Elements(items) && items[j] in Elements(items);
      }
      RemovalsAppend(toRemove, merged, r, m);
      toRemove, merged := toRemove + r, merged + m;
      didMerge := didMerge || found;
    }
    if !didMerge {
      forall a, b | a in all && b in all && a != b
        ensures !Intersects(a, b)
      {
        var ia :| 0 <= ia < |items| && items[ia] == a;
        var ib :| 0 <= ib < |items| && items[ib] == b;
      }
    }
  }

  /**
   * `cleanUp`: rounds over all ordered pairs of different blocks of the
   * set; every intersecting pair is replaced by its bounding box, until a
   * round merges nothing. The result is the set sorted by top edge.
   * Termination is not proved: `fuel` bounds the rounds, and `converged`
   * says that the last round merged nothing.
   */
  method CleanUp(blocks: seq<Rect>, fuel: nat) returns (result: seq<Rect>, converged: bool)
    ensures converged ==> PairwiseDisjoint(result)
    ensures EachCovered(blocks, result)
    ensures blocks != [] ==> AllWithin(BoundingBox(blocks), result)
    ensures blocks == [] ==> result == []
    ensures SortedBy(result, RectY1) && Distinct(result)
    ensures forall j :: 0 <= j < |result| ==> SpannedBy(result[j], blocks)
    ensures PairwiseDisjoint(blocks) && fuel > 0 ==> converged && Elements(result) == Elements(blocks)
  {
    if blocks == [] {
      // the set is empty, so the first round merges nothing
      return [], true;
    }
    ghost var box := BoundingBox(blocks);
    var all := InitialSet(blocks, box);
    DisjointElements(blocks);
    all, converged := MergeUntilStable(all, blocks, box, fuel);
    result := SortedBlocks(all, blocks, box, converged);
  }

  /** `new HashSet<>(blocks)`, which covers the blocks and lies inside their bounding box. */
  method InitialSet(blocks: seq<Rect>, ghost box: Rect) returns (all: set<Rect>)
    requires blocks != [] && box == BoundingBox(blocks)
    ensures all == Elements(blocks)
    ensures CoversBlocks(blocks, all) && AllInside(box, all) && AllSpanned(all, blocks)
  {
    all := Elements(blocks);
    forall i | 0 <= i < |blocks| ensures InsideSome(blocks[i], all) {
      assert blocks[i] in all && Contains(blocks[i], blocks[i]);
    }
    ElementsSpanned(blocks);
  }

  /** Each input block is the bounding box of the input blocks it contains. */
  lemma ElementsSpanned(blocks: seq<Rect>)
    ensures AllSpanned(Elements(blocks), blocks)
  {
    forall c | c in Elements(blocks) ensures SpannedBy(c, blocks) {
      var i :| 0 <= i < |blocks| && blocks[i] == c;
      MemberSpanned(blocks, i);
    }
  }

  /** The rounds of `cleanUp`, until one merges nothing or the fuel runs out. */
  method MergeUntilStable(all0: set<Rect>, ghost blocks: seq<Rect>, ghost box: Rect, fuel: nat)
    returns (all: set<Rect>, converged: bool)
    requires CoversBlocks(blocks, all0) && AllInside(box, all0) && AllSpanned(all0, blocks)
    ensures CoversBlocks(blocks, all) && AllInside(box, all) && AllSpanned(all, blocks)
    ensures converged ==> Disjoint(all)
    ensures Disjoint(all0) && fuel > 0 ==> converged && all == all0
  {
    all := all0;
    var didMerge := true;
    var rounds := 0;
    while didMerge && rounds < fuel
      invariant CoversBlocks(blocks, all)
      invariant AllInside(box, all) && AllSpanned(all, blocks)
      invariant !didMerge ==> Disjoint(all)
      invariant rounds == 0 ==> didMerge
      invariant Disjoint(all0) ==> all == all0 && (rounds > 0 ==> !didMerge)
      decreases fuel - rounds
    {
      rounds := rounds + 1;
      var toRemove, merged;
      toRemove, merged, didMerge := MergeRound(all, box, blocks);
      RoundKeepsInvariants(blocks, box, all, toRemove, merged);
      all := (all - Elements(toRemove)) + Elements(merged);
    }
    converged := !didMerge;
  }

  /** The end of `cleanUp`: the set's blocks, sorted by top edge. */
  method SortedBlocks(all: set<Rect>, ghost blocks: seq<Rect>, ghost box: Rect, ghost converged: bool) returns (result: seq<Rect>)
    requires CoversBlocks(blocks, all)
    requires AllInside(box, all)
    requires converged ==> Disjoint(all)
    requires AllSpanned(all, blocks)
    ensures Elements(result) == all && (all == {} ==> result == [])
    ensures converged ==> PairwiseDisjoint(result)
    ensures EachCovered(blocks, result)
    ensures AllWithin(box, result)
    ensures forall j :: 0 <= j < |result| ==> SpannedBy(result[j], blocks)
    ensures SortedBy(result, RectY1) && Distinct(result)
  {
    var items := Enumerate(all);
    result := SortBy(items, RectY1);
    SortKeepsDistinct(items, result);
    if result != [] {
      assert result[0] in Elements(result);
    }
    FinalFacts(blocks, box, all, result, converged);
    assert forall j :: 0 <= j < |result| ==> result[j] in Elements(result);
  }

  lemma FinalFacts(blocks: seq<Rect>, box: Rect, all: set<Rect>, result: seq<Rect>, converged: bool)
    requires Elements(result) == all
    requires CoversBlocks(blocks, all)
    requires AllInside(box, all)
    requires converged ==> Disjoint(all)
    ensures converged ==> PairwiseDisjoint(result)
    ensures EachCovered(blocks, result)
    ensures AllWithin(box, result)
  {
    forall i | 0 <= i < |blocks|
      ensures CoveredBy(blocks[i], result)
    {
      assert InsideSome(blocks[i], all);
      var c :| c in all && Contains(c, blocks[i]);
      assert c in result;
    }
  }

  /** A reordering of a list without duplicates has no duplicates and the same elements. */
  lemma SortKeepsDistinct(items: seq<Rect>, sorted: seq<Rect>)
    requires Distinct(items) && multiset(items) == multiset(sorted)
    ensures Distinct(sorted) && Elements(sorted) == Elements(items)
  {
    assert |items| == |multiset(items)| == |multiset(sorted)| == |sorted|;
    forall x ensures x in sorted <==> x in items {
      assert x in sorted <==> x in multiset(sorted);
      assert x in items <==> x in multiset(items);
    }
    assert Elements(sorted) == Elements(items);
    SetSizeIffDistinct(items);
    SetSizeIffDistinct(sorted);
  }
}

=== FILE: paginator.dfy ===
/**
 * The Paginator: it orders the pages, collects their paragraphs and white
 * spaces, breaks the tallest paragraphs into pieces, chooses one scale
 * ratio for every paragraph and packs the paragraphs, top to bottom, onto
 * output images of a fixed render size.
 */
module Pagination {
  import opened Wrappers
  import opened Numbers
  import opened Seqs
  import opened Geometry
  import opened TextZones
  import opened WordsContainers
  import opened Paragraphs
  import opened PageLayout
  import opened OcrModel

  // ---------------------------------------------------------------------
  // PAGE_COMPARATOR

  /** `Integer.compare`. */
  function IntCompare(a: int, b: int): (c: int)
    ensures -1 <= c <= 1
    ensures c < 0 <==> a < b
    ensures c == 0 <==> a == b
  {
    if a < b then -1 else if a == b then 0 else 1
  }

  /** The comparator's loop from position `i` on, for idx lists of the same size. */
  function CompareFrom(a: seq<int>, b: seq<int>, i: nat): (c: int)
    requires |a| == |b| && i <= |a|
    ensures -1 <= c <= 1
    ensures c == 0 <==> a[i..] == b[i..]
    decreases |a| - i
  {
    if i == |a| then 0
    else if a[i] != b[i] then
      assert a[i..][0] != b[i..][0];
      IntCompare(a[i], b[i])
    else
      assert a[i..] == [a[i]] + a[i + 1..] && b[i..] == [b[i]] + b[i + 1..];
      CompareFrom(a, b, i + 1)
  }

  /**
   * `PAGE_COMPARATOR`: a page with a shorter idx list comes first; idx
   * lists of the same size are compared entry by entry. The result is 0
   * exactly when the idx lists are equal, that is when `Page.equals` holds.
   */
  function ComparePages(a: seq<int>, b: seq<int>): (c: int)
    ensures -1 <= c <= 1
    ensures c == 0 <==> a == b
    ensures |a| != |b| ==> (c < 0 <==> |a| < |b|)
  {
    if |a| != |b| then IntCompare(|a|, |b|)
    else
      assert a[0..] == a && b[0..] == b;
      CompareFrom(a, b, 0)
  }

  lemma {:induction false} CompareFromFirstDifference(a: seq<int>, b: seq<int>, i: nat) returns (k: nat)
    requires |a| == |b| && i <= |a| && a[i..] != b[i..]
    ensures i <= k < |a| && a[i..k] == b[i..k] && a[k] != b[k]
    ensures CompareFrom(a, b, i) < 0 <==> a[k] < b[k]
    decreases |a| - i
  {
    if a[i] != b[i] {
      k := i;
    } else {
      assert a[i..] == [a[i]] + a[i + 1..] && b[i..] == [b[i]] + b[i + 1..];
      k := CompareFromFirstDifference(a, b, i + 1);
      assert a[i..k] == [a[i]] + a[i + 1..k];
      assert b[i..k] == [b[i]] + b[i + 1..k];
    }
  }

  /**
   * Idx lists of the same size are ordered lexicographically: the first
   * position where they differ decides.
   */
  lemma ComparePagesLexicographic(a: seq<int>, b: seq<int>) returns (k: nat)
    requires |a| == |b| && a != b
    ensures k < |a| && a[..k] == b[..k] && a[k] != b[k]
    ensures ComparePages(a, b) < 0 <==> a[k] < b[k]
  {
    assert a[0..] == a && b[0..] == b;
    k := CompareFromFirstDifference(a, b, 0);
    assert a[..k] == a[0..k] && b[..k] == b[0..k];
  }

  lemma {:induction false} CompareFromAntisymmetric(a: seq<int>, b: seq<int>, i: nat)
    requires |a| == |b| && i <= |a|
    ensures CompareFrom(a, b, i) == -CompareFrom(b, a, i)
    decreases |a| - i
  {
    if i < |a| && a[i] == b[i] {
      CompareFromAntisymmetric(a, b, i + 1);
    }
  }

  /** The comparator is antisymmetric, as the `Comparator` contract asks. */
  lemma ComparePagesAntisymmetric(a: seq<int>, b: seq<int>)
    ensures ComparePages(a, b) == -ComparePages(b, a)
  {
    if |a| == |b| {
      CompareFromAntisymmetric(a, b, 0);
    }
  }

  lemma {:induction false} CompareFromTransitive(a: seq<int>, b: seq<int>, c: seq<int>, i: nat)
    requires |a| == |b| == |c| && i <= |a|
    requires CompareFrom(a, b, i) <= 0 && CompareFrom(b, c, i) <= 0
    ensures CompareFrom(a, c, i) <= 0
    decreases |a| - i
  {
    if i < |a| && a[i] == b[i] && b[i] == c[i] {
      CompareFromTransitive(a, b, c, i + 1);
    }
  }

  /** The comparator is transitive, as the `Comparator` contract asks. */
  lemma ComparePagesTransitive(a: seq<int>, b: seq<int>, c: seq<int>)
    requires ComparePages(a, b) <= 0 && ComparePages(b, c) <= 0
    ensures ComparePages(a, c) <= 0
  {
    if |a| == |b| == |c| {
      CompareFromTransitive(a, b, c, 0);
    }
  }

  // ---------------------------------------------------------------------
  // pages.sort(PAGE_COMPARATOR)

  predicate PagesSorted(ps: seq<Page>) {
    forall i, j :: 0 <= i < j < |ps| ==> ComparePages(ps[i].idx, ps[j].idx) <= 0
  }

  /** One step of a stable insertion sort: `p` goes after every page that does not compare above it. */
  function InsertPage(t: seq<Page>, p: Page): (r: seq<Page>)
    ensures multiset(r) == multiset(t) + multiset{p}
    decreases |t|
  {
    if t == [] || ComparePages(t[|t| - 1].idx, p.idx) <= 0 then t + [p]
    else
      assert t == t[..|t| - 1] + [t[|t| - 1]];
      InsertPage(t[..|t| - 1], p) + [t[|t| - 1]]
  }

  lemma {:induction false} InsertPageSorted(t: seq<Page>, p: Page)
    requires PagesSorted(t)
    ensures PagesSorted(InsertPage(t, p))
    decreases |t|
  {
    if t == [] {
    } else if ComparePages(t[|t| - 1].idx, p.idx) <= 0 {
      var last := t[|t| - 1];
      forall i | 0 <= i < |t|
        ensures ComparePages(t[i].idx, p.idx) <= 0
      {
        if i < |t| - 1 {
          ComparePagesTransitive(t[i].idx, last.idx, p.idx);
        }
      }
      PagesSortedAppend(t, p);
    } else {
      var t', last := t[..|t| - 1], t[|t| - 1];
      InsertPageSorted(t', p);
      ComparePagesAntisymmetric(last.idx, p.idx);
      var r' := InsertPage(t', p);
      forall i | 0 <= i < |r'|
        ensures ComparePages(r'[i].idx, last.idx) <= 0
      {
        InsertPageElement(t', p, i);
        if r'[i] != p {
          var k :| 0 <= k < |t'| && t'[k] == r'[i];
          assert t[k] == t'[k];
        }
      }
      PagesSortedAppend(r', last);
      assert InsertPage(t, p) == r' + [last];
    }
  }

  /** A page of `InsertPage(t, p)` is `p` or a page of `t`. */
  lemma InsertPageElement(t: seq<Page>, p: Page, i: int)
    requires 0 <= i < |InsertPage(t, p)|
    ensures InsertPage(t, p)[i] == p || exists k :: 0 <= k < |t| && t[k] == InsertPage(t, p)[i]
  {
    var r := InsertPage(t, p);
    assert r[i] in multiset(r);
    assert r[i] in multiset(t) + multiset{p};
    if r[i] != p {
      assert r[i] in t;
    }
  }

  lemma PagesSortedAppend(s: seq<Page>, p: Page)
    requires PagesSorted(s)
    requires forall i :: 0 <= i < |s| ==> ComparePages(s[i].idx, p.idx) <= 0
    ensures PagesSorted(s + [p])
  {
  }

  /**
   * `pages.sort(PAGE_COMPARATOR)`: `List.sort` is a stable merge sort, and a
   * stable insertion sort computes the same list.
   */
  function SortPages(ps: seq<Page>): (r: seq<Page>)
    ensures PagesSorted(r)
    ensures multiset(r) == multiset(ps)
    decreases |ps|
  {
    if ps == [] then []
    else
      assert ps == ps[..|ps| - 1] + [ps[|ps| - 1]];
      InsertPageSorted(SortPages(ps[..|ps| - 1]), ps[|ps| - 1]);
      InsertPage(SortPages(ps[..|ps| - 1]), ps[|ps| - 1])
  }

  function IdxIs(v: seq<int>): Page -> bool {
    (p: Page) => p.idx == v
  }

  /** `p` goes before a last page the comparator puts after it. */
  lemma InsertPagePassesLast(t: seq<Page>, p: Page)
    requires t != [] && ComparePages(t[|t| - 1].idx, p.idx) > 0
    ensures InsertPage(t, p) == InsertPage(t[..|t| - 1], p) + [t[|t| - 1]]
  {
  }

  /** Inserting a page keeps the order of the pages with any one idx, and puts it after them. */
  lemma {:induction false} InsertPageStable(t: seq<Page>, p: Page, v: seq<int>)
    ensures Filter(InsertPage(t, p), IdxIs(v)) == Filter(t, IdxIs(v)) + Filter([p], IdxIs(v))
    decreases |t|
  {
    var f := IdxIs(v);
    if t == [] || ComparePages(t[|t| - 1].idx, p.idx) <= 0 {
      FilterAppend(t, [p], f);
    } else {
      var t', last := t[..|t| - 1], t[|t| - 1];
      assert last.idx != p.idx;
      assert Filter([p], f) == [] || Filter([last], f) == [];
      calc {
        Filter(InsertPage(t, p), f);
        { InsertPagePassesLast(t, p); }
        Filter(InsertPage(t', p) + [last], f);
        { FilterAppend(InsertPage(t', p), [last], f); }
        Filter(InsertPage(t', p), f) + Filter([last], f);
        { InsertPageStable(t', p, v); }
        Filter(t', f) + Filter([p], f) + Filter([last], f);
        Filter(t', f) + Filter([last], f) + Filter([p], f);
        { FilterAppend(t', [last], f); assert t == t' + [last]; }
        Filter(t, f) + Filter([p], f);
      }
    }
  }

  /** Stability of `List.sort`: the pages with any one idx keep their relative order. */
  lemma {:induction false} SortPagesStable(ps: seq<Page>, v: seq<int>)
    ensures Filter(SortPages(ps), IdxIs(v)) == Filter(ps, IdxIs(v))
    decreases |ps|
  {
    if ps != [] {
      var ps', p, f := ps[..|ps| - 1], ps[|ps| - 1], IdxIs(v);
      calc {
        Filter(SortPages(ps), f);
        { SortPagesStep(ps); }
        Filter(InsertPage(SortPages(ps'), p), f);
        { InsertPageStable(SortPages(ps'), p, v); }
        Filter(SortPages(ps'), f) + Filter([p], f);
        { SortPagesStable(ps', v); }
        Filter(ps', f) + Filter([p], f);
        { FilterAppend(ps', [p], f); assert ps == ps' + [p]; }
        Filter(ps, f);
      }
    }
  }

  lemma SortPagesStep(ps: seq<Page>)
    requires ps != []
    ensures SortPages(ps) == InsertPage(SortPages(ps[..|ps| - 1]), ps[|ps| - 1])
  {
  }

  // ---------------------------------------------------------------------
  // The elements to render

  /** A paragraph or white space to render, with the page it belongs to. */
  datatype Element = Element(zone: Zone, page: Page)

  function Attach(zs: seq<Zone>, p: Page): (r: seq<Element>)
    ensures |r| == |zs| && forall i :: 0 <= i < |r| ==> r[i] == Element(zs[i], p)
  {
    seq(|zs|, i requires 0 <= i < |zs| => Element(zs[i], p))
  }

  /** `page.getElementsForPagination()`, each zone with its page. */
  function PageElements(p: Page): (r: seq<Element>)
    reads p
    ensures forall e :: e in r ==> e.page == p && (e.zone in p.paragraphs || e.zone in p.whiteSpaces)
  {
    var zs := ElementsForPagination(p.paragraphs, p.whiteSpaces);
    var r := Attach(zs, p);
    assert forall e :: e in r ==> e.page == p && (e.zone in p.paragraphs || e.zone in p.whiteSpaces) by {
      forall e | e in r
        ensures e.page == p && (e.zone in p.paragraphs || e.zone in p.whiteSpaces)
      {
        var i :| 0 <= i < |r| && r[i] == e;
        assert zs[i] in multiset(zs);
      }
    }
    r
  }

  /** `extractElementsToRender`: the elements of the pages, page after page. */
  function ExtractElements(pages: seq<Page>): (r: seq<Element>)
    reads set p | p in pages
    ensures forall e :: e in r ==> e.page in pages && (e.zone in e.page.paragraphs || e.zone in e.page.whiteSpaces)
    decreases |pages|
  {
    if pages == [] then []
    else ExtractElements(pages[..|pages| - 1]) + PageElements(pages[|pages| - 1])
  }

  /** Every paragraph and white space of every page is extracted. */
  lemma {:induction false} ExtractElementsComplete(pages: seq<Page>, p: Page, z: Zone)
    requires p in pages && (z in p.paragraphs || z in p.whiteSpaces)
    ensures Element(z, p) in ExtractElements(pages)
    decreases |pages|
  {
    var n := |pages| - 1;
    if p == pages[n] {
      var zs := ElementsForPagination(p.paragraphs, p.whiteSpaces);
      assert z in multiset(zs);
      var k :| 0 <= k < |zs| && zs[k] == z;
      assert PageElements(p)[k] == Element(z, p);
    } else {
      ExtractElementsComplete(pages[..n], p, z);
    }
  }

  // ---------------------------------------------------------------------
  // breakDownElementsToRender

  const NbrPiecesBreakDown := 6
  const MinLinesBreakDown := NbrPiecesBreakDown

  /**
   * The test of `breakDownElementsToRender`: a paragraph at least a quarter
   * of the render height tall (`renderHeight * 0.25f`), with at least six lines.
   */
  predicate BreakDownTriggered(e: Element, renderHeight: int) {
    && e.zone.kind == Paragraph
    && 4 * e.zone.rect.height >= renderHeight
    && WordsContainers.CountLines(e.zone.rect, e.page.words, e.page.width, e.page.height) >= MinLinesBreakDown
  }

  /** The target rows `height * (1 / pieces) * i` of one paragraph's break-down. */
  function CutTargets(cutTarget: (Rect, int) -> real, r: Rect): int -> real {
    i => cutTarget(r, i)
  }

  predicate IsWhiteSpace(e: Element) { e.zone.kind == WhiteSpace }

  /** The element `e` lies inside one of `es`, on that element's page. */
  predicate InsideSomeElement(x: Element, es: seq<Element>) {
    exists e :: e in es && e.page == x.page && Contains(e.zone.rect, x.zone.rect)
  }

  /** What the flatMap turns one element into: its pieces, on the same page, or the element itself. */
  function PiecesOf(e: Element, renderHeight: int, cutTarget: (Rect, int) -> real): (r: Result<seq<Element>>)
    ensures r.Success? && !BreakDownTriggered(e, renderHeight) ==> r.value == [e]
    ensures r.Success? ==> 1 <= |r.value| <= NbrPiecesBreakDown
    ensures r.Success? ==> forall x :: x in r.value ==> x.page == e.page && Contains(e.zone.rect, x.zone.rect)
    ensures r.Success? && BreakDownTriggered(e, renderHeight) ==> forall x :: x in r.value ==> x.zone.kind == Paragraph
  {
    if BreakDownTriggered(e, renderHeight) then
      var b := BreakDownOf(e.zone, IncludedWords(e.zone.rect, e.page.words), NbrPiecesBreakDown, CutTargets(cutTarget, e.zone.rect));
      if b.Failure? then Failure(b.error) else Success(PlacePieces(e, b.value))
    else Success([e])
  }

  /** The pieces of a paragraph's break-down, each on the paragraph's page. */
  function PlacePieces(e: Element, zs: seq<Zone>): (r: seq<Element>)
    requires 1 <= |zs| <= NbrPiecesBreakDown
    requires forall i :: 0 <= i < |zs| ==> zs[i].kind == Paragraph
    requires |zs| > 1 ==> Tiles(e.zone.rect, zs)
    requires |zs| == 1 ==> zs[0].rect == e.zone.rect
    ensures 1 <= |r| <= NbrPiecesBreakDown
    ensures forall x :: x in r ==> x.page == e.page && Contains(e.zone.rect, x.zone.rect) && x.zone.kind == Paragraph
  {
    if |zs| > 1 then TilesInside(e.zone.rect, zs); Attach(zs, e.page) else Attach(zs, e.page)
  }

  /** `PiecesOf` as one function of the element. */
  function Breaker(renderHeight: int, cutTarget: (Rect, int) -> real): Element -> Result<seq<Element>> {
    e => PiecesOf(e, renderHeight, cutTarget)
  }

  /** A flatMap whose step may fail: the first failing element ends it. */
  function FlatMapPieces(es: seq<Element>, pieces: Element -> Result<seq<Element>>): Result<seq<Element>>
    decreases |es|
  {
    if es == [] then Success([])
    else
      var front := FlatMapPieces(es[..|es| - 1], pieces);
      if front.Failure? then Failure(front.error)
      else
        var back := pieces(es[|es| - 1]);
        if back.Failure? then Failure(back.error)
        else Success(front.value + back.value)
  }

  /** `breakDownElementsToRender`'s flatMap; the first failing break-down ends it. */
  function BrokenDown(es: seq<Element>, renderHeight: int, cutTarget: (Rect, int) -> real): (r: Result<seq<Element>>)
    ensures r.Success? ==> |es| <= |r.value| <= NbrPiecesBreakDown * |es|
  {
    FlatMapSizes(es, Breaker(renderHeight, cutTarget));
    FlatMapPieces(es, Breaker(renderHeight, cutTarget))
  }

  /** A successful flatMap is the flatMap of all but the last element, then the last element's pieces. */
  lemma FlatMapStep(es: seq<Element>, pieces: Element -> Result<seq<Element>>)
    requires es != [] && FlatMapPieces(es, pieces).Success?
    ensures FlatMapPieces(es[..|es| - 1], pieces).Success? && pieces(es[|es| - 1]).Success?
    ensures FlatMapPieces(es, pieces).value == FlatMapPieces(es[..|es| - 1], pieces).value + pieces(es[|es| - 1]).value
  {
  }

  lemma {:induction false} FlatMapSizes(es: seq<Element>, pieces: Element -> Result<seq<Element>>)
    requires forall e :: pieces(e).Success? ==> 1 <= |pieces(e).value| <= NbrPiecesBreakDown
    ensures FlatMapPieces(es, pieces).Success? ==>
      |es| <= |FlatMapPieces(es, pieces).value| <= NbrPiecesBreakDown * |es|
    decreases |es|
  {
    if es != [] && FlatMapPieces(es, pieces).Success? {
      FlatMapStep(es, pieces);
      FlatMapSizes(es[..|es| - 1], pieces);
    }
  }

  lemma {:induction false} FlatMapInside(es: seq<Element>, pieces: Element -> Result<seq<Element>>)
    requires forall e :: pieces(e).Success? ==>
      forall x :: x in pieces(e).value ==> x.page == e.page && Contains(e.zone.rect, x.zone.rect)
    requires FlatMapPieces(es, pieces).Success?
    ensures forall x :: x in FlatMapPieces(es, pieces).value ==> InsideSomeElement(x, es)
    decreases |es|
  {
    if es != [] {
      var es', last := es[..|es| - 1], es[|es| - 1];
      FlatMapStep(es, pieces);
      FlatMapInside(es', pieces);
      var front, back := FlatMapPieces(es', pieces).value, pieces(last).value;
      forall x | x in FlatMapPieces(es, pieces).value
        ensures InsideSomeElement(x, es)
      {
        if x in back {
          assert last in es;
        } else {
          assert x in front;
          var e :| e in es' && e.page == x.page && Contains(e.zone.rect, x.zone.rect);
          assert e in es;
        }
      }
    }
  }

  lemma {:induction false} FlatMapUnchanged(es: seq<Element>, pieces: Element -> Result<seq<Element>>)
    requires forall e :: e in es ==> pieces(e) == Success([e])
    ensures FlatMapPieces(es, pieces) == Success(es)
    decreases |es|
  {
    if es != [] {
      FlatMapUnchanged(es[..|es| - 1], pieces);
      assert es == es[..|es| - 1] + [es[|es| - 1]];
    }
  }

  lemma {:induction false} FlatMapKeepsWhiteSpaces(es: seq<Element>, pieces: Element -> Result<seq<Element>>)
    requires forall e :: pieces(e).Success? ==> Filter(pieces(e).value, IsWhiteSpace) == Filter([e], IsWhiteSpace)
    requires FlatMapPieces(es, pieces).Success?
    ensures Filter(FlatMapPieces(es, pieces).value, IsWhiteSpace) == Filter(es, IsWhiteSpace)
    decreases |es|
  {
    if es != [] {
      var es', last := es[..|es| - 1], es[|es| - 1];
      FlatMapStep(es, pieces);
      var front, back := FlatMapPieces(es', pieces).value, pieces(last).value;
      calc {
        Filter(FlatMapPieces(es, pieces).value, IsWhiteSpace);
        Filter(front + back, IsWhiteSpace);
        { FilterAppend(front, back, IsWhiteSpace); }
        Filter(front, IsWhiteSpace) + Filter(back, IsWhiteSpace);
        { FlatMapKeepsWhiteSpaces(es', pieces); }
        Filter(es', IsWhiteSpace) + Filter([last], IsWhiteSpace);
        { FilterAppend(es', [last], IsWhiteSpace); assert es == es' + [last]; }
        Filter(es, IsWhiteSpace);
      }
    }
  }

  /** Every piece lies inside the element it comes from, on the same page. */
  lemma BrokenDownInside(es: seq<Element>, renderHeight: int, cutTarget: (Rect, int) -> real)
    requires BrokenDown(es, renderHeight, cutTarget).Success?
    ensures forall x :: x in BrokenDown(es, renderHeight, cutTarget).value ==> InsideSomeElement(x, es)
  {
    FlatMapInside(es, Breaker(renderHeight, cutTarget));
  }

  /** Without a paragraph to break down, the elements stay as they are. */
  lemma BrokenDownUntriggered(es: seq<Element>, renderHeight: int, cutTarget: (Rect, int) -> real)
    requires forall e :: e in es ==> !BreakDownTriggered(e, renderHeight)
    ensures BrokenDown(es, renderHeight, cutTarget) == Success(es)
  {
    FlatMapUnchanged(es, Breaker(renderHeight, cutTarget));
  }

  /** The white spaces come through the break-down unchanged and in order. */
  lemma BrokenDownKeepsWhiteSpaces(es: seq<Element>, renderHeight: int, cutTarget: (Rect, int) -> real)
    requires BrokenDown(es, renderHeight, cutTarget).Success?
    ensures Filter(BrokenDown(es, renderHeight, cutTarget).value, IsWhiteSpace) == Filter(es, IsWhiteSpace)
  {
    var pieces := Breaker(renderHeight, cutTarget);
    forall e | pieces(e).Success?
      ensures Filter(pieces(e).value, IsWhiteSpace) == Filter([e], IsWhiteSpace)
    {
      PiecesKeepWhiteSpace(e, renderHeight, cutTarget);
    }
    FlatMapKeepsWhiteSpaces(es, pieces);
  }

  /** The pieces of an element hold a white space exactly when the element is one. */
  lemma PiecesKeepWhiteSpace(e: Element, renderHeight: int, cutTarget: (Rect, int) -> real)
    requires PiecesOf(e, renderHeight, cutTarget).Success?
    ensures Filter(PiecesOf(e, renderHeight, cutTarget).value, IsWhiteSpace) == Filter([e], IsWhiteSpace)
  {
    var v := PiecesOf(e, renderHeight, cutTarget).value;
    if BreakDownTriggered(e, renderHeight) {
      assert forall x :: x in v ==> x.zone.kind == Paragraph;
      FilterNone(v, IsWhiteSpace);
      assert [e][..0] == [];
      assert !IsWhiteSpace(e);
    } else {
      assert v == [e];
    }
  }

  /** The paragraphs among the elements, in order. */
  function ParagraphZones(es: seq<Element>): (r: seq<Zone>)
    ensures |r| <= |es|
    decreases |es|
  {
    if es == [] then []
    else ParagraphZones(es[..|es| - 1]) + (if es[|es| - 1].zone.kind == Paragraph then [es[|es| - 1].zone] else [])
  }

  /**
   * The elements `run` paginates: the extracted elements after the
   * break-down, which fails with `NoSuchElementException` when no paragraph
   * is left (`max(...).get()`).
   */
  function ElementsToRender(pages: seq<Page>, renderHeight: int, cutTarget: (Rect, int) -> real): (r: Result<seq<Element>>)
    reads set p | p in pages
    ensures r.Success? ==> ParagraphZones(r.value) != [] && r.value != []
  {
    var broken := BrokenDown(ExtractElements(pages), renderHeight, cutTarget);
    if broken.Failure? then Failure(broken.error)
    else if ParagraphZones(broken.value) == [] then Failure(NoSuchElement)
    else Success(broken.value)
  }

  // ---------------------------------------------------------------------
  // computeRatio

  /** `Integer.MAX_VALUE` converted to a float: 2^31. */
  const IntMaxAsFloat: real := 2147483648.0

  /** `fit / size` for a positive `fit`; `None` stands for the +Infinity of a float division by zero. */
  function Quotient(fit: real, size: int): Option<real> {
    if size == 0 then None else Some(fit / size as real)
  }

  /** `Math.min` on floats where `None` is +Infinity. */
  function MinExt(a: Option<real>, b: Option<real>): (m: Option<real>)
    ensures m.None? <==> a.None? && b.None?
    ensures m.Some? ==> (m == a || m == b)
    ensures m.Some? && a.Some? ==> m.value <= a.value
    ensures m.Some? && b.Some? ==> m.value <= b.value
  {
    if a.None? then b
    else if b.None? then a
    else if a.value <= b.value then a else b
  }

  /** `min(widthToFitIn / width, heightToFitIn / height)` for one paragraph. */
  function ZoneRatio(z: Zone, widthToFitIn: real, heightToFitIn: real): Option<real> {
    MinExt(Quotient(widthToFitIn, z.rect.width), Quotient(heightToFitIn, z.rect.height))
  }

  /** `x` is at most the finite ratio of every paragraph of `zs`. */
  predicate AtMostEachRatio(x: real, zs: seq<Zone>, widthToFitIn: real, heightToFitIn: real) {
    forall z :: z in zs && z.kind == Paragraph && ZoneRatio(z, widthToFitIn, heightToFitIn).Some? ==>
      x <= ZoneRatio(z, widthToFitIn, heightToFitIn).value
  }

  /** `x` is the ratio of some paragraph of `zs`. */
  predicate RatioOfSome(x: real, zs: seq<Zone>, widthToFitIn: real, heightToFitIn: real) {
    exists z :: z in zs && z.kind == Paragraph && ZoneRatio(z, widthToFitIn, heightToFitIn) == Some(x)
  }

  /** The smallest finite ratio among the paragraphs of `zs`, None when there is none. */
  function MinRatio(zs: seq<Zone>, widthToFitIn: real, heightToFitIn: real): (m: Option<real>)
    decreases |zs|
  {
    if zs == [] then None
    else
      var m' := MinRatio(zs[..|zs| - 1], widthToFitIn, heightToFitIn);
      var z := zs[|zs| - 1];
      if z.kind == Paragraph then MinExt(m', ZoneRatio(z, widthToFitIn, heightToFitIn)) else m'
  }

  /** MinRatio is the minimum: a lower bound of every finite ratio, and one of them. */
  lemma {:induction false} MinRatioIsMinimum(zs: seq<Zone>, widthToFitIn: real, heightToFitIn: real)
    ensures var m := MinRatio(zs, widthToFitIn, heightToFitIn);
      && (m.Some? ==> AtMostEachRatio(m.value, zs, widthToFitIn, heightToFitIn) && RatioOfSome(m.value, zs, widthToFitIn, heightToFitIn))
      && (m.None? ==> forall z :: z in zs && z.kind == Paragraph ==> ZoneRatio(z, widthToFitIn, heightToFitIn).None?)
    decreases |zs|
  {
    if zs != [] {
      var zs' := zs[..|zs| - 1];
      var z := zs[|zs| - 1];
      MinRatioIsMinimum(zs', widthToFitIn, heightToFitIn);
      assert zs == zs' + [z];
      var m' := MinRatio(zs', widthToFitIn, heightToFitIn);
      var m := MinRatio(zs, widthToFitIn, heightToFitIn);
      if m.Some? {
        if m' == m && m'.Some? {
          var w :| w in zs' && w.kind == Paragraph && ZoneRatio(w, widthToFitIn, heightToFitIn) == Some(m.value);
          assert w in zs;
        } else {
          assert z.kind == Paragraph && ZoneRatio(z, widthToFitIn, heightToFitIn) == m;
        }
      }
    }
  }

  /** A running minimum that starts at `cap`: `reduceRatio` (cap 1) and `increaseRatio` (cap 2^31). */
  function Capped(m: Option<real>, cap: real): real {
    if m.Some? && m.value < cap then m.value else cap
  }

  /**
   * The ratio `computeRatio` returns as written, from the smallest ratio
   * `m`: the local `ratio` starts at 0 and is only replaced when the
   * minimum is below 1 or above 1, so a minimum of exactly 1 gives 0.
   */
  function RatioAsWritten(m: Option<real>): (ratio: real)
    ensures ratio == if m == Some(1.0) then 0.0 else Ratio(m)
  {
    var reduceRatio := Capped(m, 1.0);
    var increaseRatio := Capped(m, IntMaxAsFloat);
    if increaseRatio > 1.0 then increaseRatio
    else if reduceRatio < 1.0 then reduceRatio
    else 0.0
  }

  /**
   * The ratio `computeRatio` evidently means to return: the local `ratio`
   * starts at 1 (no scaling), so the result is the smallest paragraph
   * ratio, capped at 2^31 (the start value of `increaseRatio`).
   */
  function Ratio(m: Option<real>): (ratio: real)
    ensures m.None? ==> ratio == IntMaxAsFloat
    ensures m.Some? ==> ratio == if m.value < IntMaxAsFloat then m.value else IntMaxAsFloat
  {
    var reduceRatio := Capped(m, 1.0);
    var increaseRatio := Capped(m, IntMaxAsFloat);
    if increaseRatio > 1.0 then increaseRatio
    else if reduceRatio < 1.0 then reduceRatio
    else 1.0
  }

  /** An exact fit: a paragraph as wide as the space to fit in gives the minimum 1, and the ratio 0. */
  lemma RatioIsZeroForAnExactFit()
    ensures MinRatio([Zone(Paragraph, Rect(0, 0, 762, 100))], 762.0, 1016.0) == Some(1.0)
    ensures RatioAsWritten(MinRatio([Zone(Paragraph, Rect(0, 0, 762, 100))], 762.0, 1016.0)) == 0.0
  {
    var zs := [Zone(Paragraph, Rect(0, 0, 762, 100))];
    assert zs[..0] == [];
  }

  /**
   * With the ratio the source means, every paragraph scaled by it fits in
   * the space between the margins.
   */
  lemma RatioFitsEveryParagraph(zs: seq<Zone>, widthToFitIn: real, heightToFitIn: real, z: Zone)
    requires widthToFitIn > 0.0 && heightToFitIn > 0.0
    requires z in zs && z.kind == Paragraph && z.rect.width >= 0 && z.rect.height >= 0
    ensures var ratio := Ratio(MinRatio(zs, widthToFitIn, heightToFitIn));
      Scaled(z.rect.width, ratio) <= widthToFitIn && Scaled(z.rect.height, ratio) <= heightToFitIn
  {
    MinRatioIsMinimum(zs, widthToFitIn, heightToFitIn);
    var m := MinRatio(zs, widthToFitIn, heightToFitIn);
    var ratio := Ratio(m);
    var w := z.rect.width as real;
    var h := z.rect.height as real;
    var zr := ZoneRatio(z, widthToFitIn, heightToFitIn);
    if zr.Some? {
      assert m.Some?;
      assert AtMostEachRatio(m.value, zs, widthToFitIn, heightToFitIn);
      assert ratio <= zr.value;
    }
    if w > 0.0 {
      assert zr.Some? && zr.value <= widthToFitIn / w;
    }
    if h > 0.0 {
      assert zr.Some? && zr.value <= heightToFitIn / h;
    }
    ScaledFits(z.rect.width, widthToFitIn, ratio);
    ScaledFits(z.rect.height, heightToFitIn, ratio);
  }

  /** A size scaled by the ratio. */
  function Scaled(size: int, ratio: real): real {
    size as real * ratio
  }

  /** A non-negative size scaled by a ratio at most `fit / size` stays within `fit`. */
  lemma ScaledFits(size: int, fit: real, ratio: real)
    requires size >= 0 && fit > 0.0 && (size > 0 ==> ratio <= fit / size as real)
    ensures Scaled(size, ratio) <= fit
  {
    var s := size as real;
    if size > 0 {
      if ratio > 0.0 {
        assert s * ratio <= s * (fit / s);
      } else {
        assert s * ratio <= 0.0;
      }
    }
  }

  /** The loop of `computeRatio`: the running minima `reduceRatio` and `increaseRatio`. */
  method RunningMinima(zs: seq<Zone>, widthToFitIn: real, heightToFitIn: real) returns (reduceRatio: real, increaseRatio: real)
    ensures reduceRatio == Capped(MinRatio(zs, widthToFitIn, heightToFitIn), 1.0)
    ensures increaseRatio == Capped(MinRatio(zs, widthToFitIn, heightToFitIn), IntMaxAsFloat)
  {
    reduceRatio, increaseRatio := 1.0, IntMaxAsFloat;
    for i := 0 to |zs|
      invariant reduceRatio == Capped(MinRatio(zs[..i], widthToFitIn, heightToFitIn), 1.0)
      invariant increaseRatio == Capped(MinRatio(zs[..i], widthToFitIn, heightToFitIn), IntMaxAsFloat)
    {
      assert zs[..i + 1][..i] == zs[..i];
      if zs[i].kind == Paragraph {
        var textZoneRatio := ZoneRatio(zs[i], widthToFitIn, heightToFitIn);
        if textZoneRatio.Some? && textZoneRatio.value < reduceRatio {
          reduceRatio := textZoneRatio.value;
        }
        if textZoneRatio.Some? && textZoneRatio.value < increaseRatio {
          increaseRatio := textZoneRatio.value;
        }
      }
    }
    assert zs[..|zs|] == zs;
  }

  /** `computeRatio` as written: the local `ratio` starts at 0. */
  method ComputeRatioAsWritten(zs: seq<Zone>, widthToFitIn: real, heightToFitIn: real) returns (ratio: real)
    ensures ratio == RatioAsWritten(MinRatio(zs, widthToFitIn, heightToFitIn))
  {
    var reduceRatio, increaseRatio := RunningMinima(zs, widthToFitIn, heightToFitIn);
    ratio := 0.0;
    if reduceRatio < 1.0 {
      ratio := reduceRatio;
    }
    if increaseRatio > 1.0 {
      ratio := increaseRatio;
    }
  }

  /** `computeRatio` with the local `ratio` starting at 1, as the source means it. */
  method ComputeRatio(zs: seq<Zone>, widthToFitIn: real, heightToFitIn: real) returns (ratio: real)
    ensures ratio == Ratio(MinRatio(zs, widthToFitIn, heightToFitIn))
  {
    var reduceRatio, increaseRatio := RunningMinima(zs, widthToFitIn, heightToFitIn);
    ratio := 1.0;
    if reduceRatio < 1.0 {
      ratio := reduceRatio;
    }
    if increaseRatio > 1.0 {
      ratio := increaseRatio;
    }
  }

  function ZonesOf(es: seq<Element>): (zs: seq<Zone>)
    ensures |zs| == |es| && forall i :: 0 <= i < |es| ==> zs[i] == es[i].zone
  {
    seq(|es|, i requires 0 <= i < |es| => es[i].zone)
  }

  // ---------------------------------------------------------------------
  // The packing loop

  /** A paragraph drawn on an output image, at cursor row `y`. */
  datatype Placement = Placement(zone: Zone, y: int)

  /** One output image: the paragraphs drawn on it, top to bottom. */
  type Image = seq<Placement>

  /** The fixed settings of the packing loop. */
  datatype Settings = Settings(ratio: real, bottom: int, margin: int, maxWhiteSpaceHeight: int)

  /** The state the packing loop updates: the flushed images, the canvas, the cursor, the last page and the released pages. */
  datatype Packing = Packing(images: seq<Image>, canvas: Image, yOffset: int, lastPage: Page, released: seq<Page>)

  /** `exceedsBuffer`: the scaled paragraph would end below `renderHeight - pageTopBottomMargin`. */
  predicate Exceeds(yOffset: int, z: Zone, ratio: real, bottom: int) {
    yOffset as real + Scaled(z.rect.height, ratio) > bottom as real && z.kind == Paragraph
  }

  /** `yOffset += height * ratio`: a compound assignment, so the float sum is cast back to int. */
  function Advance(yOffset: int, z: Zone, ratio: real): int {
    TruncReal(yOffset as real + Scaled(z.rect.height, ratio))
  }

  /** Drawing one paragraph: a flush first when it would pass the bottom margin, even on an empty canvas. */
  function Draw(s: Packing, z: Zone, c: Settings): Packing {
    var s0 := if Exceeds(s.yOffset, z, c.ratio, c.bottom)
              then s.(images := s.images + [s.canvas], canvas := [], yOffset := c.margin)
              else s;
    s0.(canvas := s0.canvas + [Placement(z, s0.yOffset)], yOffset := Advance(s0.yOffset, z, c.ratio))
  }

  /** What one element does to the canvas: a paragraph is drawn, a white space moves the cursor by its capped height. */
  function Move(s: Packing, e: Element, c: Settings): Packing {
    if e.zone.kind == Paragraph then Draw(s, e.zone, c)
    else if e.zone.kind == WhiteSpace then s.(yOffset := s.yOffset + Min(e.zone.rect.height, c.maxWhiteSpaceHeight))
    else s
  }

  /** `updateLastPage`: a new current page releases the previous one. */
  function Release(s: Packing, p: Page): Packing {
    if p.idx != s.lastPage.idx then s.(lastPage := p, released := s.released + [s.lastPage]) else s
  }

  /** One iteration of the loop in `run`. */
  function Step(s: Packing, e: Element, c: Settings): Packing {
    Release(Move(s, e, c), e.page)
  }

  /**
   * A step flushes exactly when the element is a paragraph whose scaled
   * height would pass the bottom margin; a white space never flushes and
   * leaves the canvas alone; the released pages grow exactly when the page
   * changes.
   */
  lemma StepFlushesIffExceeds(s: Packing, e: Element, c: Settings)
    ensures var r := Step(s, e, c);
      && |r.images| == |s.images| + (if Exceeds(s.yOffset, e.zone, c.ratio, c.bottom) then 1 else 0)
      && r.images[..|s.images|] == s.images
      && (e.zone.kind != Paragraph ==> r.canvas == s.canvas)
      && (e.zone.kind == WhiteSpace ==> r.yOffset == s.yOffset + Min(e.zone.rect.height, c.maxWhiteSpaceHeight))
      && r.lastPage.idx == e.page.idx
      && r.released == s.released + (if e.page.idx != s.lastPage.idx then [s.lastPage] else [])
  {
  }

  /** The loop of `run` over the elements, from state `s`. */
  function Pack(es: seq<Element>, s: Packing, c: Settings): Packing
    decreases |es|
  {
    if es == [] then s else Step(Pack(es[..|es| - 1], s, c), es[|es| - 1], c)
  }

  function ZonesOfImage(img: Image): (zs: seq<Zone>)
    ensures |zs| == |img| && forall i :: 0 <= i < |img| ==> zs[i] == img[i].zone
  {
    seq(|img|, i requires 0 <= i < |img| => img[i].zone)
  }

  /** The paragraphs drawn on a list of images, image after image. */
  function PlacedZones(images: seq<Image>): seq<Zone>
    decreases |images|
  {
    if images == [] then [] else PlacedZones(images[..|images| - 1]) + ZonesOfImage(images[|images| - 1])
  }

  /** The images a state stands for once its canvas is flushed. */
  function AllImages(s: Packing): seq<Image> {
    s.images + [s.canvas]
  }

  lemma StepDrawsParagraph(s: Packing, e: Element, c: Settings)
    ensures PlacedZones(AllImages(Step(s, e, c)))
         == PlacedZones(AllImages(s)) + (if e.zone.kind == Paragraph then [e.zone] else [])
  {
    var m := Move(s, e, c);
    assert AllImages(Step(s, e, c)) == AllImages(m);
    assert AllImages(s)[..|AllImages(s)| - 1] == s.images;
    assert AllImages(m)[..|AllImages(m)| - 1] == m.images;
    if e.zone.kind == Paragraph {
      if Exceeds(s.yOffset, e.zone, c.ratio, c.bottom) {
        assert m.images == AllImages(s);
        assert ZonesOfImage(m.canvas) == [e.zone];
      } else {
        assert m.images == s.images;
        assert ZonesOfImage(m.canvas) == ZonesOfImage(s.canvas) + [e.zone];
      }
    }
  }

  /**
   * Every paragraph is drawn exactly once, in the order of the elements,
   * and nothing else is drawn.
   */
  lemma {:induction false} PackDrawsEachParagraphOnce(es: seq<Element>, s: Packing, c: Settings)
    ensures PlacedZones(AllImages(Pack(es, s, c))) == PlacedZones(AllImages(s)) + ParagraphZones(es)
    decreases |es|
  {
    if es != [] {
      var es' := es[..|es| - 1];
      PackDrawsEachParagraphOnce(es', s, c);
      StepDrawsParagraph(Pack(es', s, c), es[|es| - 1], c);
    }
  }

  /** A placement that ends above the bottom margin. */
  predicate Fits(p: Placement, c: Settings) {
    p.y as real + Scaled(p.zone.rect.height, c.ratio) <= c.bottom as real
  }

  /** Every paragraph of an image fits, except a first one drawn at the top margin. */
  predicate ImageFits(img: Image, c: Settings) {
    forall k :: 0 <= k < |img| ==> Fits(img[k], c) || (k == 0 && img[k].y == c.margin)
  }

  predicate PackingFits(s: Packing, c: Settings) {
    (forall i :: 0 <= i < |s.images| ==> ImageFits(s.images[i], c)) && ImageFits(s.canvas, c)
  }

  lemma StepKeepsFitting(s: Packing, e: Element, c: Settings)
    requires PackingFits(s, c)
    ensures PackingFits(Step(s, e, c), c)
  {
    var m := Move(s, e, c);
    assert Step(s, e, c).images == m.images && Step(s, e, c).canvas == m.canvas;
    if e.zone.kind == Paragraph {
      if Exceeds(s.yOffset, e.zone, c.ratio, c.bottom) {
        assert m.images == s.images + [s.canvas];
        assert m.canvas == [Placement(e.zone, c.margin)];
      } else {
        assert m.images == s.images;
        assert m.canvas == s.canvas + [Placement(e.zone, s.yOffset)];
        assert Fits(Placement(e.zone, s.yOffset), c);
      }
    }
  }

  /**
   * The flush rule keeps every paragraph above the bottom margin, except a
   * paragraph too tall for an empty canvas, which is drawn alone at the top
   * margin and runs past the bottom.
   */
  lemma {:induction false} PackKeepsFitting(es: seq<Element>, s: Packing, c: Settings)
    requires PackingFits(s, c)
    ensures PackingFits(Pack(es, s, c), c)
    decreases |es|
  {
    if es != [] {
      PackKeepsFitting(es[..|es| - 1], s, c);
      StepKeepsFitting(Pack(es[..|es| - 1], s, c), es[|es| - 1], c);
    }
  }

  /** Only a paragraph flushes, so there are at most as many flushes as paragraphs. */
  lemma {:induction false} PackImageCount(es: seq<Element>, s: Packing, c: Settings)
    ensures |Pack(es, s, c).images| <= |s.images| + |ParagraphZones(es)|
    decreases |es|
  {
    if es != [] {
      PackImageCount(es[..|es| - 1], s, c);
      StepFlushesIffExceeds(Pack(es[..|es| - 1], s, c), es[|es| - 1], c);
    }
  }

  /** The released pages: never the same page twice in a row, and never the current page. */
  predicate ReleaseLog(s: Packing) {
    && (forall k :: 0 <= k < |s.released| - 1 ==> s.released[k].idx != s.released[k + 1].idx)
    && (s.released != [] ==> s.released[|s.released| - 1].idx != s.lastPage.idx)
  }

  /**
   * `updateLastPage` deletes a page's image data only when the loop moves
   * on to another page, and the page it ends on is the last element's.
   */
  lemma {:induction false} PackReleasesLeftPages(es: seq<Element>, s: Packing, c: Settings)
    requires ReleaseLog(s)
    ensures ReleaseLog(Pack(es, s, c))
    ensures es != [] ==> Pack(es, s, c).lastPage.idx == es[|es| - 1].page.idx
    decreases |es|
  {
    if es != [] {
      PackReleasesLeftPages(es[..|es| - 1], s, c);
      StepFlushesIffExceeds(Pack(es[..|es| - 1], s, c), es[|es| - 1], c);
    }
  }

  /** What the packing gives from a fresh start: each paragraph drawn once, in order, on images that fit. */
  lemma PackFromEmpty(es: seq<Element>, start: Packing, c: Settings)
    requires start.images == [] && start.canvas == []
    ensures PlacedZones(AllImages(Pack(es, start, c))) == ParagraphZones(es)
    ensures PackingFits(Pack(es, start, c), c)
  {
    PackDrawsEachParagraphOnce(es, start, c);
    assert AllImages(start)[..0] == [];
    assert PlacedZones(AllImages(start)) == [];
    PackKeepsFitting(es, start, c);
  }

  // ---------------------------------------------------------------------
  // The Paginator

  class Paginator {
    const renderWidth: int
    const renderHeight: int
    /** `(int) (0.10 * renderHeight)`. */
    const maxWhiteSpaceHeight: int := renderHeight / 10
    /** `(int) (MARGIN_SIZE * renderHeight)`, 3%. */
    const pageTopBottomMargin: int := renderHeight * 3 / 100
    /** `(int) (MARGIN_SIZE * renderWidth)`, 3%. */
    const pageLeftRightMargin: int := renderWidth * 3 / 100
    var pages: seq<Page>
    var elementsForPagination: seq<Element>
    var outputImages: seq<Image>
    var yOffset: int
    /** `renderBuffer`: the paragraphs drawn on the current canvas. */
    var canvas: Image
    var ratio: real
    /** `counter`: None until `run` creates it. */
    var counter: Option<nat>
    /** The pages whose `deleteImageData` was called, in order. */
    var released: seq<Page>

    /** Sorts the pages; the render size comes from the quality setting. */
    constructor (pages: seq<Page>, renderWidth: int, renderHeight: int)
      requires renderWidth > 0 && renderHeight > 0
      ensures this.pages == SortPages(pages)
      ensures this.renderWidth == renderWidth && this.renderHeight == renderHeight
      ensures elementsForPagination == [] && outputImages == [] && canvas == [] && yOffset == 0
      ensures ratio == 1.0 && counter == None && released == []
    {
      this.pages := SortPages(pages);
      this.renderWidth := renderWidth;
      this.renderHeight := renderHeight;
      elementsForPagination, outputImages, canvas, yOffset := [], [], [], 0;
      ratio, counter, released := 1.0, None, [];
    }

    /** `renderWidth - 2 * pageLeftRightMargin`: positive for a positive render width. */
    function WidthToFitIn(): (w: real)
      ensures renderWidth > 0 ==> w > 0.0
    {
      assert 100 * pageLeftRightMargin <= renderWidth * 3;
      (renderWidth - 2 * pageLeftRightMargin) as real
    }

    /** `renderHeight - 2 * pageTopBottomMargin`: positive for a positive render height. */
    function HeightToFitIn(): (h: real)
      ensures renderHeight > 0 ==> h > 0.0
    {
      assert 100 * pageTopBottomMargin <= renderHeight * 3;
      (renderHeight - 2 * pageTopBottomMargin) as real
    }

    /** The fields the packing loop updates, with its local `lastPage`. */
    function Current(lastPage: Page): Packing
      reads this
    {
      Packing(outputImages, canvas, yOffset, lastPage, released)
    }

    function CurrentSettings(): Settings
      reads this
    {
      Settings(ratio, renderHeight - pageTopBottomMargin, pageTopBottomMargin, maxWhiteSpaceHeight)
    }

    /** The progress counter never passes the number of elements, which is positive once it exists. */
    predicate ProgressValid()
      reads this
    {
      counter.Some? ==> 1 <= |elementsForPagination| && counter.value <= |elementsForPagination|
    }

    /** `getProgress`: 0 before `run` starts, then the share of elements handled so far. */
    function GetProgress(): (p: real)
      reads this
      requires ProgressValid()
      ensures 0.0 <= p <= 1.0
      ensures counter.None? ==> p == 0.0
      ensures counter == Some(|elementsForPagination|) ==> p == 1.0
    {
      if counter.None? then 0.0
      else
        var n := |elementsForPagination| as real;
        var k := counter.value as real;
        assert k / n <= 1.0 by {
          assert k <= n;
          assert k / n <= n / n;
        }
        k / n
    }

    /** `reInitBuffer`: an empty white canvas, with the cursor at the top margin. */
    method ReInitBuffer()
      modifies this
      ensures canvas == [] && yOffset == pageTopBottomMargin
      ensures pages == old(pages) && elementsForPagination == old(elementsForPagination)
      ensures outputImages == old(outputImages) && ratio == old(ratio) && counter == old(counter) && released == old(released)
    {
      yOffset := pageTopBottomMargin;
      canvas := [];
    }

    /** `flushBuffer`: one more output image, holding the canvas, then a new canvas. */
    method FlushBuffer()
      modifies this
      ensures outputImages == old(outputImages) + [old(canvas)]
      ensures canvas == [] && yOffset == pageTopBottomMargin
      ensures pages == old(pages) && elementsForPagination == old(elementsForPagination)
      ensures ratio == old(ratio) && counter == old(counter) && released == old(released)
    {
      outputImages := outputImages + [canvas];
      ReInitBuffer();
    }

    /** `addParagraphToBuffer`: draws the paragraph at the cursor, then moves the cursor past its scaled height. */
    method AddParagraphToBuffer(z: Zone)
      modifies this
      ensures canvas == old(canvas) + [Placement(z, old(yOffset))]
      ensures yOffset == Advance(old(yOffset), z, ratio)
      ensures pages == old(pages) && elementsForPagination == old(elementsForPagination) && outputImages == old(outputImages)
      ensures ratio == old(ratio) && counter == old(counter) && released == old(released)
    {
      canvas := canvas + [Placement(z, yOffset)];
      yOffset := Advance(yOffset, z, ratio);
    }

    /** `updateLastPage`: when the page changes, the previous page's image data is deleted. */
    method UpdateLastPage(lastPage: Page, currentPage: Page) returns (r: Page)
      modifies this
      ensures r == if lastPage.idx != currentPage.idx then currentPage else lastPage
      ensures released == old(released) + if lastPage.idx != currentPage.idx then [lastPage] else []
      ensures pages == old(pages) && elementsForPagination == old(elementsForPagination) && outputImages == old(outputImages)
      ensures canvas == old(canvas) && yOffset == old(yOffset) && ratio == old(ratio) && counter == old(counter)
    {
      if lastPage.idx != currentPage.idx {
        released := released + [lastPage];
        return currentPage;
      } else {
        return lastPage;
      }
    }

    /** One iteration of the loop of `run`, apart from the counter. */
    method ProcessElement(e: Element, lastPage: Page) returns (next: Page)
      modifies this
      ensures Current(next) == Step(old(Current(lastPage)), e, CurrentSettings())
      ensures pages == old(pages) && elementsForPagination == old(elementsForPagination)
      ensures ratio == old(ratio) && counter == old(counter)
    {
      ghost var s := Current(lastPage);
      if e.zone.kind == Paragraph {
        if Exceeds(yOffset, e.zone, ratio, renderHeight - pageTopBottomMargin) {
          FlushBuffer();
        }
        AddParagraphToBuffer(e.zone);
      } else if e.zone.kind == WhiteSpace {
        yOffset := yOffset + Min(e.zone.rect.height, maxWhiteSpaceHeight);
      }
      assert Current(lastPage) == Move(s, e, CurrentSettings());
      next := UpdateLastPage(lastPage, e.page);
    }

    /** `extractElementsToRender`. */
    method ExtractElementsToRender()
      modifies this
      ensures elementsForPagination == old(ExtractElements(pages))
      ensures pages == old(pages) && outputImages == old(outputImages) && canvas == old(canvas) && yOffset == old(yOffset)
      ensures ratio == old(ratio) && counter == old(counter) && released == old(released)
    {
      elementsForPagination := ExtractElements(pages);
    }

    /**
     * `breakDownElementsToRender`: replaces the elements by their pieces;
     * when a break-down fails, or no paragraph is left, it throws and the
     * elements stay as they were.
     */
    method BreakDownElementsToRender(cutTarget: (Rect, int) -> real) returns (error: Option<Error>)
      modifies this
      ensures var r := BrokenDown(old(elementsForPagination), renderHeight, cutTarget);
        && (r.Failure? ==> error == Some(r.error) && elementsForPagination == old(elementsForPagination))
        && (r.Success? && ParagraphZones(r.value) == [] ==> error == Some(NoSuchElement) && elementsForPagination == old(elementsForPagination))
        && (r.Success? && ParagraphZones(r.value) != [] ==> error == None && elementsForPagination == r.value)
      ensures pages == old(pages) && outputImages == old(outputImages) && canvas == old(canvas) && yOffset == old(yOffset)
      ensures ratio == old(ratio) && counter == old(counter) && released == old(released)
    {
      var result := BrokenDown(elementsForPagination, renderHeight, cutTarget);
      if result.Failure? {
        return Some(result.error);
      }
      if ParagraphZones(result.value) == [] {
        return Some(NoSuchElement);
      }
      elementsForPagination := result.value;
      return None;
    }

    /** The result of packing the elements onto images, starting from a fresh canvas and `released` pages. */
    function Packed(before: seq<Page>): Packing
      reads this
      requires elementsForPagination != []
    {
      Pack(elementsForPagination, Packing([], [], pageTopBottomMargin, elementsForPagination[0].page, before), CurrentSettings())
    }

    /** The loop of `run` over the elements, ending with the last flush. */
    method PackElements()
      requires elementsForPagination != []
      modifies this
      ensures pages == old(pages) && elementsForPagination == old(elementsForPagination) && ratio == old(ratio)
      ensures outputImages == AllImages(Packed(old(released))) && released == Packed(old(released)).released
      ensures canvas == [] && yOffset == pageTopBottomMargin
      ensures counter == Some(|elementsForPagination|)
    {
      var es := elementsForPagination;
      ghost var start := Packing([], [], pageTopBottomMargin, es[0].page, released);
      counter := Some(0);
      ReInitBuffer();
      outputImages := [];
      var lastPage := es[0].page;
      assert Current(lastPage) == start;
      for i := 0 to |es|
        invariant elementsForPagination == es && pages == old(pages) && ratio == old(ratio)
        invariant Current(lastPage) == Pack(es[..i], start, CurrentSettings())
        invariant counter == Some(i)
      {
        assert es[..i + 1][..i] == es[..i];
        lastPage := ProcessElement(es[i], lastPage);
        counter := Some(counter.value + 1);
      }
      assert es[..|es|] == es;
      FlushBuffer();
    }

    /** The first half of `run`: the elements to render, or the exception that ends the run. */
    method PrepareElements(cutTarget: (Rect, int) -> real) returns (error: Option<Error>)
      modifies this
      ensures var r := old(ElementsToRender(pages, renderHeight, cutTarget));
        && (r.Failure? ==> error == Some(r.error) && elementsForPagination == old(ExtractElements(pages)))
        && (r.Success? ==> error == None && elementsForPagination == r.value)
      ensures pages == old(pages) && outputImages == old(outputImages) && canvas == old(canvas) && yOffset == old(yOffset)
      ensures ratio == old(ratio) && counter == old(counter) && released == old(released)
    {
      ExtractElementsToRender();
      error := BreakDownElementsToRender(cutTarget);
    }

    /**
     * `run`: extracts and breaks down the elements, computes the ratio,
     * then packs the elements onto images: every paragraph is drawn once,
     * in order, and each image keeps its paragraphs above the bottom
     * margin unless one alone is too tall.
     */
    method Run(cutTarget: (Rect, int) -> real) returns (error: Option<Error>)
      modifies this
      ensures pages == old(pages)
      ensures var r := old(ElementsToRender(pages, renderHeight, cutTarget));
        && (r.Failure? ==> error == Some(r.error) && elementsForPagination == old(ExtractElements(pages))
                           && outputImages == old(outputImages) && counter == old(counter) && released == old(released))
        && (r.Success? ==> error == None && elementsForPagination == r.value)
      ensures error.None? ==> (elementsForPagination != []
        && ratio == Ratio(MinRatio(ZonesOf(elementsForPagination), WidthToFitIn(), HeightToFitIn()))
        && outputImages == AllImages(Packed(old(released))) && released == Packed(old(released)).released)
      ensures error.None? ==> PlacedZones(outputImages) == ParagraphZones(elementsForPagination)
      ensures error.None? ==> forall i :: 0 <= i < |outputImages| ==> ImageFits(outputImages[i], CurrentSettings())
      ensures error.None? ==> ProgressValid() && GetProgress() == 1.0
    {
      error := PrepareElements(cutTarget);
      if error.Some? {
        return;
      }
      ratio := ComputeRatio(ZonesOf(elementsForPagination), WidthToFitIn(), HeightToFitIn());
      ghost var before := released;
      PackElements();
      PackFromEmpty(elementsForPagination, Packing([], [], pageTopBottomMargin, elementsForPagination[0].page, before), CurrentSettings());
    }
  }
}

=== FILE: paragraphs.dfy ===
/**
 * Paragraph cuts: where a text block is cut into paragraphs
 * (TextBlock.detectParagraphs) and where a tall paragraph is cut into
 * pieces (Paragraph.breakDown / adjustCutY). Cuts are rows relative to the
 * zone's top; the zone is then sliced with `sliceOnY`.
 */
module Paragraphs {
  import opened Wrappers
  import opened Numbers
  import opened Seqs
  import opened Geometry
  import opened Sides
  import opened TextZones
  import opened Words
  import opened WordsContainers

  // ---------------------------------------------------------------------
  // From cuts to paragraphs

  /**
   * The common tail of `detectParagraphs` and `breakDown`: without cuts the
   * zone stays one paragraph; otherwise it is sliced into paragraphs.
   */
  function PiecesFromCuts(z: Zone, cuts: seq<int>): (r: Result<seq<Zone>>)
    ensures cuts == [] ==> r == Success([Zone(Paragraph, z.rect)])
    ensures cuts != [] && r.Success? ==>
      |r.value| == |cuts| + 1 && Tiles(z.rect, r.value) && forall i :: 0 <= i < |r.value| ==> r.value[i].kind == Paragraph
    ensures r.Failure? ==> r.error == IllegalArgument
    ensures AcceptedOneByOne(cuts, z.rect.height) && z.rect.height >= 20 ==> r.Success?
  {
    if cuts == [] then Success([Zone(Paragraph, z.rect)])
    else
      AcceptedCutsSplit(z, cuts);
      SlicesOf(z, cuts, Paragraph)
  }

  lemma AcceptedCutsSplit(z: Zone, cuts: seq<int>)
    ensures cuts != [] && AcceptedOneByOne(cuts, z.rect.height) && z.rect.height >= 20 ==> SlicesOf(z, cuts, Paragraph).Success?
  {
    if cuts != [] && AcceptedOneByOne(cuts, z.rect.height) && z.rect.height >= 20 {
      AcceptedCutsSlice(z, cuts, Paragraph);
    }
  }

  // ---------------------------------------------------------------------
  // TextBlock.detectParagraphs

  /**
   * A left-border word yields a cut candidate when the outlier test on its
   * X1 holds (the source compares |X1 - mean| with twice the standard
   * deviation of the left-border X1s; here that test is a parameter) and it
   * starts strictly below the block's top.
   */
  predicate CutSource(block: Rect, left: seq<Word>, w: Word, isOutlier: (seq<int>, int) -> bool) {
    isOutlier(LeftsOf(left), w.rect.x) && w.rect.y > block.y
  }

  /**
   * The candidate row of a word, relative to the block: the smallest Y1 of
   * the block words on the word's RIGHT control strip, or the word's own Y1
   * when there are none.
   */
  function CandidateCut(block: Rect, w: Word, words: seq<Word>, pageWidth: int, pageHeight: int): (c: int)
    ensures var same := WordsOnTheSideOf(w.rect, Right, block, words, pageWidth, pageHeight);
      && (same == [] ==> c == w.rect.y - block.y)
      && (same != [] ==> (exists o :: o in same && c == o.rect.y - block.y))
      && (same != [] ==> forall o :: o in same ==> c <= o.rect.y - block.y)
  {
    var same := WordsOnTheSideOf(w.rect, Right, block, words, pageWidth, pageHeight);
    if same == [] then w.rect.y - block.y
    else
      var m := MinOf(TopsOf(same));
      assert forall o :: o in same ==> m <= o.rect.y by {
        forall o | o in same ensures m <= o.rect.y {
          var i :| 0 <= i < |same| && same[i] == o;
          assert TopsOf(same)[i] == o.rect.y;
        }
      }
      var i :| 0 <= i < |same| && TopsOf(same)[i] == m;
      assert same[i] in same;
      m - block.y
  }

  /** The cuts `detectParagraphs` keeps after the first `n` left-border words. */
  function TextBlockCuts(block: Rect, left: seq<Word>, words: seq<Word>, pageWidth: int, pageHeight: int,
                         isOutlier: (seq<int>, int) -> bool, n: nat): (cuts: seq<int>)
    requires n <= |left|
    ensures AcceptedOneByOne(cuts, block.height)
    ensures |cuts| <= n
    ensures forall k :: 0 <= k < |cuts| ==> exists i :: 0 <= i < n && CutSource(block, left, left[i], isOutlier)
                                              && cuts[k] == CandidateCut(block, left[i], words, pageWidth, pageHeight)
    decreases n
  {
    if n == 0 then []
    else
      var prev := TextBlockCuts(block, left, words, pageWidth, pageHeight, isOutlier, n - 1);
      var w := left[n - 1];
      if CutSource(block, left, w, isOutlier) then
        var c := CandidateCut(block, w, words, pageWidth, pageHeight);
        if IsValidCutToAdd(c, prev, block.height) then
          AcceptedAppend(prev, c, block.height);
          prev + [c]
        else prev
      else prev
  }

  /** Appending a cut accepted against the kept ones keeps the list accepted one by one. */
  lemma AcceptedAppend(cuts: seq<int>, c: int, height: int)
    requires AcceptedOneByOne(cuts, height) && IsValidCutToAdd(c, cuts, height)
    ensures AcceptedOneByOne(cuts + [c], height)
  {
    var next := cuts + [c];
    assert next[..|cuts|] == cuts;
    forall i | 0 <= i < |cuts|
      ensures next[..i] == cuts[..i]
    {
    }
  }

  /** The loop of `TextBlock.detectParagraphs` over the left-border words. */
  method DetectParagraphCuts(block: Rect, left: seq<Word>, words: seq<Word>, pageWidth: int, pageHeight: int,
                             isOutlier: (seq<int>, int) -> bool) returns (cuts: seq<int>)
    ensures cuts == TextBlockCuts(block, left, words, pageWidth, pageHeight, isOutlier, |left|)
  {
    cuts := [];
    for i := 0 to |left|
      invariant cuts == TextBlockCuts(block, left, words, pageWidth, pageHeight, isOutlier, i)
    {
      cuts := NextCuts(block, left, words, pageWidth, pageHeight, isOutlier, i, cuts);
    }
  }

  /** One turn of the loop: the word `left[i]` adds its candidate row when it is an outlier and the row is accepted. */
  method NextCuts(block: Rect, left: seq<Word>, words: seq<Word>, pageWidth: int, pageHeight: int,
                  isOutlier: (seq<int>, int) -> bool, i: nat, cuts: seq<int>) returns (next: seq<int>)
    requires i < |left| && cuts == TextBlockCuts(block, left, words, pageWidth, pageHeight, isOutlier, i)
    ensures next == TextBlockCuts(block, left, words, pageWidth, pageHeight, isOutlier, i + 1)
  {
    var w := left[i];
    TextBlockCutsStep(block, left, words, pageWidth, pageHeight, isOutlier, i);
    next := cuts;
    if isOutlier(LeftsOf(left), w.rect.x) && w.rect.y > block.y {
      var yCut := CandidateCut(block, w, words, pageWidth, pageHeight);
      if IsValidCutToAdd(yCut, cuts, block.height) {
        next := cuts + [yCut];
      }
    }
  }

  lemma TextBlockCutsStep(block: Rect, left: seq<Word>, words: seq<Word>, pageWidth: int, pageHeight: int,
                          isOutlier: (seq<int>, int) -> bool, i: nat)
    requires i < |left|
    ensures var prev := TextBlockCuts(block, left, words, pageWidth, pageHeight, isOutlier, i);
      var c := CandidateCut(block, left[i], words, pageWidth, pageHeight);
      TextBlockCuts(block, left, words, pageWidth, pageHeight, isOutlier, i + 1) ==
        if CutSource(block, left, left[i], isOutlier) && IsValidCutToAdd(c, prev, block.height) then prev + [c] else prev
  {
  }

  /** `detectParagraphs` once the left-border words are known. */
  function TextBlockParagraphs(block: Rect, left: seq<Word>, words: seq<Word>, pageWidth: int, pageHeight: int,
                               isOutlier: (seq<int>, int) -> bool): Result<seq<Zone>>
  {
    PiecesFromCuts(Zone(TextBlock, block), TextBlockCuts(block, left, words, pageWidth, pageHeight, isOutlier, |left|))
  }

  /**
   * A block at least 20 pixels tall always splits: into one paragraph with
   * its own rectangle when no cut is kept, else into paragraphs that tile
   * it, one more than the cuts, each cut coming from an outlier word.
   */
  lemma TextBlockParagraphsTile(block: Rect, left: seq<Word>, words: seq<Word>, pageWidth: int, pageHeight: int,
                                isOutlier: (seq<int>, int) -> bool)
    requires block.height >= 20
    ensures var r := TextBlockParagraphs(block, left, words, pageWidth, pageHeight, isOutlier);
      && r.Success?
      && (forall i :: 0 <= i < |r.value| ==> r.value[i].kind == Paragraph)
      && (|r.value| == 1 ==> r.value[0].rect == block)
      && (|r.value| > 1 ==> Tiles(block, r.value))
      && |r.value| <= |left| + 1
  {
  }

  /** With no outlier among the left-border words the block stays one paragraph. */
  lemma NoOutlierNoCut(block: Rect, left: seq<Word>, words: seq<Word>, pageWidth: int, pageHeight: int,
                       isOutlier: (seq<int>, int) -> bool)
    requires forall i :: 0 <= i < |left| ==> !isOutlier(LeftsOf(left), left[i].rect.x)
    ensures TextBlockParagraphs(block, left, words, pageWidth, pageHeight, isOutlier) == Success([Zone(Paragraph, block)])
  {
  }

  // ---------------------------------------------------------------------
  // Paragraph.adjustCutY

  function CrossedBy(x1: int, x2: int, y: int): Word -> bool {
    (w: Word) => HorizontalSegmentHits(x1, x2, y, w.rect)
  }

  /** The number of words that the horizontal scan line from (x1, y) to (x2, y) meets. */
  function Collisions(words: seq<Word>, x1: int, x2: int, y: int): (n: nat)
    ensures n <= |words|
  {
    |Filter(words, CrossedBy(x1, x2, y))|
  }

  /** The collisions of the row `row` relative to `top`. */
  function Crossings(words: seq<Word>, x1: int, x2: int, top: int, row: int): nat {
    Collisions(words, x1, x2, row + top)
  }

  /**
   * The first of the `count` rows from `from` on (relative to `top`) with
   * the fewest collisions: `Stream.min` keeps the earliest minimum.
   */
  function FirstMinRow(words: seq<Word>, x1: int, x2: int, top: int, from: int, count: nat): (y: int)
    requires count > 0
    ensures from <= y < from + count
    ensures forall z :: from <= z < from + count ==> Crossings(words, x1, x2, top, y) <= Crossings(words, x1, x2, top, z)
    ensures forall z :: from <= z < y ==> Crossings(words, x1, x2, top, y) < Crossings(words, x1, x2, top, z)
    decreases count
  {
    if count == 1 then from
    else
      var y := FirstMinRow(words, x1, x2, top, from, count - 1);
      var last := from + count - 1;
      if Crossings(words, x1, x2, top, last) < Crossings(words, x1, x2, top, y) then last else y
  }

  /**
   * The stream of `adjustCutY` over `count` rows: a negative `limit` throws
   * IllegalArgumentException, an empty stream makes `get()` throw
   * NoSuchElementException.
   */
  function ScanRows(words: seq<Word>, x1: int, x2: int, top: int, from: int, count: int): (r: Result<int>)
    ensures r.Failure? <==> count <= 0
    ensures count < 0 ==> r == Failure(IllegalArgument)
    ensures count == 0 ==> r == Failure(NoSuchElement)
    ensures r.Success? ==> from <= r.value < from + count
    ensures r.Success? ==> forall z :: from <= z < from + count ==>
      Crossings(words, x1, x2, top, r.value) <= Crossings(words, x1, x2, top, z)
    ensures r.Success? ==> forall z :: from <= z < r.value ==>
      Crossings(words, x1, x2, top, r.value) < Crossings(words, x1, x2, top, z)
  {
    if count < 0 then Failure(IllegalArgument)
    else if count == 0 then Failure(NoSuchElement)
    else Success(FirstMinRow(words, x1, x2, top, from, count))
  }

  /** `downMargin` and `upMargin`: 3% of the height, rounded toward zero. */
  function CutMargin(height: int): int {
    TruncDiv(3 * height, 100)
  }

  /** `from`: the ideal row minus the margin, not above the top. */
  function WindowFrom(par: Rect, relativeCutY: real): int {
    Max(0, TruncReal(relativeCutY) - CutMargin(par.height))
  }

  /** `to`: the ideal row plus the margin, not below the bottom. */
  function WindowTo(par: Rect, relativeCutY: real): int {
    Min(par.height, TruncReal(relativeCutY) + CutMargin(par.height))
  }

  /**
   * `adjustCutY` as written: the stream takes `limit(to)` rows from `from`,
   * so it runs `to` rows rather than up to row `to`, and the scan line of a
   * row runs from x = 0 to x = width rather than across the paragraph's own
   * columns.
   */
  function AdjustCutYAsWritten(par: Rect, words: seq<Word>, relativeCutY: real): (r: Result<int>)
    ensures relativeCutY <= 0.0 ==> r == Failure(IllegalArgument)
    ensures relativeCutY > 0.0 ==> (r.Failure? <==> WindowTo(par, relativeCutY) <= 0)
    ensures r.Success? ==> WindowFrom(par, relativeCutY) <= r.value < WindowFrom(par, relativeCutY) + WindowTo(par, relativeCutY)
    ensures r.Success? ==> forall z :: WindowFrom(par, relativeCutY) <= z < WindowFrom(par, relativeCutY) + WindowTo(par, relativeCutY) ==>
      Crossings(words, 0, par.width, par.y, r.value) <= Crossings(words, 0, par.width, par.y, z)
    ensures r.Success? ==> forall z :: WindowFrom(par, relativeCutY) <= z < r.value ==>
      Crossings(words, 0, par.width, par.y, r.value) < Crossings(words, 0, par.width, par.y, z)
  {
    if relativeCutY <= 0.0 then Failure(IllegalArgument)
    else ScanRows(words, 0, par.width, par.y, WindowFrom(par, relativeCutY), WindowTo(par, relativeCutY))
  }

  /**
   * `adjustCutY` as evidently intended: the rows from `from` to `to`, each
   * scanned across the paragraph's columns; the result is the earliest of
   * them crossing the fewest words, so it never leaves the paragraph.
   */
  function AdjustCutY(par: Rect, words: seq<Word>, relativeCutY: real): (r: Result<int>)
    ensures relativeCutY <= 0.0 ==> r == Failure(IllegalArgument)
    ensures r.Success? ==> 0 <= WindowFrom(par, relativeCutY) <= r.value <= WindowTo(par, relativeCutY) <= par.height
    ensures r.Success? ==> forall z :: WindowFrom(par, relativeCutY) <= z <= WindowTo(par, relativeCutY) ==>
      Crossings(words, par.x, X2(par), par.y, r.value) <= Crossings(words, par.x, X2(par), par.y, z)
    ensures r.Success? ==> forall z :: WindowFrom(par, relativeCutY) <= z < r.value ==>
      Crossings(words, par.x, X2(par), par.y, r.value) < Crossings(words, par.x, X2(par), par.y, z)
  {
    if relativeCutY <= 0.0 then Failure(IllegalArgument)
    else
      var from := WindowFrom(par, relativeCutY);
      var to := WindowTo(par, relativeCutY);
      ScanRows(words, par.x, X2(par), par.y, from, to - from + 1)
  }

  /** A positive ideal row inside a paragraph at least one pixel tall always gets a row. */
  lemma AdjustCutYSucceeds(par: Rect, words: seq<Word>, relativeCutY: real)
    requires 0.0 < relativeCutY && TruncReal(relativeCutY) <= par.height
    ensures AdjustCutY(par, words, relativeCutY).Success?
  {
  }

  /** One word: the scan line meets it or not. */
  lemma CollisionsOfOne(w: Word, x1: int, x2: int, y: int)
    ensures Collisions([w], x1, x2, y) == if HorizontalSegmentHits(x1, x2, y, w.rect) then 1 else 0
  {
    assert [w][..0] == [];
  }

  /**
   * The scan picks row `z0` exactly when `z0` crosses the fewest words of
   * the window and every earlier row of the window crosses more.
   */
  lemma ScanPicks(words: seq<Word>, x1: int, x2: int, top: int, from: int, count: int, z0: int)
    requires from <= z0 < from + count
    requires forall z :: from <= z < from + count ==> Crossings(words, x1, x2, top, z0) <= Crossings(words, x1, x2, top, z)
    requires forall z :: from <= z < z0 ==> Crossings(words, x1, x2, top, z0) < Crossings(words, x1, x2, top, z)
    ensures ScanRows(words, x1, x2, top, from, count) == Success(z0)
  {
    var r := ScanRows(words, x1, x2, top, from, count);
    assert Crossings(words, x1, x2, top, r.value) <= Crossings(words, x1, x2, top, z0);
  }

  lemma WindowOfShiftedParagraph(par: Rect, cutY: real)
    requires par == Rect(500, 0, 300, 100) && cutY == 50.0
    ensures WindowFrom(par, cutY) == 47 && WindowTo(par, cutY) == 53
  {
    assert TruncReal(cutY) == 50;
    assert CutMargin(par.height) == 3;
  }

  lemma WindowNearBottom(par: Rect, cutY: real)
    requires par == Rect(0, 0, 300, 100) && cutY == 90.0
    ensures WindowFrom(par, cutY) == 87 && WindowTo(par, cutY) == 93
  {
    assert TruncReal(cutY) == 90;
    assert CutMargin(par.height) == 3;
  }

  /**
   * The scan line of the code runs over x in [0, width]: for a paragraph at
   * x = 500, a word at x = 600 to 650 is never met, so the code cuts at the
   * first scanned row, 47, through that word.
   */
  lemma ScanLineMissesShiftedWords(w: Word, par: Rect, cutY: real)
    requires w.rect == Rect(600, 40, 50, 9) && par == Rect(500, 0, 300, 100) && cutY == 50.0
    ensures AdjustCutYAsWritten(par, [w], cutY) == Success(47)
    ensures Collisions([w], X2(par) - par.width, X2(par), 47) == 1
  {
    WindowOfShiftedParagraph(par, cutY);
    CollisionsOfOne(w, 0, 300, 47);
    CollisionsOfOne(w, 500, 800, 47);
    ScanPicks([w], 0, par.width, par.y, 47, 53, 47);
  }

  /** Scanning across the paragraph's columns, the cut avoids that word: row 50 is the first free one. */
  lemma ScanLineAcrossColumnsAvoidsWord(w: Word, par: Rect, cutY: real)
    requires w.rect == Rect(600, 40, 50, 9) && par == Rect(500, 0, 300, 100) && cutY == 50.0
    ensures AdjustCutY(par, [w], cutY) == Success(50)
    ensures Collisions([w], par.x, X2(par), 50) == 0
  {
    WindowOfShiftedParagraph(par, cutY);
    forall z | 47 <= z < 54
      ensures Crossings([w], 500, 800, 0, z) == if z < 50 then 1 else 0
    {
      CollisionsOfOne(w, 500, 800, z);
    }
    ScanPicks([w], par.x, X2(par), par.y, 47, 7, 50);
  }

  /**
   * `limit(to)` runs `to` rows: for a paragraph 100 pixels tall and the
   * ideal row 90, the code scans rows 87 to 179, and with a word over rows
   * 80 to 105 it picks row 106, below the paragraph.
   */
  lemma ScanWindowPassesBottom(w: Word, par: Rect, cutY: real)
    requires w.rect == Rect(0, 80, 50, 25) && par == Rect(0, 0, 300, 100) && cutY == 90.0
    ensures AdjustCutYAsWritten(par, [w], cutY) == Success(106)
    ensures 106 > par.height
  {
    WindowNearBottom(par, cutY);
    forall z | 87 <= z < 180
      ensures Crossings([w], 0, 300, 0, z) == if z <= 105 then 1 else 0
    {
      CollisionsOfOne(w, 0, 300, z);
    }
    ScanPicks([w], 0, par.width, par.y, 87, 93, 106);
  }

  /** The rows 87 to 93 all cross that word, so the intended scan keeps the first, row 87, inside the paragraph. */
  lemma ScanWindowStaysInside(w: Word, par: Rect, cutY: real)
    requires w.rect == Rect(0, 80, 50, 25) && par == Rect(0, 0, 300, 100) && cutY == 90.0
    ensures AdjustCutY(par, [w], cutY) == Success(87)
  {
    WindowNearBottom(par, cutY);
    forall z | 87 <= z < 94
      ensures Crossings([w], 0, 300, 0, z) == 1
    {
      CollisionsOfOne(w, 0, 300, z);
    }
    ScanPicks([w], par.x, X2(par), par.y, 87, 7, 87);
  }

  // ---------------------------------------------------------------------
  // Paragraph.breakDown

  /** `adjustCutY` of each break-down target, as a function of the target's index. */
  function Adjustments(par: Rect, words: seq<Word>, idealCut: int -> real): int -> Result<int> {
    i => AdjustCutY(par, words, idealCut(i))
  }

  /**
   * The cuts `breakDown` keeps after the targets 1 .. n-1, whose adjusted
   * rows are `adjusted`: each row is kept if `isValidCutToAdd` accepts it,
   * and a failing adjustment ends the whole computation.
   */
  function BreakDownCuts(adjusted: int -> Result<int>, height: int, n: nat): (r: Result<seq<int>>)
    ensures r.Success? ==> AcceptedOneByOne(r.value, height)
    ensures r.Success? ==> r.value == [] || |r.value| < n
    decreases n
  {
    if n <= 1 then Success([])
    else
      match BreakDownCuts(adjusted, height, n - 1)
      case Failure(e) => Failure(e)
      case Success(cuts) =>
        match adjusted(n - 1)
        case Failure(e) => Failure(e)
        case Success(yCut) =>
          if IsValidCutToAdd(yCut, cuts, height) then
            AcceptedAppend(cuts, yCut, height);
            Success(cuts + [yCut])
          else Success(cuts)
  }

  /**
   * The value `breakDown(pieces)` returns or throws, for a paragraph whose
   * included words are `words`; `idealCut(i)` is the target row
   * `height * (1 / pieces) * i` of the source.
   */
  function BreakDownOf(par: Zone, words: seq<Word>, pieces: int, idealCut: int -> real): (r: Result<seq<Zone>>)
    ensures pieces < 2 ==> r == Failure(IllegalArgument)
    ensures r.Success? ==> 1 <= |r.value| <= pieces && forall i :: 0 <= i < |r.value| ==> r.value[i].kind == Paragraph
    ensures r.Success? && |r.value| > 1 ==> Tiles(par.rect, r.value)
    ensures r.Success? && |r.value| == 1 ==> r.value[0].rect == par.rect
  {
    if pieces < 2 then Failure(IllegalArgument)
    else
      match BreakDownCuts(Adjustments(par.rect, words, idealCut), par.rect.height, pieces)
      case Failure(e) => Failure(e)
      case Success(cuts) => PiecesFromCuts(par, cuts)
  }

  /** `Paragraph.breakDown(pieces)`: the loop over the targets, then the split. */
  method BreakDown(par: Zone, words: seq<Word>, pieces: int, idealCut: int -> real) returns (r: Result<seq<Zone>>)
    ensures r == BreakDownOf(par, words, pieces, idealCut)
  {
    if pieces < 2 {
      return Failure(IllegalArgument);
    }
    ghost var adjustments := Adjustments(par.rect, words, idealCut);
    var cuts: seq<int> := [];
    for i := 1 to pieces
      invariant BreakDownCuts(adjustments, par.rect.height, i) == Success(cuts)
    {
      var adjusted := AdjustCutY(par.rect, words, idealCut(i));
      assert adjustments(i) == adjusted;
      if adjusted.Failure? {
        BreakDownFails(par, words, pieces, idealCut, i, cuts);
        return Failure(adjusted.error);
      }
      BreakDownCutsStep(adjustments, par.rect.height, i, cuts);
      var yCut := adjusted.value;
      if IsValidCutToAdd(yCut, cuts, par.rect.height) {
        cuts := cuts + [yCut];
      }
    }
    BreakDownOfCuts(par, words, pieces, idealCut, cuts);
    if |cuts| < 1 {
      r := Success([Zone(Paragraph, par.rect)]);
    } else {
      r := SlicesOf(par, cuts, Paragraph);
    }
  }

  /** After the loop, `breakDown` splits the paragraph at the cuts it kept. */
  lemma BreakDownOfCuts(par: Zone, words: seq<Word>, pieces: int, idealCut: int -> real, cuts: seq<int>)
    requires pieces >= 2 && BreakDownCuts(Adjustments(par.rect, words, idealCut), par.rect.height, pieces) == Success(cuts)
    ensures BreakDownOf(par, words, pieces, idealCut) ==
      if |cuts| < 1 then Success([Zone(Paragraph, par.rect)]) else SlicesOf(par, cuts, Paragraph)
  {
  }

  /** A failing adjustment makes the whole `breakDown` throw its error. */
  lemma BreakDownFails(par: Zone, words: seq<Word>, pieces: int, idealCut: int -> real, i: nat, cuts: seq<int>)
    requires 1 <= i < pieces && BreakDownCuts(Adjustments(par.rect, words, idealCut), par.rect.height, i) == Success(cuts)
    requires AdjustCutY(par.rect, words, idealCut(i)).Failure?
    ensures BreakDownOf(par, words, pieces, idealCut) == Failure(AdjustCutY(par.rect, words, idealCut(i)).error)
  {
    var adjustments := Adjustments(par.rect, words, idealCut);
    assert adjustments(i) == AdjustCutY(par.rect, words, idealCut(i));
    BreakDownCutsFailFrom(adjustments, par.rect.height, i, cuts, pieces);
    BreakDownOfFailure(par, words, pieces, idealCut);
  }

  lemma BreakDownOfFailure(par: Zone, words: seq<Word>, pieces: int, idealCut: int -> real)
    requires pieces >= 2 && BreakDownCuts(Adjustments(par.rect, words, idealCut), par.rect.height, pieces).Failure?
    ensures BreakDownOf(par, words, pieces, idealCut)
         == Failure(BreakDownCuts(Adjustments(par.rect, words, idealCut), par.rect.height, pieces).error)
  {
  }

  /** A failing adjustment at target `i` is the error of every later prefix. */
  lemma {:induction false} BreakDownCutsFailFrom(adjusted: int -> Result<int>, height: int, i: nat, cuts: seq<int>, m: nat)
    requires 1 <= i < m && BreakDownCuts(adjusted, height, i) == Success(cuts)
    requires adjusted(i).Failure?
    ensures BreakDownCuts(adjusted, height, m) == Failure(adjusted(i).error)
    decreases m
  {
    if m > i + 1 {
      BreakDownCutsFailFrom(adjusted, height, i, cuts, m - 1);
    }
  }

  lemma BreakDownCutsStep(adjusted: int -> Result<int>, height: int, i: nat, cuts: seq<int>)
    requires 1 <= i && BreakDownCuts(adjusted, height, i) == Success(cuts)
    requires adjusted(i).Success?
    ensures var c := adjusted(i).value;
      BreakDownCuts(adjusted, height, i + 1) ==
        if IsValidCutToAdd(c, cuts, height) then Success(cuts + [c]) else Success(cuts)
  {
  }

  /**
   * When every target adjusts and the paragraph is at least 20 pixels tall,
   * `breakDown` returns between 1 and `pieces` paragraphs covering it.
   */
  lemma BreakDownSucceeds(par: Zone, words: seq<Word>, pieces: int, idealCut: int -> real)
    requires pieces >= 2 && par.rect.height >= 20
    requires forall i :: 1 <= i < pieces ==> AdjustCutY(par.rect, words, idealCut(i)).Success?
    ensures BreakDownOf(par, words, pieces, idealCut).Success?
  {
    BreakDownCutsSucceed(Adjustments(par.rect, words, idealCut), par.rect.height, pieces);
  }

  lemma {:induction false} BreakDownCutsSucceed(adjusted: int -> Result<int>, height: int, n: nat)
    requires forall i :: 1 <= i < n ==> adjusted(i).Success?
    ensures BreakDownCuts(adjusted, height, n).Success?
    decreases n
  {
    if n > 1 {
      BreakDownCutsSucceed(adjusted, height, n - 1);
    }
  }
}

=== FILE: predicates.dfy ===
/**
 * The two grouping predicates handed to the Aggregator: words on the same
 * line (SameLinePredicate) and lines of the same text block
 * (SameTextBlockPredicate).
 */
module GroupPredicates {
  import opened Geometry
  import opened TextZones
  import opened Words
  import opened WordsContainers

  /**
   * `SameLinePredicate.test`: an empty group accepts any word; otherwise
   * only the last word added is consulted, and both boxes, widened by 20%
   * of their width on each side, must overlap with positive area.
   */
  predicate SameLine(w: Word, group: seq<Word>) {
    if group == [] then true
    else Intersects(WidthExpanded(w.rect), WidthExpanded(group[|group| - 1].rect))
  }

  /** Only the last member of the group matters. */
  lemma SameLineLastOnly(w: Word, group: seq<Word>)
    requires group != []
    ensures SameLine(w, group) == SameLine(w, [group[|group| - 1]])
  {
  }

  /** Being on the same line as a single word is symmetric. */
  lemma SameLineSymmetric(a: Word, b: Word)
    ensures SameLine(a, [b]) == SameLine(b, [a])
  {
  }

  /**
   * Two boxes are on the same line when both have an area, their rows
   * overlap, and the horizontal gap between them, either way, is below the
   * sum of a fifth of each width.
   */
  lemma SameLineMeaning(w: Word, o: Word)
    requires w.rect.width >= 0 && o.rect.width >= 0
    ensures SameLine(w, [o]) <==>
      && w.rect.width > 0 && o.rect.width > 0 && w.rect.height > 0 && o.rect.height > 0
      && w.rect.y < Y2(o.rect) && o.rect.y < Y2(w.rect)
      && o.rect.x - X2(w.rect) < w.rect.width / 5 + o.rect.width / 5
      && w.rect.x - X2(o.rect) < w.rect.width / 5 + o.rect.width / 5
  {
    var ew := WidthExpanded(w.rect);
    var eo := WidthExpanded(o.rect);
    assert X2(ew) == X2(w.rect) + w.rect.width / 5 && ew.width == w.rect.width + 2 * (w.rect.width / 5);
    assert X2(eo) == X2(o.rect) + o.rect.width / 5 && eo.width == o.rect.width + 2 * (o.rect.width / 5);
  }

  /** `SameTextBlockPredicate.PERCENT`. */
  const Percent: real := 0.6

  /**
   * `group.stream().max(comparingInt(TextZone::getY2))`: the member reaching
   * lowest on the page, the first one on ties.
   */
  function Lowest(group: seq<Zone>): (k: nat)
    requires group != []
    ensures k < |group|
    ensures forall j :: 0 <= j < |group| ==> Y2(group[j].rect) <= Y2(group[k].rect)
    ensures forall j :: 0 <= j < k ==> Y2(group[j].rect) < Y2(group[k].rect)
    decreases |group|
  {
    if |group| == 1 then 0
    else
      var k := Lowest(group[..|group| - 1]);
      if Y2(group[|group| - 1].rect) > Y2(group[k].rect) then |group| - 1 else k
  }

  /**
   * `SameTextBlockPredicate.test`: an empty group accepts any line;
   * otherwise the 60% down-rectangle of the group's lowest line must
   * overlap the 60% up-rectangle of the candidate line with positive area.
   * The strips scale the tallest word inside each line, taken from the
   * page words.
   */
  predicate SameTextBlock(words: seq<Word>, line: Zone, group: seq<Zone>) {
    if group == [] then true
    else Intersects(DownRectangle(group[Lowest(group)].rect, words, Percent), UpRectangle(line.rect, words, Percent))
  }

  /**
   * A line joins a group when it starts strictly below the group's lowest
   * line, the two share columns, and the vertical gap is shorter than the
   * two strips together.
   */
  lemma SameTextBlockMeaning(words: seq<Word>, line: Zone, group: seq<Zone>)
    requires group != []
    ensures var low := group[Lowest(group)].rect;
      var dd := DeltaHeight(low, words, Percent);
      var ud := DeltaHeight(line.rect, words, Percent);
      SameTextBlock(words, line, group) <==>
        && low.width > 0 && line.rect.width > 0 && dd > 0 && ud > 0
        && low.x < X2(line.rect) && line.rect.x < X2(low)
        && Y2(low) < line.rect.y < Y2(low) + dd + ud
  {
  }

  /** A line that touches or overlaps the lowest line of the group never joins it: overlap must have positive area. */
  lemma TouchingLineStartsNewBlock(words: seq<Word>, line: Zone, group: seq<Zone>)
    requires group != [] && line.rect.y <= Y2(group[Lowest(group)].rect)
    ensures !SameTextBlock(words, line, group)
  {
    SameTextBlockMeaning(words, line, group);
  }
}

=== FILE: request_config.dfy ===
/**
 * The configuration of a conversion request: where the PDF comes from,
 * the page range, whether to straighten the pages and the render quality,
 * with the validation run before a conversion starts.
 */
module RequestConfigs {
  import opened Wrappers

  type Byte = bv8

  const MinPageMessage: string := "minPage can not be < 0"
  const PageRangeMessage: string := "minPage must be <= maxPage"
  const QualityMessage: string := "quality must be [0.5f-1f]"
  const NoDataMessage: string := "No data provided"

  /** The builder's defaults for the fields a request leaves unset. */
  const DefaultMinPage: int := 1
  const DefaultCorrectAngle: bool := true
  const DefaultQuality: real := 1.0

  /** A page range that starts at page 1 or later and, when bounded, is not empty. */
  predicate PageRangeValid(minPage: int, maxPage: Option<int>) {
    minPage > 0 && (maxPage.Some? ==> minPage <= maxPage.value)
  }

  /** The quality interval [0.5, 1] the error message names. */
  predicate QualityValid(quality: real) {
    0.5 <= quality <= 1.0
  }

  /** What a request must satisfy before it can be converted. */
  predicate ConfigValid(minPage: int, maxPage: Option<int>, quality: real, hasData: bool, hasFile: bool) {
    PageRangeValid(minPage, maxPage) && QualityValid(quality) && (hasData || hasFile)
  }

  /**
   * The checks of `validate` as written: the quality test joins its two
   * bounds with `&&`, so no quality can fail it and any quality passes.
   */
  function ValidationErrorAsWritten(minPage: int, maxPage: Option<int>, quality: real, hasData: bool, hasFile: bool): (e: Option<string>)
    ensures e != Some(QualityMessage)
    ensures e.None? <==> PageRangeValid(minPage, maxPage) && (hasData || hasFile)
  {
    if minPage <= 0 then Some(MinPageMessage)
    else if maxPage.Some? && minPage > maxPage.value then Some(PageRangeMessage)
    else if quality <= 0.5 && quality > 1.0 then Some(QualityMessage)
    else if !hasData && !hasFile then Some(NoDataMessage)
    else None
  }

  /**
   * The checks of `validate` with the quality test rejecting what lies
   * outside [0.5, 1]: the first failing check names the error, and no
   * error means the request is valid.
   */
  function ValidationError(minPage: int, maxPage: Option<int>, quality: real, hasData: bool, hasFile: bool): (e: Option<string>)
    ensures e.None? <==> ConfigValid(minPage, maxPage, quality, hasData, hasFile)
    ensures e.Some? ==> e.value in {MinPageMessage, PageRangeMessage, QualityMessage, NoDataMessage}
    ensures minPage <= 0 ==> e == Some(MinPageMessage)
    ensures PageRangeValid(minPage, maxPage) && !QualityValid(quality) ==> e == Some(QualityMessage)
    ensures PageRangeValid(minPage, maxPage) && QualityValid(quality) && !hasData && !hasFile ==> e == Some(NoDataMessage)
  {
    if minPage <= 0 then Some(MinPageMessage)
    else if maxPage.Some? && minPage > maxPage.value then Some(PageRangeMessage)
    else if quality < 0.5 || quality > 1.0 then Some(QualityMessage)
    else if !hasData && !hasFile then Some(NoDataMessage)
    else None
  }

  /** The written check accepts a quality of 2, which the corrected one rejects. */
  lemma QualityTwoSlipsThrough()
    ensures ValidationErrorAsWritten(1, None, 2.0, true, false) == None
    ensures ValidationError(1, None, 2.0, true, false) == Some(QualityMessage)
  {
  }

  /** The two versions differ only on a quality outside [0.5, 1]. */
  lemma AsWrittenAgreesOnValidQuality(minPage: int, maxPage: Option<int>, quality: real, hasData: bool, hasFile: bool)
    requires QualityValid(quality)
    ensures ValidationErrorAsWritten(minPage, maxPage, quality, hasData, hasFile)
         == ValidationError(minPage, maxPage, quality, hasData, hasFile)
  {
  }

  class RequestConfig {
    /** The PDF given as bytes, if any. */
    var pdfData: Option<seq<Byte>>
    /** The PDF given as a file path, if any. */
    var pdfFile: Option<string>
    var minPage: int
    var maxPage: Option<int>
    var correctAngle: bool
    var quality: real
    /** Set by `validate` only, to the message of the first failed check. */
    var errorDescription: Option<string>

    /** The builder: the given sources and upper page bound, and the defaults for the rest. */
    constructor (pdfData: Option<seq<Byte>>, pdfFile: Option<string>, maxPage: Option<int>)
      ensures this.pdfData == pdfData && this.pdfFile == pdfFile && this.maxPage == maxPage
      ensures minPage == DefaultMinPage && correctAngle == DefaultCorrectAngle && quality == DefaultQuality
      ensures errorDescription == None
      ensures Error() == None <==> (pdfData.Some? || pdfFile.Some?) && (maxPage.Some? ==> maxPage.value >= 1)
    {
      this.pdfData := pdfData;
      this.pdfFile := pdfFile;
      this.maxPage := maxPage;
      minPage := DefaultMinPage;
      correctAngle := DefaultCorrectAngle;
      quality := DefaultQuality;
      errorDescription := None;
    }

    /** `isFile`. */
    function IsFile(): (b: bool)
      reads this
      ensures b <==> pdfFile != None
    {
      pdfFile.Some?
    }

    /** `isByteArray`. */
    function IsByteArray(): (b: bool)
      reads this
      ensures b <==> pdfData != None
    {
      pdfData.Some?
    }

    /** The error `validate` reports for the current fields, if any. */
    function Error(): (e: Option<string>)
      reads this
      ensures e.None? <==> ConfigValid(minPage, maxPage, quality, IsByteArray(), IsFile())
    {
      ValidationError(minPage, maxPage, quality, IsByteArray(), IsFile())
    }

    /**
     * `validate`: the checks run in order and the first that fails records
     * its message; a request that passes them all keeps its description.
     */
    method Validate() returns (ok: bool)
      modifies this
      ensures ok <==> ConfigValid(minPage, maxPage, quality, IsByteArray(), IsFile())
      ensures errorDescription == if ok then old(errorDescription) else old(Error())
      ensures pdfData == old(pdfData) && pdfFile == old(pdfFile) && minPage == old(minPage) && maxPage == old(maxPage)
      ensures correctAngle == old(correctAngle) && quality == old(quality)
    {
      if minPage <= 0 {
        errorDescription := Some(MinPageMessage);
        return false;
      }
      if maxPage.Some? && minPage > maxPage.value {
        errorDescription := Some(PageRangeMessage);
        return false;
      }
      if quality < 0.5 || quality > 1.0 {
        errorDescription := Some(QualityMessage);
        return false;
      }
      if pdfData.None? && pdfFile.None? {
        errorDescription := Some(NoDataMessage);
        return false;
      }
      return true;
    }
  }
}

=== FILE: seqs.dfy ===
/**
 * Sequence operations that the Java streams of the layout engine perform:
 * `filter`, `flatMap`, `min`/`max` and the stable `List.sort`.
 */
module Seqs {
  /** `stream().filter(p).collect(toList())`: the elements satisfying `p`, in order. */
  function Filter<T>(s: seq<T>, p: T -> bool): (r: seq<T>)
    ensures |r| <= |s|
    ensures forall i :: 0 <= i < |r| ==> p(r[i]) && r[i] in s
    decreases |s|
  {
    if s == [] then []
    else Filter(s[..|s| - 1], p) + (if p(s[|s| - 1]) then [s[|s| - 1]] else [])
  }

  /** Filtering keeps exactly the elements that satisfy the predicate. */
  lemma {:induction false} FilterMembership<T>(s: seq<T>, p: T -> bool)
    ensures forall x :: x in Filter(s, p) <==> x in s && p(x)
    decreases |s|
  {
    if s != [] {
      FilterMembership(s[..|s| - 1], p);
      assert s == s[..|s| - 1] + [s[|s| - 1]];
    }
  }

  /** Nothing passes the filter when no element satisfies the predicate. */
  lemma {:induction false} FilterNone<T>(s: seq<T>, p: T -> bool)
    requires forall x :: x in s ==> !p(x)
    ensures Filter(s, p) == []
    decreases |s|
  {
    if s != [] {
      FilterNone(s[..|s| - 1], p);
    }
  }

  /** An element that passes the filter sits at some position of the filtered list. */
  lemma FilterIndex<T>(s: seq<T>, p: T -> bool, x: T) returns (j: nat)
    requires x in s && p(x)
    ensures j < |Filter(s, p)| && Filter(s, p)[j] == x
  {
    FilterMembership(s, p);
    j :| 0 <= j < |Filter(s, p)| && Filter(s, p)[j] == x;
  }

  /** Filtering distributes over concatenation, so it keeps the order of the input. */
  lemma {:induction false} FilterAppend<T>(a: seq<T>, b: seq<T>, p: T -> bool)
    ensures Filter(a + b, p) == Filter(a, p) + Filter(b, p)
    decreases |b|
  {
    if b == [] {
      assert a + b == a;
    } else {
      var b' := b[..|b| - 1];
      assert (a + b)[..|a + b| - 1] == a + b';
      FilterAppend(a, b', p);
    }
  }

  /** `flatMap` over a list of lists: the concatenation of the inner lists. */
  function Flatten<T>(ss: seq<seq<T>>): (r: seq<T>)
    decreases |ss|
  {
    if ss == [] then [] else Flatten(ss[..|ss| - 1]) + ss[|ss| - 1]
  }

  lemma {:induction false} FlattenAppend<T>(a: seq<seq<T>>, b: seq<seq<T>>)
    ensures Flatten(a + b) == Flatten(a) + Flatten(b)
    decreases |b|
  {
    if b == [] {
      assert a + b == a;
    } else {
      var b' := b[..|b| - 1];
      assert (a + b)[..|a + b| - 1] == a + b';
      calc {
        Flatten(a + b);
        { FlattenLast(a + b); }
        Flatten(a + b') + b[|b| - 1];
        { FlattenAppend(a, b'); }
        Flatten(a) + Flatten(b') + b[|b| - 1];
        { FlattenLast(b); }
        Flatten(a) + Flatten(b);
      }
    }
  }

  /** Appending `x` to one inner list adds exactly one `x` to the flattened elements. */
  lemma {:induction false} FlattenUpdateAppend<T>(s: seq<seq<T>>, k: nat, x: T)
    requires k < |s|
    ensures multiset(Flatten(s[k := s[k] + [x]])) == multiset(Flatten(s)) + multiset{x}
  {
    var pre, post := s[..k], s[k + 1..];
    assert s == pre + [s[k]] + post;
    assert s[k := s[k] + [x]] == pre + [s[k] + [x]] + post;
    FlattenAround(pre, s[k], post);
    FlattenAround(pre, s[k] + [x], post);
    calc {
      multiset(Flatten(pre + [s[k] + [x]] + post));
      multiset(Flatten(pre) + (s[k] + [x]) + Flatten(post));
      multiset(Flatten(pre)) + multiset(s[k]) + multiset{x} + multiset(Flatten(post));
      multiset(Flatten(pre) + s[k] + Flatten(post)) + multiset{x};
    }
  }

  /** The inner list at one position is flattened between what comes before and after it. */
  lemma FlattenAround<T>(pre: seq<seq<T>>, y: seq<T>, post: seq<seq<T>>)
    ensures Flatten(pre + [y] + post) == Flatten(pre) + y + Flatten(post)
  {
    FlattenAppend(pre + [y], post);
    FlattenAppend(pre, [y]);
    assert Flatten([y]) == Flatten([y][..0]) + y;
    assert [y][..0] == [];
  }

  lemma FlattenLast<T>(s: seq<seq<T>>)
    requires s != []
    ensures Flatten(s) == Flatten(s[..|s| - 1]) + s[|s| - 1]
  {
  }

  /** An element of a flattened list sits at some position of some inner list. */
  lemma {:induction false} InFlatten<T>(ss: seq<seq<T>>, x: T) returns (g: nat, k: nat)
    requires x in Flatten(ss)
    ensures g < |ss| && k < |ss[g]| && ss[g][k] == x
    decreases |ss|
  {
    var n := |ss| - 1;
    if x in ss[n] {
      g := n;
      k :| 0 <= k < |ss[n]| && ss[n][k] == x;
    } else {
      g, k := InFlatten(ss[..n], x);
    }
  }

  predicate Distinct<T(==)>(s: seq<T>) {
    forall i, j :: 0 <= i < j < |s| ==> s[i] != s[j]
  }

  /** `new HashSet<>(list)`: the elements of a list. */
  function Elements<T>(s: seq<T>): set<T> {
    set x | x in s
  }

  /**
   * Java detects duplicates by comparing the size of a `HashSet` built from
   * a list with the size of the list: the two agree exactly when the list
   * has no duplicates.
   */
  lemma {:induction false} SetSizeIffDistinct<T>(s: seq<T>)
    ensures |Elements(s)| == |s| <==> Distinct(s)
    ensures |Elements(s)| <= |s|
    decreases |s|
  {
    if s != [] {
      var s' := s[..|s| - 1];
      var y := s[|s| - 1];
      SetSizeIffDistinct(s');
      assert s == s' + [y];
      var before := Elements(s');
      var after := Elements(s);
      assert after == before + {y};
      if y in s' {
        assert after == before;
        var k :| 0 <= k < |s'| && s'[k] == y;
        assert s[k] == s[|s| - 1];
      } else {
        assert y !in before;
        assert |after| == |before| + 1;
        if Distinct(s') {
          forall i, j | 0 <= i < j < |s|
            ensures s[i] != s[j]
          {
            if j == |s| - 1 {
              assert s[i] == s'[i];
            } else {
              assert s[i] == s'[i] && s[j] == s'[j];
            }
          }
        } else {
          var i, j :| 0 <= i < j < |s'| && s'[i] == s'[j];
          assert s[i] == s[j];
        }
      }
    }
  }

  /** The smallest element; `IntStream.min` / `Collections.min`. */
  function MinOf(s: seq<int>): (m: int)
    requires |s| > 0
    ensures forall i :: 0 <= i < |s| ==> m <= s[i]
    ensures exists i :: 0 <= i < |s| && m == s[i]
    decreases |s|
  {
    if |s| == 1 then s[0]
    else
      var m' := MinOf(s[..|s| - 1]);
      if s[|s| - 1] < m' then s[|s| - 1] else m'
  }

  /** The largest element; `IntStream.max` / `Collections.max`. */
  function MaxOf(s: seq<int>): (m: int)
    requires |s| > 0
    ensures forall i :: 0 <= i < |s| ==> s[i] <= m
    ensures exists i :: 0 <= i < |s| && m == s[i]
    decreases |s|
  {
    if |s| == 1 then s[0]
    else
      var m' := MaxOf(s[..|s| - 1]);
      if s[|s| - 1] > m' then s[|s| - 1] else m'
  }

  predicate SortedBy<T>(s: seq<T>, key: T -> int) {
    forall i, j :: 0 <= i < j < |s| ==> key(s[i]) <= key(s[j])
  }

  predicate StrictlyIncreasing(s: seq<int>) {
    forall i, j :: 0 <= i < j < |s| ==> s[i] < s[j]
  }

  function Id(x: int): int { x }

  /** The test "has key k", used to state stability. */
  function KeyIs<T>(key: T -> int, k: int): T -> bool {
    x => key(x) == k
  }

  /** Inserts `x` after every element whose key is not larger: the step of a stable insertion sort. */
  function InsertBy<T(==)>(t: seq<T>, x: T, key: T -> int): (r: seq<T>)
    ensures multiset(r) == multiset(t) + multiset{x}
    ensures |r| == |t| + 1
    decreases |t|
  {
    if t == [] || key(t[|t| - 1]) <= key(x) then t + [x]
    else
      assert t == t[..|t| - 1] + [t[|t| - 1]];
      InsertBy(t[..|t| - 1], x, key) + [t[|t| - 1]]
  }

  lemma {:induction false} InsertBySorted<T>(t: seq<T>, x: T, key: T -> int)
    requires SortedBy(t, key)
    ensures SortedBy(InsertBy(t, x, key), key)
    decreases |t|
  {
    if t == [] || key(t[|t| - 1]) <= key(x) {
      SortedAppend(t, x, key);
    } else {
      var t', last := t[..|t| - 1], t[|t| - 1];
      InsertBySorted(t', x, key);
      var r' := InsertBy(t', x, key);
      forall i | 0 <= i < |r'|
        ensures key(r'[i]) <= key(last)
      {
        InsertByElement(t', x, key, i);
        if r'[i] != x {
          var k :| 0 <= k < |t'| && t'[k] == r'[i];
          assert t[k] == t'[k];
        }
      }
      SortedAppend(r', last, key);
    }
  }

  /** An element of `InsertBy(t, x, key)` is `x` or an element of `t`. */
  lemma InsertByElement<T>(t: seq<T>, x: T, key: T -> int, i: int)
    requires 0 <= i < |InsertBy(t, x, key)|
    ensures InsertBy(t, x, key)[i] == x || exists k :: 0 <= k < |t| && t[k] == InsertBy(t, x, key)[i]
  {
    var r := InsertBy(t, x, key);
    assert r[i] in multiset(r);
    assert r[i] in multiset(t) + multiset{x};
    if r[i] != x {
      assert r[i] in t;
    }
  }

  lemma SortedAppend<T>(s: seq<T>, y: T, key: T -> int)
    requires SortedBy(s, key)
    requires forall i :: 0 <= i < |s| ==> key(s[i]) <= key(y)
    ensures SortedBy(s + [y], key)
  {
  }

  /**
   * `List.sort(Comparator.comparingInt(key))`: Java's list sort is a stable
   * merge sort; a stable insertion sort computes the same list.
   */
  function SortBy<T(==)>(s: seq<T>, key: T -> int): (r: seq<T>)
    ensures SortedBy(r, key)
    ensures multiset(r) == multiset(s)
    ensures |r| == |s|
    decreases |s|
  {
    if s == [] then []
    else
      assert s == s[..|s| - 1] + [s[|s| - 1]];
      InsertBySorted(SortBy(s[..|s| - 1], key), s[|s| - 1], key);
      InsertBy(SortBy(s[..|s| - 1], key), s[|s| - 1], key)
  }

  lemma {:induction false} InsertByStable<T>(t: seq<T>, x: T, key: T -> int, k: int)
    ensures Filter(InsertBy(t, x, key), KeyIs(key, k))
         == Filter(t, KeyIs(key, k)) + Filter([x], KeyIs(key, k))
    decreases |t|
  {
    var p := KeyIs(key, k);
    if t == [] || key(t[|t| - 1]) <= key(x) {
      FilterAppend(t, [x], p);
    } else {
      var t', last := t[..|t| - 1], t[|t| - 1];
      assert Filter([x], p) == [] || Filter([last], p) == [];
      calc {
        Filter(InsertBy(t, x, key), p);
        { InsertByPassesLast(t, x, key); }
        Filter(InsertBy(t', x, key) + [last], p);
        { FilterAppend(InsertBy(t', x, key), [last], p); }
        Filter(InsertBy(t', x, key), p) + Filter([last], p);
        { InsertByStable(t', x, key, k); }
        Filter(t', p) + Filter([x], p) + Filter([last], p);
        Filter(t', p) + Filter([last], p) + Filter([x], p);
        { FilterAppend(t', [last], p); assert t == t' + [last]; }
        Filter(t, p) + Filter([x], p);
      }
    }
  }

  /** `x` goes before a last element with a larger key. */
  lemma InsertByPassesLast<T>(t: seq<T>, x: T, key: T -> int)
    requires t != [] && key(x) < key(t[|t| - 1])
    ensures InsertBy(t, x, key) == InsertBy(t[..|t| - 1], x, key) + [t[|t| - 1]]
  {
  }

  /** Stability: the elements with any one key keep their relative order. */
  lemma {:induction false} SortByStable<T>(s: seq<T>, key: T -> int, k: int)
    ensures Filter(SortBy(s, key), KeyIs(key, k)) == Filter(s, KeyIs(key, k))
    decreases |s|
  {
    if s != [] {
      var s', x, p := s[..|s| - 1], s[|s| - 1], KeyIs(key, k);
      calc {
        Filter(SortBy(s, key), p);
        { SortByStep(s, key); }
        Filter(InsertBy(SortBy(s', key), x, key), p);
        { InsertByStable(SortBy(s', key), x, key, k); }
        Filter(SortBy(s', key), p) + Filter([x], p);
        { SortByStable(s', key, k); }
        Filter(s', p) + Filter([x], p);
        { FilterAppend(s', [x], p); assert s == s' + [x]; }
        Filter(s, p);
      }
    }
  }

  /** One step of the insertion sort: the last element goes into the sorted rest. */
  lemma SortByStep<T>(s: seq<T>, key: T -> int)
    requires s != []
    ensures SortBy(s, key) == InsertBy(SortBy(s[..|s| - 1], key), s[|s| - 1], key)
  {
  }

  /** `Collections.sort` of a list of distinct ints gives a strictly increasing list. */
  lemma {:induction false} SortDistinctStrictly(s: seq<int>)
    requires Distinct(s)
    ensures StrictlyIncreasing(SortBy(s, Id))
    decreases |s|
  {
    if s != [] {
      var s' := s[..|s| - 1];
      var x := s[|s| - 1];
      assert Distinct(s');
      SortDistinctStrictly(s');
      var t := SortBy(s', Id);
      assert x !in s';
      assert x !in t by {
        assert multiset(t) == multiset(s');
        assert x !in multiset(s');
        assert x !in multiset(t);
      }
      InsertKeepsStrict(t, x);
      assert s == s' + [x];
    }
  }

  lemma {:induction false} InsertKeepsStrict(t: seq<int>, x: int)
    requires StrictlyIncreasing(t) && x !in t
    ensures StrictlyIncreasing(InsertBy(t, x, Id))
    decreases |t|
  {
    if t == [] || t[|t| - 1] <= x {
      if t != [] {
        assert t[|t| - 1] != x;
      }
    } else {
      var t', last := t[..|t| - 1], t[|t| - 1];
      assert x !in t';
      InsertKeepsStrict(t', x);
      var r' := InsertBy(t', x, Id);
      forall i | 0 <= i < |r'|
        ensures r'[i] < last
      {
        InsertByElement(t', x, Id, i);
        if r'[i] != x {
          var k :| 0 <= k < |t'| && t'[k] == r'[i];
          assert t[k] == t'[k];
        }
      }
      assert InsertBy(t, x, Id) == r' + [last];
    }
  }
}

=== FILE: sides.dfy ===
/**
 * The `Side` enum: the four sides of a rectangle in clockwise order, their
 * corners, point sweeps, margin and collision rectangles.
 */
module Sides {
  import opened Wrappers
  import opened Numbers
  import opened Geometry

  /** Declared in this order, so `ordinal()` is 0, 1, 2, 3. */
  datatype Side = Top | Right | Bottom | Left

  /** `Side.values()`. */
  const Values: seq<Side> := [Top, Right, Bottom, Left]

  function Ordinal(s: Side): (i: nat)
    ensures i < |Values| && Values[i] == s
  {
    match s
    case Top => 0
    case Right => 1
    case Bottom => 2
    case Left => 3
  }

  /** `next()`: the following value, wrapping from the last to the first. */
  function Next(s: Side): Side {
    if s == Values[|Values| - 1] then Values[0] else Values[Ordinal(s) + 1]
  }

  /** `previous()`: the preceding value, wrapping from the first to the last. */
  function Previous(s: Side): Side {
    if s == Values[0] then Values[|Values| - 1] else Values[Ordinal(s) - 1]
  }

  /** `next(clockWise)`. */
  function NextDir(s: Side, clockWise: bool): Side {
    if clockWise then Next(s) else Previous(s)
  }

  /** `previous(clockWise)`. */
  function PreviousDir(s: Side, clockWise: bool): Side {
    if clockWise then Previous(s) else Next(s)
  }

  predicate IsHorizontal(s: Side) { s == Top || s == Bottom }

  /** `next` walks TOP, RIGHT, BOTTOM, LEFT and back to TOP; `previous` undoes it. */
  lemma NextPreviousCycle(s: Side)
    ensures Next(Top) == Right && Next(Right) == Bottom && Next(Bottom) == Left && Next(Left) == Top
    ensures Previous(Next(s)) == s && Next(Previous(s)) == s
    ensures Next(Next(Next(Next(s)))) == s
  {
  }

  /** Counter-clockwise stepping is clockwise stepping backwards. */
  lemma DirectionalSteps(s: Side)
    ensures NextDir(s, false) == Previous(s) && PreviousDir(s, false) == Next(s)
    ensures PreviousDir(NextDir(s, true), true) == s && PreviousDir(NextDir(s, false), false) == s
  {
  }

  /** `listAllSides(clockWise)`. */
  function ListAllSides(clockWise: bool): (sides: seq<Side>)
    ensures |sides| == 4 && sides[0] == Top
    ensures forall k :: 0 <= k < 3 ==> sides[k + 1] == NextDir(sides[k], clockWise)
    ensures Top in sides && Right in sides && Bottom in sides && Left in sides
  {
    if clockWise then [Top, Right, Bottom, Left] else [Top, Left, Bottom, Right]
  }

  datatype Color = Red | Blue | Green | Cyan

  /** `getColor()`: the debug colour of a side, distinct for each side. */
  function ColorOf(s: Side): Color {
    match s
    case Left => Red
    case Top => Blue
    case Right => Green
    case Bottom => Cyan
  }

  /** A word's mark identifies the side it was found on. */
  lemma ColorsIdentifySides(s: Side, t: Side)
    ensures ColorOf(s) == ColorOf(t) ==> s == t
  {
  }

  /**
   * `getPoint(zone, side1, side2)`: the corner where the horizontal side
   * `side1` meets the vertical side `side2`; any other pair throws.
   */
  function GetPoint(r: Rect, side1: Side, side2: Side): (p: Result<Point>)
    ensures p.Success? <==> IsHorizontal(side1) && !IsHorizontal(side2)
    ensures p.Failure? ==> p.error == IllegalArgument
    ensures p.Success? ==> p.value.x == (if side2 == Left then r.x else X2(r))
    ensures p.Success? ==> p.value.y == (if side1 == Top then r.y else Y2(r))
  {
    if side1 == Top && side2 == Left then Success(Point(r.x, r.y))
    else if side1 == Top && side2 == Right then Success(Point(X2(r), r.y))
    else if side1 == Bottom && side2 == Right then Success(Point(X2(r), Y2(r)))
    else if side1 == Bottom && side2 == Left then Success(Point(r.x, Y2(r)))
    else Failure(IllegalArgument)
  }

  /** `getAnglesPairs()`: the four (horizontal, vertical) side pairs. */
  function AnglesPairs(): (pairs: seq<(Side, Side)>)
    ensures |pairs| == 4
    ensures forall k :: 0 <= k < |pairs| ==> IsHorizontal(pairs[k].0) && !IsHorizontal(pairs[k].1)
  {
    [(Top, Left), (Top, Right), (Bottom, Right), (Bottom, Left)]
  }

  /** Each angle pair names a distinct corner, so `getPoint` never throws on them. */
  lemma AnglesPairsAreCorners(r: Rect)
    requires r.width > 0 && r.height > 0
    ensures forall k :: 0 <= k < 4 ==> GetPoint(r, AnglesPairs()[k].0, AnglesPairs()[k].1).Success?
    ensures forall k, l :: 0 <= k < l < 4 ==>
      GetPoint(r, AnglesPairs()[k].0, AnglesPairs()[k].1) != GetPoint(r, AnglesPairs()[l].0, AnglesPairs()[l].1)
  {
  }

  /** `getBeginPoint`: the corner this side shares with the previous side in the walking direction. */
  function BeginPoint(r: Rect, s: Side, clockWise: bool): Point {
    var p := if IsHorizontal(s) then GetPoint(r, s, PreviousDir(s, clockWise))
             else GetPoint(r, PreviousDir(s, clockWise), s);
    p.value
  }

  /** `getEndPoint`: the corner this side shares with the next side in the walking direction. */
  function EndPoint(r: Rect, s: Side, clockWise: bool): Point {
    var p := if IsHorizontal(s) then GetPoint(r, s, NextDir(s, clockWise))
             else GetPoint(r, NextDir(s, clockWise), s);
    p.value
  }

  /** `getOppositePoint`: the begin point of the previous side. */
  function OppositePoint(r: Rect, s: Side, clockWise: bool): Point {
    BeginPoint(r, PreviousDir(s, clockWise), clockWise)
  }

  /** Walking the sides in either direction visits the corners as a closed chain. */
  lemma CornersChain(r: Rect, s: Side, clockWise: bool)
    ensures EndPoint(r, s, clockWise) == BeginPoint(r, NextDir(s, clockWise), clockWise)
    ensures OppositePoint(r, s, clockWise) != BeginPoint(r, s, clockWise) || r.width == 0 || r.height == 0
  {
  }

  /** `getDirection(clockWise)`: +1 on TOP and RIGHT and -1 on BOTTOM and LEFT when clockwise, negated otherwise. */
  function Direction(s: Side, clockWise: bool): (d: int)
    ensures d == 1 || d == -1
    ensures d == 1 <==> (clockWise <==> (s == Top || s == Right))
  {
    var i := if clockWise then 1 else -1;
    match s
    case Top => i
    case Right => i
    case Left => -i
    case Bottom => -i
  }

  /** `IntStream.rangeClosed(from, to)`. */
  function RangeClosed(from: int, to: int): (r: seq<int>)
    ensures |r| == if from <= to then to - from + 1 else 0
    ensures forall k :: 0 <= k < |r| ==> r[k] == from + k
  {
    seq(if from <= to then to - from + 1 else 0, k requires 0 <= k => from + k)
  }

  function Reverse<T>(s: seq<T>): (r: seq<T>)
    ensures |r| == |s|
    ensures forall k :: 0 <= k < |s| ==> r[k] == s[|s| - 1 - k]
  {
    seq(|s|, k requires 0 <= k < |s| => s[|s| - 1 - k])
  }

  /**
   * `getPoints(zone, clockWise)`: every integer point of the side between
   * its two corners, x varying on horizontal sides and y on vertical ones,
   * listed backwards when the direction is negative.
   */
  function Points(r: Rect, s: Side, clockWise: bool): seq<Point> {
    var b := BeginPoint(r, s, clockWise);
    var e := EndPoint(r, s, clockWise);
    var points :=
      if IsHorizontal(s) then
        var xs := RangeClosed(Min(b.x, e.x), Max(b.x, e.x));
        seq(|xs|, k requires 0 <= k < |xs| => Point(xs[k], b.y))
      else
        var ys := RangeClosed(Min(b.y, e.y), Max(b.y, e.y));
        seq(|ys|, k requires 0 <= k < |ys| => Point(b.x, ys[k]));
    if Direction(s, clockWise) < 0 then Reverse(points) else points
  }

  /**
   * On a rectangle of non-negative size the sweep starts at the begin
   * corner, ends at the end corner and moves one pixel at a time in the
   * side's direction.
   */
  lemma PointsSweepTheSide(r: Rect, s: Side, clockWise: bool)
    requires r.width >= 0 && r.height >= 0
    ensures var ps := Points(r, s, clockWise);
      && |ps| == (if IsHorizontal(s) then r.width else r.height) + 1
      && ps[0] == BeginPoint(r, s, clockWise)
      && ps[|ps| - 1] == EndPoint(r, s, clockWise)
      && forall k :: 0 <= k < |ps| - 1 ==>
           if IsHorizontal(s) then ps[k + 1] == Point(ps[k].x + Direction(s, clockWise), ps[k].y)
           else ps[k + 1] == Point(ps[k].x, ps[k].y + Direction(s, clockWise))
  {
    if IsHorizontal(s) {
      HorizontalSweep(r, s, clockWise);
    } else {
      VerticalSweep(r, s, clockWise);
    }
  }

  lemma HorizontalSweep(r: Rect, s: Side, clockWise: bool)
    requires r.width >= 0 && r.height >= 0 && IsHorizontal(s)
    ensures var ps := Points(r, s, clockWise);
      && |ps| == r.width + 1
      && ps[0] == BeginPoint(r, s, clockWise)
      && ps[|ps| - 1] == EndPoint(r, s, clockWise)
      && forall k :: 0 <= k < |ps| - 1 ==> ps[k + 1] == Point(ps[k].x + Direction(s, clockWise), ps[k].y)
  {
  }

  lemma VerticalSweep(r: Rect, s: Side, clockWise: bool)
    requires r.width >= 0 && r.height >= 0 && !IsHorizontal(s)
    ensures var ps := Points(r, s, clockWise);
      && |ps| == r.height + 1
      && ps[0] == BeginPoint(r, s, clockWise)
      && ps[|ps| - 1] == EndPoint(r, s, clockWise)
      && forall k :: 0 <= k < |ps| - 1 ==> ps[k + 1] == Point(ps[k].x, ps[k].y + Direction(s, clockWise))
  {
  }

  /**
   * `getCorrectedCollisionRectangle`: a 2-pixel strip along the left or
   * right edge, the upper half for TOP, the rectangle itself for BOTTOM.
   */
  function CollisionRectangle(s: Side, r: Rect): (c: Rect)
    ensures s == Left ==> c == Rect(r.x, r.y, 2, r.height)
    ensures s == Right ==> X2(c) == X2(r) && c.width == 2 && c.y == r.y && c.height == r.height
    ensures s == Top ==> c.x == r.x && c.y == r.y && c.width == r.width && c.height == TruncDiv(r.height, 2)
    ensures s == Bottom ==> c == r
    ensures r.width >= 2 && r.height >= 0 ==> Contains(r, c)
  {
    match s
    case Left => Rect(r.x, r.y, 2, r.height)
    case Top => Rect(r.x, r.y, r.width, TruncDiv(r.height, 2))
    case Right => Rect(r.x + r.width - 2, r.y, 2, r.height)
    case Bottom => r
  }

  /** `getMarginRectangle`: the strip of thickness 2% (rounded toward zero) along one edge of a width x height area. */
  function MarginRectangle(s: Side, r: Rect): (m: Rect)
    ensures !IsHorizontal(s) ==> m.width == TruncDiv(r.width, 50) && m.height == r.height && m.y == 0
    ensures IsHorizontal(s) ==> m.height == TruncDiv(r.height, 50) && m.width == r.width && m.x == 0
    ensures s == Left ==> m.x == 0
    ensures s == Right ==> X2(m) == r.width
    ensures s == Top ==> m.y == 0
    ensures s == Bottom ==> Y2(m) == r.height
    ensures r.width >= 0 && r.height >= 0 ==> Contains(Rect(0, 0, r.width, r.height), m)
  {
    var mw := TruncDiv(r.width, 50);
    var mh := TruncDiv(r.height, 50);
    match s
    case Left => Rect(0, 0, mw, r.height)
    case Top => Rect(0, 0, r.width, mh)
    case Right => Rect(r.width - mw, 0, mw, r.height)
    case Bottom => Rect(0, r.height - mh, r.width, mh)
  }

  /** `getMarginRectangles`: the margins of the four sides in clockwise order. */
  function MarginRectangles(r: Rect): (ms: seq<Rect>)
    ensures |ms| == 4
    ensures forall k :: 0 <= k < 4 ==> ms[k] == MarginRectangle(ListAllSides(true)[k], r)
  {
    var sides := ListAllSides(true);
    seq(4, k requires 0 <= k < 4 => MarginRectangle(sides[k], r))
  }
}

=== FILE: text_zone.dfy ===
/**
 * TextZone: a rectangle on a page, tagged with its subclass (line, block,
 * paragraph or whitespace band). Zones are values here; Java's
 * `TextZone.equals` compares the class and the rectangle, which is exactly
 * equality of `Zone` values.
 */
module TextZones {
  import opened Wrappers
  import opened Numbers
  import opened Seqs
  import opened Geometry
  import opened Sides

  /** The concrete subclasses of TextZone that the layout engine creates. */
  datatype Kind = TextLine | TextBlock | Paragraph | WhiteSpace

  datatype Zone = Zone(kind: Kind, rect: Rect)

  /** `Page.getRectangle()`: the page image, at the origin. */
  function PageRect(pageWidth: int, pageHeight: int): Rect {
    Rect(0, 0, pageWidth, pageHeight)
  }

  /** `getWidthExpandedRectangle`: grown on the left and on the right by 20% of the width, rounded toward zero. */
  function WidthExpanded(r: Rect): (e: Rect)
    ensures e.y == r.y && e.height == r.height
    ensures r.width >= 0 ==> Contains(e, r) && e.x == r.x - r.width / 5
  {
    Grow(r, TruncDiv(r.width, 5), 0)
  }

  /** `getHeightExpandedRectangle`: grown above and below by 20% of the height, rounded toward zero. */
  function HeightExpanded(r: Rect): (e: Rect)
    ensures e.x == r.x && e.width == r.width
    ensures r.height >= 0 ==> Contains(e, r) && e.y == r.y - r.height / 5
  {
    Grow(r, 0, TruncDiv(r.height, 5))
  }

  /**
   * `isPartiallyIncluded(ref, num/den)`: the overlap with `ref` covers at
   * least the fraction num/den of the zone's own area; false without overlap.
   */
  predicate IsPartiallyIncluded(r: Rect, ref: Rect, num: int, den: int)
    requires den > 0
  {
    match Intersection(r, ref)
    case None => false
    case Some(i) => Area(i) * den >= Area(r) * num
  }

  /** `isMostlyIncludedIn`: at least 80% of the zone lies inside `ref`. */
  predicate IsMostlyIncludedIn(r: Rect, ref: Rect) {
    IsPartiallyIncluded(r, ref, 4, 5)
  }

  /** `isCompletelyIncluded`: 100% of the zone lies inside `ref`. */
  predicate IsCompletelyIncluded(r: Rect, ref: Rect) {
    IsPartiallyIncluded(r, ref, 1, 1)
  }

  /** The 80% test compares the overlap area with the zone's area, and fails without positive overlap. */
  lemma MostlyIncludedMeaning(r: Rect, ref: Rect)
    ensures IsMostlyIncludedIn(r, ref) <==> Intersects(r, ref) && 5 * OverlapArea(r, ref) >= 4 * Area(r)
  {
  }

  lemma ProductDominates(a: int, b: int, c: int, d: int)
    requires 0 < a <= c && 0 < b <= d && a * b >= c * d
    ensures a == c && b == d
  {
  }

  /** Complete inclusion is geometric containment of a non-empty zone. */
  lemma CompletelyIncludedIffContained(r: Rect, ref: Rect)
    ensures IsCompletelyIncluded(r, ref) <==> !IsEmpty(r) && Contains(ref, r)
  {
    match Intersection(r, ref)
    case None =>
    case Some(i) =>
      if Area(i) >= Area(r) {
        ProductDominates(i.width, i.height, r.width, r.height);
      }
      if !IsEmpty(r) && Contains(ref, r) {
        assert i == r;
      }
  }

  /**
   * `TextZone.isValid`: inside the page, wider than 10 pixels and than 1% of
   * the page width, and taller than 3 pixels.
   */
  predicate IsValid(r: Rect, pageWidth: int, pageHeight: int) {
    if !IsCompletelyIncluded(r, PageRect(pageWidth, pageHeight)) then false
    else if r.width <= 10 then false
    else if 100 * r.width < pageWidth then false
    else if r.height <= 3 then false
    else true
  }

  lemma {:induction false} ValidIff(r: Rect, pageWidth: int, pageHeight: int)
    ensures IsValid(r, pageWidth, pageHeight) <==>
      Contains(PageRect(pageWidth, pageHeight), r) && r.width > 10 && 100 * r.width >= pageWidth && r.height > 3
  {
    CompletelyIncludedIffContained(r, PageRect(pageWidth, pageHeight));
  }

  /** `getHorizontalRectangle`: the full-width band of the page on the zone's rows. */
  function HorizontalBand(r: Rect, pageWidth: int): Rect {
    Rect(0, r.y, pageWidth, r.height)
  }

  /**
   * `getControlRectangle(side)`: the strip between the zone and the page
   * edge on that side, on the zone's rows (LEFT, RIGHT) or columns (TOP,
   * BOTTOM). It never overlaps the zone itself.
   */
  function ControlRectangle(r: Rect, side: Side, pageWidth: int, pageHeight: int): (c: Rect)
    ensures side == Left ==> c.x == 0 && X2(c) == r.x && c.y == r.y && Y2(c) == Y2(r)
    ensures side == Right ==> c.x == X2(r) && X2(c) == pageWidth && c.y == r.y && Y2(c) == Y2(r)
    ensures side == Top ==> c.y == 0 && Y2(c) == r.y && c.x == r.x && X2(c) == X2(r)
    ensures side == Bottom ==> c.y == Y2(r) && Y2(c) == pageHeight && c.x == r.x && X2(c) == X2(r)
    ensures !Intersects(c, r) && !Intersects(r, c)
    ensures !IsEmpty(r) && Contains(PageRect(pageWidth, pageHeight), r) ==> Contains(PageRect(pageWidth, pageHeight), c)
  {
    match side
    case Left => Rect(0, r.y, r.x, r.height)
    case Top => Rect(r.x, 0, r.width, r.y)
    case Right => Rect(X2(r), r.y, pageWidth - X2(r), r.height)
    case Bottom => Rect(r.x, Y2(r), r.width, pageHeight - Y2(r))
  }

  /** `mergeWith`: the zone keeps its class and takes the bounding box of both rectangles. */
  function MergeWith(z: Zone, other: Zone): (m: Zone)
    ensures m.kind == z.kind
    ensures Contains(m.rect, z.rect) && Contains(m.rect, other.rect)
  {
    z.(rect := Merge2(z.rect, other.rect))
  }

  // ---------------------------------------------------------------------
  // mergeHorizontally

  /** The index of the first zone that the band intersects, |ms| when none does (`filter(...).findFirst()`). */
  function FirstHit(ms: seq<Zone>, band: Rect): (k: nat)
    ensures k <= |ms|
    ensures k < |ms| ==> Intersects(band, ms[k].rect)
    ensures forall j :: 0 <= j < k ==> !Intersects(band, ms[j].rect)
    decreases |ms|
  {
    if ms == [] then 0
    else if Intersects(band, ms[0].rect) then 0
    else 1 + FirstHit(ms[1..], band)
  }

  /** One step of mergeHorizontally: merge `z` into the first hit, or append it. */
  function Absorb(ms: seq<Zone>, z: Zone, pageWidth: int): seq<Zone> {
    var k := FirstHit(ms, HorizontalBand(z.rect, pageWidth));
    if k < |ms| then ms[k := MergeWith(ms[k], z)] else ms + [z]
  }

  /** The value `TextZone.mergeHorizontally(input)` returns. */
  function MergedHorizontally(input: seq<Zone>, pageWidth: int): seq<Zone>
    decreases |input|
  {
    if input == [] then []
    else Absorb(MergedHorizontally(input[..|input| - 1], pageWidth), input[|input| - 1], pageWidth)
  }

  /** The input positions of the zones that were appended, not merged: the origin of each result zone. */
  function Origins(input: seq<Zone>, pageWidth: int): seq<nat>
    decreases |input|
  {
    if input == [] then []
    else
      var prefix := input[..|input| - 1];
      var ms := MergedHorizontally(prefix, pageWidth);
      var z := input[|input| - 1];
      Origins(prefix, pageWidth)
        + (if FirstHit(ms, HorizontalBand(z.rect, pageWidth)) < |ms| then [] else [|input| - 1])
  }

  /**
   * `os` gives, for each zone of `ms`, the position of the input zone it
   * started from: positions in increasing order, each result zone with the
   * class of its origin and containing it.
   */
  predicate OriginsFit(input: seq<Zone>, ms: seq<Zone>, os: seq<nat>) {
    && |ms| == |os|
    && StrictlyIncreasing(os)
    && (forall j :: 0 <= j < |os| ==> os[j] < |input|)
    && (forall j :: 0 <= j < |ms| ==> ms[j].kind == input[os[j]].kind && Contains(ms[j].rect, input[os[j]].rect))
  }

  /**
   * The shape of the merge: never longer than the input, one result zone
   * per appended input, in the order they first appeared.
   */
  lemma {:induction false} MergedHorizontallyOrigins(input: seq<Zone>, pageWidth: int)
    ensures |MergedHorizontally(input, pageWidth)| <= |input|
    ensures OriginsFit(input, MergedHorizontally(input, pageWidth), Origins(input, pageWidth))
    decreases |input|
  {
    if input != [] {
      MergedHorizontallyOrigins(input[..|input| - 1], pageWidth);
      OriginsStepFits(input, pageWidth);
    }
  }

  /** One more input zone keeps the merge no longer than the input and its origins fitting. */
  lemma OriginsStepFits(input: seq<Zone>, pageWidth: int)
    requires input != []
    requires var prefix := input[..|input| - 1];
      |MergedHorizontally(prefix, pageWidth)| <= |prefix|
      && OriginsFit(prefix, MergedHorizontally(prefix, pageWidth), Origins(prefix, pageWidth))
    ensures |MergedHorizontally(input, pageWidth)| <= |input|
    ensures OriginsFit(input, MergedHorizontally(input, pageWidth), Origins(input, pageWidth))
  {
    var n := |input| - 1;
    var z := input[n];
    var ms' := MergedHorizontally(input[..n], pageWidth);
    var os' := Origins(input[..n], pageWidth);
    var k := FirstHit(ms', HorizontalBand(z.rect, pageWidth));
    MergedHorizontallyStep(input, pageWidth);
    if k < |ms'| {
      MergeStepFits(input, ms', os', k);
    } else {
      AppendStepFits(input, ms', os');
    }
  }

  /** The last input zone is absorbed into the merge of the others, and is an origin exactly when appended. */
  lemma MergedHorizontallyStep(input: seq<Zone>, pageWidth: int)
    requires input != []
    ensures var prefix, z := input[..|input| - 1], input[|input| - 1];
      var ms := MergedHorizontally(prefix, pageWidth);
      var k := FirstHit(ms, HorizontalBand(z.rect, pageWidth));
      && MergedHorizontally(input, pageWidth) == (if k < |ms| then ms[k := MergeWith(ms[k], z)] else ms + [z])
      && Origins(input, pageWidth) == Origins(prefix, pageWidth) + (if k < |ms| then [] else [|input| - 1])
  {
  }

  /** Merging the last input zone into a result zone keeps every origin. */
  lemma MergeStepFits(input: seq<Zone>, ms: seq<Zone>, os: seq<nat>, k: nat)
    requires input != [] && k < |ms|
    requires OriginsFit(input[..|input| - 1], ms, os)
    ensures OriginsFit(input, ms[k := MergeWith(ms[k], input[|input| - 1])], os)
  {
    var next := ms[k := MergeWith(ms[k], input[|input| - 1])];
    forall j | 0 <= j < |next|
      ensures next[j].kind == input[os[j]].kind && Contains(next[j].rect, input[os[j]].rect)
    {
      assert input[os[j]] == input[..|input| - 1][os[j]];
      assert Contains(next[j].rect, ms[j].rect);
    }
  }

  /** Appending the last input zone makes it its own origin. */
  lemma AppendStepFits(input: seq<Zone>, ms: seq<Zone>, os: seq<nat>)
    requires input != []
    requires OriginsFit(input[..|input| - 1], ms, os)
    ensures OriginsFit(input, ms + [input[|input| - 1]], os + [|input| - 1])
  {
    var n := |input| - 1;
    var next := ms + [input[n]];
    var os2 := os + [n];
    forall j | 0 <= j < |next|
      ensures next[j].kind == input[os2[j]].kind && Contains(next[j].rect, input[os2[j]].rect)
    {
      if j < |ms| {
        assert input[os[j]] == input[..n][os[j]];
      }
    }
  }

  function RectsOfZones(zs: seq<Zone>): seq<Rect> {
    seq(|zs|, i requires 0 <= i < |zs| => zs[i].rect)
  }

  /**
   * Each result zone is the bounding box of the input zones it contains:
   * a zone grows only by merging input zones into it.
   */
  lemma {:induction false} MergedHorizontallySpanned(input: seq<Zone>, pageWidth: int)
    ensures ZonesSpanned(MergedHorizontally(input, pageWidth), RectsOfZones(input))
    decreases |input|
  {
    if input != [] {
      var n := |input| - 1;
      var prefix, z := input[..n], input[n];
      MergedHorizontallySpanned(prefix, pageWidth);
      assert RectsOfZones(input) == RectsOfZones(prefix) + [z.rect];
      AbsorbSpanned(MergedHorizontally(prefix, pageWidth), z, pageWidth, RectsOfZones(prefix));
    }
  }

  /** Every zone of `ms` is spanned by `rs`. */
  predicate ZonesSpanned(ms: seq<Zone>, rs: seq<Rect>) {
    forall j :: 0 <= j < |ms| ==> SpannedBy(ms[j].rect, rs)
  }

  /** Merging a zone into a spanned zone, or appending it, keeps every zone spanned once the zone's rectangle is listed. */
  lemma AbsorbSpanned(ms: seq<Zone>, z: Zone, pageWidth: int, rs: seq<Rect>)
    requires ZonesSpanned(ms, rs)
    ensures ZonesSpanned(Absorb(ms, z, pageWidth), rs + [z.rect])
  {
    var all := rs + [z.rect];
    var k := FirstHit(ms, HorizontalBand(z.rect, pageWidth));
    MemberSpanned(all, |rs|);
    forall j | 0 <= j < |ms|
      ensures SpannedBy(ms[j].rect, all)
    {
      SpannedGrows(ms[j].rect, rs, [z.rect]);
    }
    if k < |ms| {
      MergeSpanned(ms[k].rect, z.rect, all);
    }
  }

  /** Every zone of `zs` lies inside some zone of `ms`. */
  predicate EachInside(zs: seq<Zone>, ms: seq<Zone>) {
    forall i :: 0 <= i < |zs| ==> exists j :: 0 <= j < |ms| && Contains(ms[j].rect, zs[i].rect)
  }

  /** Every input zone lies inside some zone of the result. */
  lemma {:induction false} MergedHorizontallyCovers(input: seq<Zone>, pageWidth: int)
    ensures EachInside(input, MergedHorizontally(input, pageWidth))
    decreases |input|
  {
    if input != [] {
      var n := |input| - 1;
      var prefix := input[..n];
      var z := input[n];
      MergedHorizontallyCovers(prefix, pageWidth);
      var ms' := MergedHorizontally(prefix, pageWidth);
      var ms := MergedHorizontally(input, pageWidth);
      assert ms == Absorb(ms', z, pageWidth);
      var k := FirstHit(ms', HorizontalBand(z.rect, pageWidth));
      assert forall j :: 0 <= j < |ms'| ==> Contains(ms[j].rect, ms'[j].rect);
      forall i | 0 <= i < |input|
        ensures exists j :: 0 <= j < |ms| && Contains(ms[j].rect, input[i].rect)
      {
        if i == n {
          var j := if k < |ms'| then k else |ms'|;
          assert Contains(ms[j].rect, z.rect);
        } else {
          assert input[i] == prefix[i];
          var j :| 0 <= j < |ms'| && Contains(ms'[j].rect, prefix[i].rect);
          assert Contains(ms[j].rect, input[i].rect);
        }
      }
      assert EachInside(input, ms);
    }
  }

  /**
   * `TextZone.mergeHorizontally`: each zone is merged into the first zone
   * already kept whose rectangle its full-width band intersects, or kept as
   * a new entry when there is none.
   */
  method MergeHorizontally(input: seq<Zone>, pageWidth: int) returns (merged: seq<Zone>)
    ensures merged == MergedHorizontally(input, pageWidth)
  {
    merged := [];
    for i := 0 to |input|
      invariant merged == MergedHorizontally(input[..i], pageWidth)
    {
      var zoneToMerge := input[i];
      var band := HorizontalBand(zoneToMerge.rect, pageWidth);
      var k := 0;
      while k < |merged| && !Intersects(band, merged[k].rect)
        invariant 0 <= k <= |merged|
        invariant forall j :: 0 <= j < k ==> !Intersects(band, merged[j].rect)
      {
        k := k + 1;
      }
      FirstHitIsFirst(merged, band, k);
      ghost var before := merged;
      if k < |merged| {
        merged := merged[k := MergeWith(merged[k], zoneToMerge)];
      } else {
        merged := merged + [zoneToMerge];
      }
      assert merged == Absorb(before, zoneToMerge, pageWidth);
      assert input[..i + 1][..i] == input[..i];
      assert input[..i + 1][i] == zoneToMerge;
    }
    assert input[..|input|] == input;
  }

  lemma {:induction false} FirstHitIsFirst(ms: seq<Zone>, band: Rect, k: nat)
    requires k <= |ms|
    requires k < |ms| ==> Intersects(band, ms[k].rect)
    requires forall j :: 0 <= j < k ==> !Intersects(band, ms[j].rect)
    ensures FirstHit(ms, band) == k
    decreases |ms|
  {
    if ms != [] && k > 0 {
      FirstHitIsFirst(ms[1..], band, k - 1);
    }
  }

  // ---------------------------------------------------------------------
  // Cuts and slices

  /** `getMinYCutSpacing`: 5% of the height, rounded toward zero. */
  function MinYCutSpacing(height: int): int {
    TruncDiv(height, 20)
  }

  /**
   * `isValidCutToAdd(yCut, yCuts)`: strictly inside the zone, and for every
   * cut already kept, neither that cut nor the zone's bottom is closer than
   * the minimum spacing.
   */
  predicate IsValidCutToAdd(yCut: int, cuts: seq<int>, height: int) {
    var spacing := MinYCutSpacing(height);
    yCut > 0 && yCut < height
      && forall c :: c in cuts ==> !(Abs(yCut - c) < spacing || Abs(yCut - height) < spacing)
  }

  /** The bottom-distance test only applies once a cut has been kept. */
  lemma ValidCutMeaning(yCut: int, cuts: seq<int>, height: int)
    ensures IsValidCutToAdd(yCut, cuts, height) <==>
      && 0 < yCut < height
      && (forall c :: c in cuts ==> Abs(yCut - c) >= MinYCutSpacing(height))
      && (cuts != [] ==> height - yCut >= MinYCutSpacing(height))
  {
    if cuts != [] {
      assert cuts[0] in cuts;
    }
  }

  /** The cuts were kept one by one, each accepted against the ones before it. */
  predicate AcceptedOneByOne(cuts: seq<int>, height: int) {
    forall i :: 0 <= i < |cuts| ==> IsValidCutToAdd(cuts[i], cuts[..i], height)
  }

  /** Kept cuts are pairwise at least the minimum spacing apart and strictly inside the zone. */
  lemma {:induction false} AcceptedCutsAreSpaced(cuts: seq<int>, height: int)
    requires AcceptedOneByOne(cuts, height)
    ensures forall c :: c in cuts ==> 0 < c < height
    ensures forall i, j :: 0 <= i < j < |cuts| ==> Abs(cuts[i] - cuts[j]) >= MinYCutSpacing(height)
  {
    forall i, j | 0 <= i < j < |cuts|
      ensures Abs(cuts[i] - cuts[j]) >= MinYCutSpacing(height)
    {
      assert IsValidCutToAdd(cuts[j], cuts[..j], height);
      assert cuts[i] in cuts[..j];
    }
  }

  /**
   * The ordered bounds of the slices: 0 followed by the cuts, sorted
   * (`yCuts.add(0, 0); sort(yCuts)`).
   */
  function SliceBounds(cuts: seq<int>): seq<int> {
    SortBy([0] + cuts, Id)
  }

  /** `getSliceRectangle(yCut, nextYCut)`: the rows between two relative cuts, on the zone's columns. */
  function SliceRectangle(r: Rect, yCut: int, nextYCut: int): Rect {
    Rect(r.x, yCut + r.y, r.width, nextYCut - yCut)
  }

  /** The i-th slice: from bound i to the next bound, or to the zone's height after the last one. */
  function Slice(z: Zone, bounds: seq<int>, i: nat, kind: Kind): Zone
    requires i < |bounds|
  {
    var next := if i == |bounds| - 1 then z.rect.height else bounds[i + 1];
    Zone(kind, SliceRectangle(z.rect, bounds[i], next))
  }

  /** The cut list `sliceOnY` accepts: non-empty, free of duplicates, every cut strictly inside the zone. */
  predicate GoodCuts(cuts: seq<int>, height: int) {
    |cuts| > 0 && Distinct(cuts) && forall c :: c in cuts ==> 0 < c < height
  }

  /** A list of zones stacked top to bottom without gaps, all on the columns of `r`. */
  predicate Tiles(r: Rect, slices: seq<Zone>) {
    && |slices| > 0
    && slices[0].rect.y == r.y
    && Y2(slices[|slices| - 1].rect) == Y2(r)
    && (forall i :: 0 <= i < |slices| ==> slices[i].rect.x == r.x && slices[i].rect.width == r.width)
    && (forall i :: 0 <= i < |slices| ==> slices[i].rect.height > 0)
    && (forall i :: 0 <= i < |slices| - 1 ==> slices[i + 1].rect.y == Y2(slices[i].rect))
  }

  lemma {:induction false} SliceBoundsFacts(cuts: seq<int>, height: int)
    requires GoodCuts(cuts, height)
    ensures var b := SliceBounds(cuts);
      && |b| == |cuts| + 1
      && StrictlyIncreasing(b)
      && b[0] == 0
      && (forall i :: 0 <= i < |b| ==> 0 <= b[i] < height)
      && (forall c :: c in cuts <==> c in b[1..])
  {
    var s := [0] + cuts;
    assert Distinct(s) by {
      forall i, j | 0 <= i < j < |s|
        ensures s[i] != s[j]
      {
        if i == 0 {
          assert s[j] in cuts;
        } else {
          assert s[i] == cuts[i - 1] && s[j] == cuts[j - 1];
        }
      }
    }
    SortDistinctStrictly(s);
    var b := SliceBounds(cuts);
    BoundsInRange(cuts, height, b);
    BoundsStartAtZero(cuts, height, b);
    BoundsHoldCuts(cuts, height, b);
  }

  lemma BoundsInRange(cuts: seq<int>, height: int, b: seq<int>)
    requires GoodCuts(cuts, height) && multiset(b) == multiset([0] + cuts)
    ensures forall i :: 0 <= i < |b| ==> 0 <= b[i] < height
  {
    assert cuts[0] in cuts;
    assert 0 < cuts[0] < height;
    forall i | 0 <= i < |b|
      ensures 0 <= b[i] < height
    {
      assert b[i] in multiset(b);
      assert b[i] in [0] + cuts;
      assert b[i] == 0 || b[i] in cuts;
    }
  }

  lemma BoundsStartAtZero(cuts: seq<int>, height: int, b: seq<int>)
    requires GoodCuts(cuts, height) && multiset(b) == multiset([0] + cuts) && StrictlyIncreasing(b)
    ensures |b| > 0 && b[0] == 0
  {
    assert 0 in multiset(b);
    var z :| 0 <= z < |b| && b[z] == 0;
    var first := b[0];
    assert first in multiset(b);
    assert first in [0] + cuts;
    assert first <= b[z];
  }

  lemma BoundsHoldCuts(cuts: seq<int>, height: int, b: seq<int>)
    requires GoodCuts(cuts, height) && multiset(b) == multiset([0] + cuts)
    requires StrictlyIncreasing(b) && |b| > 0 && b[0] == 0
    ensures forall c :: c in cuts <==> c in b[1..]
  {
    forall c
      ensures c in cuts <==> c in b[1..]
    {
      if c in cuts {
        assert c in multiset([0] + cuts);
        assert c in b;
        var k :| 0 <= k < |b| && b[k] == c;
        assert k != 0;
        assert b[1..][k - 1] == c;
      }
      if c in b[1..] {
        var k :| 0 <= k < |b[1..]| && b[1..][k] == c;
        assert b[k + 1] == c && c != 0;
        assert c in multiset(b);
        assert c in [0] + cuts;
      }
    }
  }

  /** One slice per bound. */
  function BuildSlices(z: Zone, bounds: seq<int>, kind: Kind): (slices: seq<Zone>)
    ensures |slices| == |bounds|
    ensures forall i :: 0 <= i < |bounds| ==> slices[i] == Slice(z, bounds, i, kind)
  {
    seq(|bounds|, i requires 0 <= i < |bounds| => Slice(z, bounds, i, kind))
  }

  lemma {:induction false} GoodCutsTile(z: Zone, cuts: seq<int>, kind: Kind)
    requires GoodCuts(cuts, z.rect.height)
    ensures var slices := BuildSlices(z, SliceBounds(cuts), kind);
      && |slices| == |cuts| + 1
      && Tiles(z.rect, slices)
      && (forall i :: 0 <= i < |slices| ==> slices[i].kind == kind)
      && (forall c :: c in cuts <==> exists i :: 1 <= i < |slices| && slices[i].rect.y == z.rect.y + c)
  {
    var bounds := SliceBounds(cuts);
    SliceBoundsFacts(cuts, z.rect.height);
    var slices := BuildSlices(z, bounds, kind);
    var n := |slices| - 1;
    assert slices[0].rect.y == z.rect.y;
    assert Y2(slices[n].rect) == Y2(z.rect);
    forall i | 0 <= i < |slices|
      ensures slices[i].rect.height > 0
    {
      if i < n {
        assert bounds[i] < bounds[i + 1];
      }
    }
    forall i | 0 <= i < n
      ensures slices[i + 1].rect.y == Y2(slices[i].rect)
    {
    }
    SlicesStartAtCuts(z, cuts, kind);
  }

  lemma {:induction false} SlicesStartAtCuts(z: Zone, cuts: seq<int>, kind: Kind)
    requires GoodCuts(cuts, z.rect.height)
    ensures var slices := BuildSlices(z, SliceBounds(cuts), kind);
      forall c :: c in cuts <==> exists i :: 1 <= i < |slices| && slices[i].rect.y == z.rect.y + c
  {
    var bounds := SliceBounds(cuts);
    SliceBoundsFacts(cuts, z.rect.height);
    var slices := BuildSlices(z, bounds, kind);
    forall c
      ensures c in cuts <==> exists i :: 1 <= i < |slices| && slices[i].rect.y == z.rect.y + c
    {
      if c in cuts {
        assert c in bounds[1..];
        var k :| 0 <= k < |bounds[1..]| && bounds[1..][k] == c;
        assert slices[k + 1].rect.y == z.rect.y + c;
      }
      if exists i :: 1 <= i < |slices| && slices[i].rect.y == z.rect.y + c {
        var i :| 1 <= i < |slices| && slices[i].rect.y == z.rect.y + c;
        assert bounds[1..][i - 1] == c;
      }
    }
  }

  /**
   * The value `sliceOnY(yCuts)` returns or throws: an IllegalArgument failure
   * unless the cuts are good; otherwise cuts+1 slices that tile the zone
   * from top to bottom, start exactly at the cuts, and carry the given class.
   */
  function SlicesOf(z: Zone, cuts: seq<int>, kind: Kind): (r: Result<seq<Zone>>)
    ensures r.Failure? <==> !GoodCuts(cuts, z.rect.height)
    ensures r.Failure? ==> r.error == IllegalArgument
    ensures r.Success? ==> |r.value| == |cuts| + 1 && Tiles(z.rect, r.value)
    ensures r.Success? ==> forall i :: 0 <= i < |r.value| ==> r.value[i].kind == kind
    ensures r.Success? ==> forall c :: c in cuts <==> exists i :: 1 <= i < |r.value| && r.value[i].rect.y == z.rect.y + c
  {
    SetSizeIffDistinct(cuts);
    if |cuts| == 0 then Failure(IllegalArgument)
    else if |Elements(cuts)| != |cuts| then Failure(IllegalArgument)
    else if exists c :: c in cuts && (c <= 0 || c >= z.rect.height) then Failure(IllegalArgument)
    else
      GoodCutsTile(z, cuts, kind);
      Success(BuildSlices(z, SliceBounds(cuts), kind))
  }

  /** The heights of a list of zones, summed. */
  function SumHeights(zs: seq<Zone>): int
    decreases |zs|
  {
    if zs == [] then 0 else SumHeights(zs[..|zs| - 1]) + zs[|zs| - 1].rect.height
  }

  /** Zones that tile a rectangle have heights that add up to its height. */
  lemma {:induction false} TilingHeightsSum(r: Rect, slices: seq<Zone>)
    requires Tiles(r, slices)
    ensures SumHeights(slices) == r.height
  {
    StackedHeights(slices);
  }

  lemma {:induction false} StackedHeights(zs: seq<Zone>)
    requires |zs| > 0
    requires forall i :: 0 <= i < |zs| - 1 ==> zs[i + 1].rect.y == Y2(zs[i].rect)
    ensures SumHeights(zs) == Y2(zs[|zs| - 1].rect) - zs[0].rect.y
    decreases |zs|
  {
    if |zs| > 1 {
      StackedHeights(zs[..|zs| - 1]);
    }
  }

  /**
   * `TextZone.sliceOnY`: the checks in the source's order, then one slice per
   * bound, the last one reaching the zone's bottom.
   */
  method SliceOnY(z: Zone, cuts: seq<int>, kind: Kind) returns (r: Result<seq<Zone>>)
    ensures r == SlicesOf(z, cuts, kind)
  {
    if |cuts| == 0 {
      return Failure(IllegalArgument);
    }
    SetSizeIffDistinct(cuts);
    if |Elements(cuts)| != |cuts| {
      return Failure(IllegalArgument);
    }
    for k := 0 to |cuts|
      invariant forall j :: 0 <= j < k ==> 0 < cuts[j] < z.rect.height
    {
      if cuts[k] <= 0 || cuts[k] >= z.rect.height {
        assert cuts[k] in cuts;
        return Failure(IllegalArgument);
      }
    }
    var bounds := SliceBounds(cuts);
    var slices: seq<Zone> := [];
    var i := 0;
    while i < |bounds|
      invariant 0 <= i <= |bounds|
      invariant |slices| == i
      invariant forall j :: 0 <= j < i ==> slices[j] == Slice(z, bounds, j, kind)
    {
      var nextYCut;
      if i == |bounds| - 1 {
        nextYCut := z.rect.height;
      } else {
        nextYCut := bounds[i + 1];
      }
      slices := slices + [Zone(kind, SliceRectangle(z.rect, bounds[i], nextYCut))];
      i := i + 1;
    }
    r := Success(slices);
    assert slices == BuildSlices(z, bounds, kind);
  }

  /** Kept cuts of a zone at least 20 pixels tall are always accepted by sliceOnY. */
  lemma {:induction false} AcceptedCutsSlice(z: Zone, cuts: seq<int>, kind: Kind)
    requires AcceptedOneByOne(cuts, z.rect.height) && |cuts| > 0
    requires z.rect.height >= 20
    ensures SlicesOf(z, cuts, kind).Success?
  {
    AcceptedCutsAreSpaced(cuts, z.rect.height);
  }

  /**
   * Below 20 pixels the minimum spacing is 0, so the same cut can be kept
   * twice, and sliceOnY then throws.
   */
  lemma ShortZoneAcceptsDuplicateCut(z: Zone, kind: Kind)
    requires z.rect.height == 19
    ensures AcceptedOneByOne([5, 5], z.rect.height)
    ensures SlicesOf(z, [5, 5], kind) == Failure(IllegalArgument)
  {
    assert [5, 5][..1] == [5];
  }
}

=== FILE: whitespace.dfy ===
/**
 * Page.detectWhiteSpaces: a horizontal scan line sweeps the rows of the
 * page from top to bottom; every change between "crosses a paragraph" and
 * "crosses nothing" records the row, and a free run reaching the bottom is
 * closed at the page height. Consecutive pairs of recorded rows are the
 * white-space bands, each as wide as the page.
 */
module WhiteSpaces {
  import opened Seqs
  import opened Geometry
  import opened TextZones

  /** `textIntersects(scanner)`: the scan line of row `y`, from x = 0 to the page width, meets a paragraph. */
  predicate RowHit(paragraphs: seq<Zone>, width: int, y: int)
    decreases |paragraphs|
  {
    && paragraphs != []
    && (HorizontalSegmentHits(0, width, y, paragraphs[|paragraphs| - 1].rect) || RowHit(paragraphs[..|paragraphs| - 1], width, y))
  }

  /** The scan line of a row meets a paragraph exactly when some paragraph's rectangle is within its reach. */
  lemma {:induction false} RowHitIff(paragraphs: seq<Zone>, width: int, y: int)
    ensures RowHit(paragraphs, width, y) <==> exists i :: 0 <= i < |paragraphs| && HorizontalSegmentHits(0, width, y, paragraphs[i].rect)
    decreases |paragraphs|
  {
    if paragraphs != [] {
      var n := |paragraphs| - 1;
      RowHitIff(paragraphs[..n], width, y);
      if exists i :: 0 <= i < |paragraphs| && HorizontalSegmentHits(0, width, y, paragraphs[i].rect) {
        var i :| 0 <= i < |paragraphs| && HorizontalSegmentHits(0, width, y, paragraphs[i].rect);
        if i < n {
          assert paragraphs[..n][i] == paragraphs[i];
        }
      }
    }
  }

  /** The `isIntersecting` flag before row `y` is scanned: true at the top, then the state of the row above. */
  predicate HitBefore(paragraphs: seq<Zone>, width: int, y: int) {
    y == 0 || RowHit(paragraphs, width, y - 1)
  }

  /** The rows recorded while scanning rows 0 .. n-1: those where the state changes. */
  function Transitions(paragraphs: seq<Zone>, width: int, n: nat): seq<int>
    decreases n
  {
    if n == 0 then []
    else
      var y := n - 1;
      Transitions(paragraphs, width, y)
        + (if RowHit(paragraphs, width, y) != HitBefore(paragraphs, width, y) then [y] else [])
  }

  /** `whiteSpaceCoordinates` after the scan: the transitions, closed by the height when the bottom is free. */
  function Coordinates(paragraphs: seq<Zone>, width: int, height: nat): seq<int> {
    Transitions(paragraphs, width, height) + (if HitBefore(paragraphs, width, height) then [] else [height])
  }

  /** The scan loop of `detectWhiteSpaces`. */
  method ScanTransitions(paragraphs: seq<Zone>, width: int, height: nat) returns (coordinates: seq<int>)
    ensures coordinates == Coordinates(paragraphs, width, height)
  {
    coordinates := [];
    var isIntersecting := true;
    for y := 0 to height
      invariant coordinates == Transitions(paragraphs, width, y)
      invariant isIntersecting == HitBefore(paragraphs, width, y)
    {
      var hit := exists i :: 0 <= i < |paragraphs| && HorizontalSegmentHits(0, width, y, paragraphs[i].rect);
      RowHitIff(paragraphs, width, y);
      if hit {
        if !isIntersecting {
          coordinates := coordinates + [y];
        }
        isIntersecting := true;
      } else {
        if isIntersecting {
          coordinates := coordinates + [y];
        }
        isIntersecting := false;
      }
    }
    if !isIntersecting {
      coordinates := coordinates + [height];
    }
  }

  /** The state of row `y` differs from the row above (the top counts as crossed). */
  predicate Changes(paragraphs: seq<Zone>, width: int, y: int) {
    RowHit(paragraphs, width, y) != HitBefore(paragraphs, width, y)
  }

  predicate Odd(i: int) { i % 2 == 1 }

  /** The recorded rows increase and lie above row `n`. */
  predicate Increasing(t: seq<int>, n: nat) {
    StrictlyIncreasing(t) && forall i :: 0 <= i < |t| ==> 0 <= t[i] < n
  }

  /** Free runs start at even positions, crossed runs at odd ones; the count is even exactly in a crossed run. */
  predicate Alternating(paragraphs: seq<Zone>, width: int, t: seq<int>, n: nat) {
    && (forall i :: 0 <= i < |t| ==> (RowHit(paragraphs, width, t[i]) <==> Odd(i)))
    && (Odd(|t|) <==> !HitBefore(paragraphs, width, n))
  }

  /** A row above `n` is recorded exactly when its state changes. */
  predicate Exact(paragraphs: seq<Zone>, width: int, t: seq<int>, n: nat) {
    forall y :: 0 <= y < n ==> (y in t <==> Changes(paragraphs, width, y))
  }

  lemma {:induction false} TransitionsIncrease(paragraphs: seq<Zone>, width: int, n: nat)
    ensures Increasing(Transitions(paragraphs, width, n), n)
    decreases n
  {
    if n > 0 {
      TransitionsIncrease(paragraphs, width, n - 1);
    }
  }

  lemma {:induction false} TransitionsAlternate(paragraphs: seq<Zone>, width: int, n: nat)
    ensures Alternating(paragraphs, width, Transitions(paragraphs, width, n), n)
    decreases n
  {
    if n > 0 {
      var y := n - 1;
      TransitionsAlternate(paragraphs, width, y);
      var t := Transitions(paragraphs, width, y);
      if Changes(paragraphs, width, y) {
        var t' := t + [y];
        assert Transitions(paragraphs, width, n) == t';
        forall i | 0 <= i < |t'|
          ensures RowHit(paragraphs, width, t'[i]) <==> Odd(i)
        {
          if i < |t| {
            assert t'[i] == t[i];
          }
        }
      }
    }
  }

  lemma {:induction false} TransitionsExact(paragraphs: seq<Zone>, width: int, n: nat)
    ensures Exact(paragraphs, width, Transitions(paragraphs, width, n), n)
    decreases n
  {
    if n > 0 {
      var y := n - 1;
      TransitionsExact(paragraphs, width, y);
      TransitionsIncrease(paragraphs, width, y);
    }
  }

  /** Between two consecutive transitions (or after the last one) every row keeps the state of the first. */
  lemma {:induction false} SameStateUntilNextTransition(paragraphs: seq<Zone>, width: int, t: seq<int>, n: nat, i: nat, y: int)
    requires Increasing(t, n) && Exact(paragraphs, width, t, n)
    requires i < |t| && t[i] <= y < n
    requires i + 1 < |t| ==> y < t[i + 1]
    ensures RowHit(paragraphs, width, y) == RowHit(paragraphs, width, t[i])
    decreases y - t[i]
  {
    if y > t[i] {
      assert y !in t by {
        forall j | 0 <= j < |t|
          ensures t[j] != y
        {
          if j <= i {
            assert t[j] <= t[i];
          } else {
            assert t[i + 1] <= t[j];
          }
        }
      }
      assert !Changes(paragraphs, width, y);
      SameStateUntilNextTransition(paragraphs, width, t, n, i, y - 1);
    }
  }

  /** A free row has a transition at or above it with no other transition in between. */
  lemma {:induction false} TransitionAtOrAbove(paragraphs: seq<Zone>, width: int, t: seq<int>, n: nat, y: int) returns (i: nat)
    requires Increasing(t, n) && Exact(paragraphs, width, t, n)
    requires 0 <= y < n && !RowHit(paragraphs, width, y)
    ensures i < |t| && t[i] <= y && (i + 1 < |t| ==> y < t[i + 1])
    decreases y
  {
    if Changes(paragraphs, width, y) {
      assert y in t;
      var j :| 0 <= j < |t| && t[j] == y;
      i := j;
      if i + 1 < |t| {
        assert t[i] < t[i + 1];
      }
    } else {
      assert y !in t;
      i := TransitionAtOrAbove(paragraphs, width, t, n, y - 1);
    }
  }

  /** The facts the band lemmas build on, for the whole page. */
  lemma TransitionsFacts(paragraphs: seq<Zone>, width: int, height: nat)
    ensures var t := Transitions(paragraphs, width, height);
      Increasing(t, height) && Alternating(paragraphs, width, t, height) && Exact(paragraphs, width, t, height)
  {
    TransitionsIncrease(paragraphs, width, height);
    TransitionsAlternate(paragraphs, width, height);
    TransitionsExact(paragraphs, width, height);
  }

  /** The recorded rows come in pairs and increase, from 0 to the page height at most. */
  lemma CoordinatesArePairs(paragraphs: seq<Zone>, width: int, height: nat)
    ensures var c := Coordinates(paragraphs, width, height);
      && !Odd(|c|)
      && StrictlyIncreasing(c)
      && (forall i :: 0 <= i < |c| ==> 0 <= c[i] <= height)
  {
    TransitionsIncrease(paragraphs, width, height);
    TransitionsAlternate(paragraphs, width, height);
  }

  /**
   * Each pair delimits a maximal run of free rows: every row from the first
   * up to (not including) the second crosses no paragraph, the row above
   * the run is crossed unless the run starts at the top, and the row that
   * ends the run is crossed unless it is the page height.
   */
  lemma BandIsMaximalFreeRun(paragraphs: seq<Zone>, width: int, height: nat, k: nat)
    requires 2 * k + 1 < |Coordinates(paragraphs, width, height)|
    ensures var c := Coordinates(paragraphs, width, height);
      && (forall y :: c[2 * k] <= y < c[2 * k + 1] ==> !RowHit(paragraphs, width, y))
      && (c[2 * k] == 0 || RowHit(paragraphs, width, c[2 * k] - 1))
      && (c[2 * k + 1] == height || RowHit(paragraphs, width, c[2 * k + 1]))
  {
    var t := Transitions(paragraphs, width, height);
    var c := Coordinates(paragraphs, width, height);
    TransitionsFacts(paragraphs, width, height);
    assert c[2 * k] == t[2 * k];
    assert !Odd(2 * k) && Odd(2 * k + 1);
    assert t[2 * k] in t;
    forall y | c[2 * k] <= y < c[2 * k + 1]
      ensures !RowHit(paragraphs, width, y)
    {
      SameStateUntilNextTransition(paragraphs, width, t, height, 2 * k, y);
    }
    if 2 * k + 1 < |t| {
      assert c[2 * k + 1] == t[2 * k + 1];
    }
  }

  /** Every free row of the page lies in one of the bands. */
  lemma FreeRowsAreCovered(paragraphs: seq<Zone>, width: int, height: nat, y: int)
    requires 0 <= y < height && !RowHit(paragraphs, width, y)
    ensures var c := Coordinates(paragraphs, width, height);
      exists k :: 0 <= k && 2 * k + 1 < |c| && c[2 * k] <= y < c[2 * k + 1]
  {
    var k := BandOfFreeRow(paragraphs, width, height, y);
  }

  /** The band holding a free row, found from the transition at or above it. */
  lemma BandOfFreeRow(paragraphs: seq<Zone>, width: int, height: nat, y: int) returns (k: nat)
    requires 0 <= y < height && !RowHit(paragraphs, width, y)
    ensures var c := Coordinates(paragraphs, width, height);
      2 * k + 1 < |c| && c[2 * k] <= y < c[2 * k + 1]
  {
    var t := Transitions(paragraphs, width, height);
    TransitionsIncrease(paragraphs, width, height);
    TransitionsAlternate(paragraphs, width, height);
    TransitionsExact(paragraphs, width, height);
    var i := TransitionAtOrAbove(paragraphs, width, t, height, y);
    SameStateUntilNextTransition(paragraphs, width, t, height, i, y);
    assert !Odd(i);
    k := i / 2;
  }

  /** The bands built from the pairs: `new Rectangle(0, y1, width, y2 - y1)`. */
  function Bands(coordinates: seq<int>, width: int): (bands: seq<Zone>)
    ensures |bands| == |coordinates| / 2
    ensures forall k :: 0 <= k < |bands| ==>
      bands[k].kind == WhiteSpace && bands[k].rect.x == 0 && bands[k].rect.width == width
      && bands[k].rect.y == coordinates[2 * k] && Y2(bands[k].rect) == coordinates[2 * k + 1]
  {
    seq(|coordinates| / 2, k requires 0 <= k < |coordinates| / 2 =>
      Zone(WhiteSpace, Rect(0, coordinates[2 * k], width, coordinates[2 * k + 1] - coordinates[2 * k])))
  }

  /** The bands are disjoint, ordered top to bottom, not empty, and inside the rows of the page. */
  lemma BandsAreOrdered(paragraphs: seq<Zone>, width: int, height: nat)
    ensures var bands := Bands(Coordinates(paragraphs, width, height), width);
      && (forall k :: 0 <= k < |bands| ==> 0 <= bands[k].rect.y < Y2(bands[k].rect) <= height)
      && (forall k, l :: 0 <= k < l < |bands| ==> Y2(bands[k].rect) < bands[l].rect.y)
  {
    CoordinatesArePairs(paragraphs, width, height);
    var c := Coordinates(paragraphs, width, height);
    var bands := Bands(c, width);
    forall k, l | 0 <= k < l < |bands|
      ensures Y2(bands[k].rect) < bands[l].rect.y
    {
      assert 2 * k + 1 < 2 * l;
    }
  }
}

=== FILE: words.dfy ===
/**
 * Word: one word box of the OCR output, with the recognised text and the
 * OCR confidence. Words are objects: the border detection marks them in
 * place with the colour of the side they were found on (`TextZone.mark`).
 */
module Words {
  import opened Wrappers
  import opened Geometry
  import opened Sides
  import opened TextZones

  class Word {
    const rect: Rect
    const text: string
    const confidence: real
    /** `markColor`: None until the word is marked. */
    var markColor: Option<Color>

    constructor (rect: Rect, text: string, confidence: real)
      ensures this.rect == rect && this.text == text && this.confidence == confidence
      ensures markColor == None
    {
      this.rect := rect;
      this.text := text;
      this.confidence := confidence;
      markColor := None;
    }

    /** `mark(color)`: overwrites the previous mark. */
    method Mark(color: Color)
      modifies this
      ensures markColor == Some(color)
    {
      markColor := Some(color);
    }
  }

  /** One character of the pattern `[a-zA-Z0-9]`. */
  predicate IsAsciiAlphanumeric(c: char) {
    ('a' <= c <= 'z') || ('A' <= c <= 'Z') || ('0' <= c <= '9')
  }

  /** `text.matches("^[a-zA-Z0-9]*$")`: the star also accepts the empty text. */
  predicate MatchesAlphanumeric(text: string) {
    forall i :: 0 <= i < |text| ==> IsAsciiAlphanumeric(text[i])
  }

  /**
   * `Word.isValid`: a word whose text is not plain ASCII letters and digits
   * and whose confidence is at most 50% is rejected; any other word is
   * valid exactly when its box is a valid zone of the page.
   */
  predicate IsValidWord(w: Word, pageWidth: int, pageHeight: int) {
    if !MatchesAlphanumeric(w.text) && w.confidence <= 0.5 then false
    else IsValid(w.rect, pageWidth, pageHeight)
  }

  /** The text gate and the zone rules of `isValid`, spelled out. */
  lemma WordValidIff(w: Word, pageWidth: int, pageHeight: int)
    ensures IsValidWord(w, pageWidth, pageHeight) <==>
      && (MatchesAlphanumeric(w.text) || w.confidence > 0.5)
      && Contains(PageRect(pageWidth, pageHeight), w.rect)
      && w.rect.width > 10 && 100 * w.rect.width >= pageWidth && w.rect.height > 3
  {
    ValidIff(w.rect, pageWidth, pageHeight);
  }

  /** A confidence above 50% bypasses the text check. */
  lemma ConfidentWordSkipsTextCheck(w: Word, pageWidth: int, pageHeight: int)
    requires w.confidence > 0.5
    ensures IsValidWord(w, pageWidth, pageHeight) == IsValid(w.rect, pageWidth, pageHeight)
  {
  }

  /** The empty text matches the pattern, so it never fails the text check. */
  lemma EmptyTextSkipsTextCheck(w: Word, pageWidth: int, pageHeight: int)
    requires w.text == ""
    ensures IsValidWord(w, pageWidth, pageHeight) == IsValid(w.rect, pageWidth, pageHeight)
  {
  }

  /** A text with one character outside `[a-zA-Z0-9]` fails the check unless the confidence is above 50%. */
  lemma PunctuationNeedsConfidence(w: Word, pageWidth: int, pageHeight: int, i: nat)
    requires i < |w.text| && !IsAsciiAlphanumeric(w.text[i])
    requires w.confidence <= 0.5
    ensures !IsValidWord(w, pageWidth, pageHeight)
  {
  }
}

=== FILE: words_container.dfy ===
/**
 * The word queries of WordsContainerTextZone, the zones that hold words
 * (text lines, text blocks, paragraphs). A zone's words are the page words
 * lying mostly inside it; its border words on a side are those with no
 * other included word between them and the page edge on that side.
 */
module WordsContainers {
  import opened Numbers
  import opened Seqs
  import opened Geometry
  import opened Sides
  import opened TextZones
  import opened Words

  /** The filter of `getIncludedWords`. */
  function IncludedIn(zone: Rect): Word -> bool {
    (w: Word) => IsIncluded(w, zone)
  }

  predicate IsIncluded(w: Word, zone: Rect) {
    IsMostlyIncludedIn(w.rect, zone)
  }

  /** `getIncludedWords`: the page words at least 80% inside the zone, in page order. */
  function IncludedWords(zone: Rect, words: seq<Word>): (r: seq<Word>)
    ensures |r| <= |words|
    ensures forall w :: w in r ==> w in words && IsMostlyIncludedIn(w.rect, zone)
    ensures forall w :: w in words && IsMostlyIncludedIn(w.rect, zone) ==> w in r
  {
    FilterMembership(words, IncludedIn(zone));
    Filter(words, IncludedIn(zone))
  }

  /** Selecting the included words of a concatenation selects in each part, so page order is kept. */
  lemma IncludedWordsAppend(zone: Rect, a: seq<Word>, b: seq<Word>)
    ensures IncludedWords(zone, a + b) == IncludedWords(zone, a) + IncludedWords(zone, b)
  {
    FilterAppend(a, b, IncludedIn(zone));
  }

  /**
   * `isOnTheSide(side, word)`: no other included word (compared by
   * rectangle, as `TextZone.equals` does) overlaps the word's control
   * rectangle on that side.
   */
  predicate IsOnTheSide(side: Side, w: Word, included: seq<Word>, pageWidth: int, pageHeight: int) {
    var control := ControlRectangle(w.rect, side, pageWidth, pageHeight);
    forall o :: o in included && o.rect != w.rect ==> !Intersects(control, o.rect)
  }

  function OnTheSide(side: Side, included: seq<Word>, pageWidth: int, pageHeight: int): Word -> bool {
    (w: Word) => IsOnTheSide(side, w, included, pageWidth, pageHeight)
  }

  /** The words that `getWordsOnTheSideBorder(side)` returns (and marks): the included words on that side. */
  function WordsOnTheSideBorder(zone: Rect, side: Side, words: seq<Word>, pageWidth: int, pageHeight: int): (r: seq<Word>)
    ensures |r| <= |IncludedWords(zone, words)|
    ensures forall w :: w in r ==>
      w in words && IsMostlyIncludedIn(w.rect, zone) && IsOnTheSide(side, w, IncludedWords(zone, words), pageWidth, pageHeight)
    ensures forall w :: w in words && IsMostlyIncludedIn(w.rect, zone) && IsOnTheSide(side, w, IncludedWords(zone, words), pageWidth, pageHeight) ==> w in r
  {
    var included := IncludedWords(zone, words);
    FilterMembership(included, OnTheSide(side, included, pageWidth, pageHeight));
    Filter(included, OnTheSide(side, included, pageWidth, pageHeight))
  }

  function LeftsOf(ws: seq<Word>): seq<int> { seq(|ws|, i requires 0 <= i < |ws| => ws[i].rect.x) }
  function TopsOf(ws: seq<Word>): seq<int> { seq(|ws|, i requires 0 <= i < |ws| => ws[i].rect.y) }
  function RightsOf(ws: seq<Word>): seq<int> { seq(|ws|, i requires 0 <= i < |ws| => X2(ws[i].rect)) }
  function BottomsOf(ws: seq<Word>): seq<int> { seq(|ws|, i requires 0 <= i < |ws| => Y2(ws[i].rect)) }

  /**
   * A zone holding words has a word on each of its four borders: the
   * leftmost, topmost, rightmost and lowest included words.
   */
  lemma {:induction false} BordersOfNonEmptyZone(zone: Rect, words: seq<Word>, pageWidth: int, pageHeight: int)
    ensures IncludedWords(zone, words) != [] ==>
      forall side :: WordsOnTheSideBorder(zone, side, words, pageWidth, pageHeight) != []
  {
    var inc := IncludedWords(zone, words);
    forall side | inc != []
      ensures WordsOnTheSideBorder(zone, side, words, pageWidth, pageHeight) != []
    {
      var w := ExtremeWord(inc, side);
      assert forall o :: o in inc ==> Beyond(w, o, side);
      assert IsOnTheSide(side, w, inc, pageWidth, pageHeight);
      assert w in WordsOnTheSideBorder(zone, side, words, pageWidth, pageHeight);
    }
  }

  /** `w` lies at least as far towards `side` as `o`. */
  predicate Beyond(w: Word, o: Word, side: Side) {
    match side
    case Left => w.rect.x <= o.rect.x
    case Top => w.rect.y <= o.rect.y
    case Right => X2(o.rect) <= X2(w.rect)
    case Bottom => Y2(o.rect) <= Y2(w.rect)
  }

  /** Some word of `ws` is outermost towards `side`. */
  lemma {:induction false} ExtremeWord(ws: seq<Word>, side: Side) returns (w: Word)
    requires ws != []
    ensures w in ws && forall o :: o in ws ==> Beyond(w, o, side)
    decreases |ws|
  {
    if |ws| == 1 {
      w := ws[0];
    } else {
      var prefix := ws[..|ws| - 1];
      var last := ws[|ws| - 1];
      assert ws == prefix + [last];
      var w' := ExtremeWord(prefix, side);
      w := if Beyond(last, w', side) then last else w';
    }
  }

  /**
   * `countLines`: the larger of the numbers of left-border and right-border
   * words; never more than the included words, and at least one line as
   * soon as the zone holds a word.
   */
  function CountLines(zone: Rect, words: seq<Word>, pageWidth: int, pageHeight: int): (n: nat)
    ensures n <= |IncludedWords(zone, words)|
    ensures n >= |WordsOnTheSideBorder(zone, Left, words, pageWidth, pageHeight)|
    ensures n >= |WordsOnTheSideBorder(zone, Right, words, pageWidth, pageHeight)|
    ensures IncludedWords(zone, words) != [] ==> n >= 1
  {
    BordersOfNonEmptyZone(zone, words, pageWidth, pageHeight);
    Max(|WordsOnTheSideBorder(zone, Left, words, pageWidth, pageHeight)|,
        |WordsOnTheSideBorder(zone, Right, words, pageWidth, pageHeight)|)
  }

  function InControlOf(control: Rect): Word -> bool {
    (w: Word) => Intersects(control, w.rect)
  }

  /**
   * `getWordsOnTheSideOf(textZone, side)`: the included words overlapping
   * the control rectangle of another zone. On the RIGHT these are words
   * that reach past the zone's right edge on rows the zone spans.
   */
  function WordsOnTheSideOf(target: Rect, side: Side, zone: Rect, words: seq<Word>, pageWidth: int, pageHeight: int): (r: seq<Word>)
    ensures forall w :: w in r ==>
      w in IncludedWords(zone, words) && Intersects(ControlRectangle(target, side, pageWidth, pageHeight), w.rect)
    ensures forall w :: w in IncludedWords(zone, words) && Intersects(ControlRectangle(target, side, pageWidth, pageHeight), w.rect) ==> w in r
    ensures side == Right ==> forall w :: w in r ==>
      X2(target) < X2(w.rect) && w.rect.y < Y2(target) && target.y < Y2(w.rect)
  {
    var control := ControlRectangle(target, side, pageWidth, pageHeight);
    FilterMembership(IncludedWords(zone, words), InControlOf(control));
    Filter(IncludedWords(zone, words), InControlOf(control))
  }

  /** `getText`: each included word's text followed by a space. */
  function TextOf(ws: seq<Word>): (s: string)
    ensures |s| >= |ws|
    ensures ws != [] ==> s[|s| - 1] == ' '
    decreases |ws|
  {
    if ws == [] then "" else TextOf(ws[..|ws| - 1]) + ws[|ws| - 1].text + " "
  }

  /** The text of a concatenation is the concatenation of the texts. */
  lemma {:induction false} TextOfAppend(a: seq<Word>, b: seq<Word>)
    ensures TextOf(a + b) == TextOf(a) + TextOf(b)
    decreases |b|
  {
    if b != [] {
      var b' := b[..|b| - 1];
      assert (a + b)[..|a + b| - 1] == a + b';
      assert (a + b)[|a + b| - 1] == b[|b| - 1];
      TextOfAppend(a, b');
    } else {
      assert a + b == a;
    }
  }

  function HeightsOf(ws: seq<Word>): seq<int> { seq(|ws|, i requires 0 <= i < |ws| => ws[i].rect.height) }

  /** The height an up or down rectangle scales: the tallest included word's, or the zone's own when it holds none. */
  function ReferenceHeight(zone: Rect, included: seq<Word>): (h: int)
    ensures included == [] ==> h == zone.height
    ensures included != [] ==> forall w :: w in included ==> w.rect.height <= h
    ensures included != [] ==> exists w :: w in included && w.rect.height == h
  {
    if included == [] then zone.height
    else
      var h := MaxOf(HeightsOf(included));
      assert forall w :: w in included ==> w.rect.height <= h by {
        forall w | w in included ensures w.rect.height <= h {
          var i :| 0 <= i < |included| && included[i] == w;
          assert HeightsOf(included)[i] == w.rect.height;
        }
      }
      var i :| 0 <= i < |included| && HeightsOf(included)[i] == h;
      assert included[i] in included;
      h
  }

  /** The expansion height: `(int) (referenceHeight * percent)`. */
  function DeltaHeight(zone: Rect, words: seq<Word>, percent: real): int {
    TruncReal(ReferenceHeight(zone, IncludedWords(zone, words)) as real * percent)
  }

  /** `getUpRectangle(percent)`: the strip of that height just above the zone, on its columns. */
  function UpRectangle(zone: Rect, words: seq<Word>, percent: real): (u: Rect)
    ensures u.x == zone.x && u.width == zone.width
    ensures Y2(u) == zone.y && u.height == DeltaHeight(zone, words, percent)
  {
    var delta := DeltaHeight(zone, words, percent);
    Rect(zone.x, zone.y - delta, zone.width, delta)
  }

  /** `getDownRectangle(percent)`: the strip of that height starting at the zone's bottom, on its columns. */
  function DownRectangle(zone: Rect, words: seq<Word>, percent: real): (d: Rect)
    ensures d.x == zone.x && d.width == zone.width
    ensures d.y == Y2(zone) && d.height == DeltaHeight(zone, words, percent)
  {
    Rect(zone.x, Y2(zone), zone.width, DeltaHeight(zone, words, percent))
  }
}

=== FILE: wrappers.dfy ===
/**
 * Optional values and results with the exceptions of the Java source.
 * A Java method that throws is modelled as a function or method that
 * returns `Failure(e)`, where `e` names the exception class.
 */
module Wrappers {
  datatype Option<T> = None | Some(value: T)

  /** The unchecked exceptions the layout engine throws. */
  datatype Error =
    | IllegalArgument   // IllegalArgumentException
    | IllegalState      // IllegalStateException
    | NoSuchElement     // NoSuchElementException from Optional.get()
    | IndexOutOfBounds  // IndexOutOfBoundsException from List.get(0)

  datatype Result<T> = Success(value: T) | Failure(error: Error)
}

/**
 * Integer arithmetic of the Java source. Dafny's `/` on `int` is Euclidean;
 * Java's `/` on `int` and its `(int)` casts of a double round toward zero.
 */
module Numbers {
  function Min(a: int, b: int): int { if a <= b then a else b }
  function Max(a: int, b: int): int { if a >= b then a else b }
  function Abs(a: int): nat { if a >= 0 then a else -a }

  /** Java's `n / d` on ints, for a positive divisor: rounds toward zero. */
  function TruncDiv(n: int, d: int): (q: int)
    requires d > 0
    ensures Abs(q) == Abs(n) / d
    ensures n >= 0 ==> q >= 0
    ensures n <= 0 ==> q <= 0
  {
    if n >= 0 then n / d else -((-n) / d)
  }

  /** Java's `(int) x` for a double `x`: drops the fraction, toward zero. */
  function TruncReal(x: real): (i: int)
    ensures x >= 0.0 ==> i as real <= x < i as real + 1.0
    ensures x < 0.0 ==> i as real - 1.0 < x <= i as real
  {
    if x >= 0.0 then x.Floor else -((-x).Floor)
  }
}
